=== FILE: README.md ===
# RPG gameplay core in Dafny

A model of the gameplay core of a Unity action-RPG. The C# code is organised
as MonoBehaviour components; the model keeps the integer and finite-collection
logic underneath them. That logic covers:

- **Character stats.** Base attributes plus modifiers; the derived maximum
  health, mana and defences; spending attribute points; health and mana
  clamping with proportional rescaling; the one-shot death notification.
- **Progression.** The experience loop that may cross several levels per
  grant, level-up rewards, `SetLevel`, and start-up validation.
- **Equipment and inventory.** A twelve-slot equipment table with a
  requirement check and symmetric bonus add/subtract. A refresh that rebuilds
  the modifiers from the worn items. A fixed-size slot inventory with
  stacking, in-order removal and counting. Consumables.
- **Combat.** The player's target/attack state machine and the integer part
  of its damage formula. The enemy's Idle/Chasing/Attacking machine with its
  attack flags, reach gate and detection hysteresis. Death handling with
  experience rewards and loot rolls.
- **Quests.** Objectives with a one-shot completion flag. Quest templates.
  The quest ledger with its active and completed lists, ordered acceptance
  rules, and event fan-out to objectives. The time-limit check.
- **IDs.** The ID registry with three disjoint ID ranges.

The style is functional. Every component is an immutable datatype. Every
operation is a pure function from the old state to the new state, plus a
result where the C# method returns one. Events are modelled as counters
(`deathNotices`, `attackStarts`, `attackFinishes`, `completionNotices`, …),
so "fires at most once" can be stated and proved.

A null reference becomes `Option`. A Unity object that was destroyed compares
equal to null, so a target destroyed mid-attack becomes `None`.

The engine's float comparisons become exact integer ones:

- the 1.2× reach gate is `10·d <= 12·r`;
- losing the player beyond 1.5× the radius is `2·d > 3·R`;
- the critical chance `Dex·0.1 + Int·0.05` percent is compared with a roll in
  twentieths of a percent.

C# `/` truncates toward zero; `Util.TruncDiv` models it, and
`Stats.NegativeVitalityDefense` and `Stats.NegativeIntelligenceDefense` show
where it differs from Dafny's Euclidean division.

Quest objectives are shared objects. The record made when a quest is accepted
copies the template's objective *list* but refers to the *same* objective
objects (`Scripts/Quest/QuestManager.cs:445-448`). Objectives therefore live in
a heap (`map<ObjRef, Objective>`), and templates and records hold references
into it. The code shares them, and the model follows the code. One consequence is
proved in `QuestLedger.ReacceptedQuestStartsComplete`: a repeatable quest that
is handed in and accepted again starts out already complete.

Behaviours of the code that the model keeps, and proves:

- **Incoherent objectives.** An objective is complete when flagged or when its
  count reaches the requirement. So completion is monotone only for coherent
  objectives (`Objectives.UpdateKeepsCompletion`) or non-negative amounts.
  `Objectives.CompletionNotMonotoneWhenIncoherent` shows it failing otherwise.
- **Revival by restore.** `RestoreFullHealth` after death makes the character
  alive again while the dead flag stays set. From then on every hit is
  ignored (`Stats.RestoreAfterDeathIsInvulnerable`).
- **Double finish.** When the target has vanished at impact, `FinishAttack`
  runs twice (`Combat.Impact`).
- **Refresh drops buffs.** A refresh discards consumable buffs
  (`Equipment.RefreshDiscardsBuffs`).
- **Non-atomic add.** `AddItem` can fail after a partial insertion
  (`Inventory.AddItem`).

## Model

| member | source | states |
|---|---|---|
| Util.Clamp | Scripts/Stats/CharacterStats.cs:582 | The result lies in [lo, hi] whenever lo ≤ hi; in-range values are kept, values below lo become lo, values above hi become hi |
| Util.TruncDiv | Scripts/Stats/CharacterStats.cs:193-196 | The quotient rounds toward zero: for non-negative a it is the floor, for negative a it is the ceiling of a / b |
| Util.CeilDiv | Scripts/Stats/CharacterStats.cs:143-162 | The result is the least integer q with a ≤ q·b |
| Stats.Attributes.Bump | Scripts/Stats/CharacterStats.cs:511-546 | Only the chosen attribute changes, and by exactly the given amount |
| Stats.CharacterStats.Effective | Scripts/Stats/CharacterStats.cs:279-294 | Each effective attribute is its base value plus its modifier |
| Stats.Rescale | Scripts/Stats/CharacterStats.cs:143-162 | A value that is zero or below, or an old maximum of zero or below, leaves the value unchanged. A positive value under positive maxima stays at least 1. A positive value within its old maximum stays within a non-negative new maximum. A full value stays full |
| Stats.RescaleIsCeiling | Scripts/Stats/CharacterStats.cs:143-162 | In the model's exact arithmetic, a positive value under a positive old maximum becomes the least integer not below current·newMax/oldMax. The original's single-precision expression can land one higher (see "## Left out") |
| Stats.RescaleBounds | Scripts/Stats/CharacterStats.cs:143-162 | Any ceiling of current·newMax/oldMax is positive for a positive new maximum, lies within the new maximum, and is exact for a full value |
| Stats.RescalePositive | Scripts/Stats/CharacterStats.cs:147-150 | A positive value scaled up to a positive new maximum never rounds to zero |
| Stats.RescaleWithin | Scripts/Stats/CharacterStats.cs:147-150 | A value within the old maximum stays within the new one |
| Stats.RescaleFull | Scripts/Stats/CharacterStats.cs:147-150 | A value at its old maximum lands exactly on the new maximum |
| Stats.CalculateStats | Scripts/Stats/CharacterStats.cs:118-208 | The result's derived stats agree with the formulas over the effective attributes. The equipment bonuses are replaced when a table exists and kept otherwise. Health and mana follow their maxima proportionally, zero health stays zero, and attributes, points and the death state are untouched |
| Stats.Spawn | Scripts/Stats/CharacterStats.cs:73-92 | A new character has consistent derived stats, full health and mana, no modifiers, and is not dead |
| Stats.AddPoints | Scripts/Stats/CharacterStats.cs:436-491 | Spending succeeds exactly when 0 < points ≤ unspent points, and a failure changes nothing. On success the chosen base rises by the points, the other bases are unchanged, and base plus unspent points is conserved |
| Stats.AddAttributePoints | Scripts/Stats/CharacterStats.cs:496-502 | Only the unspent points change, growing by a positive grant and not at all otherwise |
| Stats.AddModifier | Scripts/Stats/CharacterStats.cs:511-546 | Only the chosen modifier changes, by the amount. Base, points and death state are kept, and derived stats are recomputed |
| Stats.AddModifiers | Scripts/Inventory/ConsumableItem.cs:51-58 | Adding four modifiers one by one adds the whole bonus record and leaves the derived stats consistent |
| Stats.ClearAllModifiers | Scripts/Stats/CharacterStats.cs:551-563 | All four modifiers become zero. When they already are, nothing changes; otherwise derived stats are recomputed |
| Stats.ModifyHealth | Scripts/Stats/CharacterStats.cs:572-614 | A dead character ignores damage. Otherwise health becomes the clamped sum. The dead flag is set exactly when health changed and reached zero (or it was set before), the notification fires once on that transition, and health stays in [0, max] |
| Stats.ShowsDamageText | Scripts/Stats/CharacterStats.cs:588-606 | The character's own floating damage text appears only for damage not flagged as coming from the combat resolver, on a character not already dead, and only when health really went down |
| Stats.IsAlive | Scripts/Stats/CharacterStats.cs:679-682 | Alive means positive health; its agreement with the death notification is stated by `Stats.DeathNoticeMeansNotAlive` |
| Stats.DeathNoticeMeansNotAlive | Scripts/Stats/CharacterStats.cs:572-614 | A health change that raises the death notification leaves the character not alive, and a change of health that leaves a living character not alive raises it |
| Stats.Die | Scripts/Stats/CharacterStats.cs:689-701 | The dead flag ends set, and the notification fires only if it was not set before |
| Stats.ModifyMana | Scripts/Stats/CharacterStats.cs:642-652 | Mana becomes the clamped sum and nothing else changes |
| Stats.RestoreFullHealth | Scripts/Stats/CharacterStats.cs:657-663 | Health equals its maximum afterwards, with nothing else changed |
| Stats.RestoreFullMana | Scripts/Stats/CharacterStats.cs:668-674 | Mana equals its maximum afterwards, with nothing else changed |
| Stats.DeathFiresAtMostOnce | Scripts/Stats/CharacterStats.cs:609-611 | Over any sequence of health changes the death notification fires at most once, health stays within [0, max], and a dead character stays dead |
| Stats.DeadIgnoresDamage | Scripts/Stats/CharacterStats.cs:574-578 | Once dead, any sequence of damage leaves the character exactly as it was |
| Stats.RestoreAfterDeathIsInvulnerable | Scripts/Stats/CharacterStats.cs:657-682 | Restoring full health after death makes the character alive while still flagged dead, so every later hit is ignored |
| Stats.VitalityRaisesMaxima | Scripts/Stats/CharacterStats.cs:144-155 | Each vitality point spent raises maximum health by 10 and maximum mana by 1 |
| Stats.NegativeVitalityDefense | Scripts/Stats/CharacterStats.cs:193 | For every negative effective vitality v, physical defence is the equipment bonus minus (−v)/2 rounded down, which for odd v is one more than floor division gives |
| Stats.NegativeIntelligenceDefense | Scripts/Stats/CharacterStats.cs:196 | For every negative effective intelligence i, magical defence is the equipment bonus minus (−i)/3 rounded down, which for i not a multiple of 3 is one more than floor division gives |
| Items.SlotIndex | Scripts/Inventory/EquipmentItem.cs:177-196 | Every slot has a position in the enumeration that holds it |
| Items.AllSlotsComplete | Scripts/Inventory/EquipmentItem.cs:177-196 | The slot enumeration has twelve entries and lists every slot exactly once |
| EquipmentItems.CanEquip | Scripts/Inventory/EquipmentItem.cs:75-106 | Equipping is allowed exactly when stats and level exist and level, strength, dexterity and intelligence meet their requirements, compared against effective attributes |
| EquipmentItems.CanEquipMonotone | Scripts/Inventory/EquipmentItem.cs:80-105 | Higher effective attributes at a higher level never forbid an allowed item |
| EquipmentItems.CanEquipIgnoresVitality | Scripts/Inventory/EquipmentItem.cs:53-63 | Changing vitality never changes whether an item can be equipped |
| EquipmentItems.ModifierSatisfiesRequirement | Scripts/Inventory/EquipmentItem.cs:87-91 | With level, dexterity and intelligence met, and base strength < required ≤ base + modifier, the item is refused without the strength modifier and allowed with it |
| Consumables.UseConsumable | Scripts/Inventory/ConsumableItem.cs:32-65 | Missing stats mean nothing happens. Otherwise the bonuses are added to the modifiers for good, and base and points are kept. Mana is untouched when there is neither a mana restore nor a bonus |
| Consumables.ConsumableOnlyHeals | Scripts/Inventory/ConsumableItem.cs:37-41 | A consumable never kills or lowers health, and heals by exactly the clamped restore amount |
| Consumables.ConsumableBuffsStack | Scripts/Inventory/ConsumableItem.cs:51-63 | Two consumables' bonuses add up, since no duration ever removes them |
| Inventory.Slot.Clear | Scripts/Inventory/InventorySystem.cs:285-297 | A cleared slot holds no item and zero quantity, and counts as empty |
| Inventory.InitializeInventory | Scripts/Inventory/InventorySystem.cs:42-49 | The inventory has exactly the configured number of slots, all empty, and satisfies the slot invariant |
| Inventory.FindEmptySlot | Scripts/Inventory/InventorySystem.cs:218-228 | The result is −1 exactly when every slot holds an item; otherwise it is the lowest index of an empty slot |
| Inventory.TopUp | Scripts/Inventory/InventorySystem.cs:62-80 | Topping up existing stacks, in slot order, conserves item count plus remainder and never exceeds the stack limit. A remainder is left only when every stack of the item is full |
| Inventory.Fill | Scripts/Inventory/InventorySystem.cs:85-99 | New stacks go only into empty slots and conserve count plus remainder. A remainder is left only when no empty slot remains |
| Inventory.AddItem | Scripts/Inventory/InventorySystem.cs:57-105 | A missing item or non-positive quantity is refused unchanged. Success raises the item's count by exactly the quantity. Failure means no empty slot is left, with any partial insertion kept. Other items' counts never change |
| Inventory.AddItemKeepsValid | Scripts/Inventory/InventorySystem.cs:66-97 | Insertion keeps every slot's item/quantity invariant and the stack limit |
| Inventory.StacksFilledBeforeNewSlots | Scripts/Inventory/InventorySystem.cs:62-93 | A stackable item opens a new stack only after every existing stack of it is full |
| Inventory.RemoveItemNeverFills | Scripts/Inventory/InventorySystem.cs:119-135 | Removing never puts an item into a slot: every slot keeps its item or ends empty |
| Inventory.RemoveItem | Scripts/Inventory/InventorySystem.cs:113-146 | A missing item or non-positive quantity is refused unchanged. Otherwise the count drops by min(quantity, count), the result says whether at least one unit was removed, other items keep their counts, and the invariant is kept |
| Inventory.HasItem | Scripts/Inventory/InventorySystem.cs:179-194 | A positive answer implies some slot holds the item |
| Inventory.Count | Scripts/Inventory/InventorySystem.cs:201-212 | The item count: the total quantity over the slots holding the item. `Inventory.GetItemCount`, the forward scan, computes the same |
| Inventory.GetItemCount | Scripts/Inventory/InventorySystem.cs:201-212 | One pass over the slots in order, adding the quantity of each slot holding the item, gives exactly the item count |
| Inventory.HasItemIffCount | Scripts/Inventory/InventorySystem.cs:179-212 | For a quantity of at least 1, the early-exit scan answers true exactly when the item count is at least the quantity |
| Inventory.HasItemZeroQuantity | Scripts/Inventory/InventorySystem.cs:179-194 | For quantity 0 the scan answers whether any slot holds the item, not a count comparison |
| Inventory.AddThenRemoveRestoresCount | Scripts/Inventory/InventorySystem.cs:57-146 | A successful add followed by removing the same quantity restores the item's count |
| Equipment.InitializeEquipmentSlots | Scripts/Inventory/EquipmentManager.cs:120-127 | After start-up every one of the twelve slots exists and is empty |
| Equipment.NewManager | Scripts/Inventory/EquipmentManager.cs:120-127 | A new manager wears nothing, so the worn bonuses are zero and the cache is honest |
| Equipment.ApplyEquipmentBonuses | Scripts/Inventory/EquipmentManager.cs:244-281 | Without stats it fails and changes nothing. Otherwise exactly the item's four bonuses are added (or subtracted), the rest of the character is kept, and the cache is marked stale |
| Equipment.UnequipItem | Scripts/Inventory/EquipmentManager.cs:194-236 | The result is the slot's occupant. An empty slot changes nothing; otherwise the slot is emptied and the cache is marked stale |
| Equipment.UnequipItemStats | Scripts/Inventory/EquipmentManager.cs:203-209 | Unequipping subtracts exactly the occupant's bonuses from the modifiers and keeps the rest of the character |
| Equipment.UnequipItemTable | Scripts/Inventory/EquipmentManager.cs:196-209 | The slot ends empty, no other slot changes, items stay in their declared slots, and the cache stays honest |
| Equipment.EquipItem | Scripts/Inventory/EquipmentManager.cs:134-187 | A missing item, missing stats or level, or an unmet requirement give null and no change. Otherwise the previous occupant is returned, the item is placed in its declared slot, and the cache is marked stale |
| Equipment.EquipItemStats | Scripts/Inventory/EquipmentManager.cs:151-163 | Equipping removes exactly the displaced occupant's bonuses and adds exactly the new item's |
| Equipment.EquipItemTable | Scripts/Inventory/EquipmentManager.cs:147-157 | Every worn item stays in its declared slot, and the cache stays honest |
| Equipment.EquipKeepsNonEquipmentModifiers | Scripts/Inventory/EquipmentManager.cs:250-256 | Modifiers minus the worn bonuses never change under equipping, so other buffs survive |
| Equipment.UnequipKeepsNonEquipmentModifiers | Scripts/Inventory/EquipmentManager.cs:206-209 | Modifiers minus the worn bonuses never change under unequipping |
| Equipment.EquipThenUnequipRestores | Scripts/Inventory/EquipmentManager.cs:134-236 | Equipping into an empty slot and then unequipping returns the item, restores every modifier exactly, and restores every slot |
| Equipment.EquipReplacesOccupant | Scripts/Inventory/EquipmentManager.cs:151-157 | Equipping into an occupied slot returns the previous occupant, and the slot holds only the new item |
| Equipment.UpdateStatsCache | Scripts/Inventory/EquipmentManager.cs:375-405 | After an update the cache is no longer stale, and an honest cache stays honest |
| Equipment.GetTotalPhysicalDefense | Scripts/Inventory/EquipmentManager.cs:411-415 | With an honest cache the answer is the physical defence summed over the worn items |
| Equipment.GetTotalMagicalDefense | Scripts/Inventory/EquipmentManager.cs:421-425 | With an honest cache the answer is the magical defence summed over the worn items |
| Equipment.SingleItemDefense | Scripts/Inventory/EquipmentManager.cs:382-415 | With a single item worn, the total physical defence is that item's |
| Equipment.RefreshEquipmentBonuses | Scripts/Inventory/EquipmentManager.cs:451-479 | Without stats it fails and changes nothing. Otherwise the modifiers become exactly the sum of the worn items' bonuses |
| Equipment.RefreshDiscardsBuffs | Scripts/Inventory/EquipmentManager.cs:458-467 | A refresh discards any modifier that did not come from equipment, such as a consumable buff |
| Equipment.UseEquipment | Scripts/Inventory/EquipmentItem.cs:108-119 | Using equipment equips it, into its declared slot, when the requirements hold, and changes nothing otherwise |
| Equipment.UseInventoryItem | Scripts/Inventory/InventorySystem.cs:152-171 | An out-of-range index, an empty slot or missing player stats change nothing, and so does a plain item that is not a consumable. The inventory keeps its size |
| Equipment.EquipLastUnitEmptiesSlot | Scripts/Inventory/InventorySystem.cs:152-171 | Using the slot holding the last unit of a wearable item, with its equipment slot free, equips it (EquipmentManager.cs:166-168 takes that unit): the item is worn, the inventory slot is empty, its count is 0 and no other item's count changes |
| Equipment.PotionSpendsOneUnit | Scripts/Inventory/InventorySystem.cs:152-171 | Drinking a potion from a slot spends exactly one unit of it |
| Progression.ExpToNextLevel | Scripts/Stats/LevelSystem.cs:216-231 | From level 1 on, the threshold is the scaled amount for level + 1; only below level 1 is it the base amount |
| Progression.Settle | Scripts/Stats/LevelSystem.cs:139-176 | The level never drops, and the final experience is below the next threshold. Experience is conserved: old = new + the sum of the thresholds paid. Experience that does not cover the threshold changes nothing |
| Progression.ApplyLevelUpRewards | Scripts/Stats/LevelSystem.cs:181-200 | One level grants its points and restores health and mana to full, with nothing else changed |
| Progression.RewardsEffect | Scripts/Stats/LevelSystem.cs:150-157 | n levels grant n times the per-level points and leave health and mana full |
| Progression.AddExperience | Scripts/Stats/LevelSystem.cs:111-134 | A non-positive amount is refused unchanged. Otherwise the level-up loop ends exactly where the reference `Settle` does. Experience is conserved, the level never drops, and points granted = per-level points × levels gained |
| Progression.MoreExperienceNeverLowersLevel | Scripts/Stats/LevelSystem.cs:147-164 | More experience never ends at a lower level |
| Progression.SetLevel | Scripts/Stats/LevelSystem.cs:278-339 | A non-positive or unchanged level is refused unchanged. Otherwise the level is set and experience becomes 0, and lowering the level grants nothing |
| Progression.SetLevelGrantsLikeLevelUps | Scripts/Stats/LevelSystem.cs:300-320 | Raising the level directly grants the same points and vitals as climbing those levels one by one |
| Progression.ValidateInitialValues | Scripts/Stats/LevelSystem.cs:82-104 | After validation the level is ≥ 1, experience ≥ 0 and the multiplier > 1.0, and valid values are kept |
| Progression.ValidateIdempotent | Scripts/Stats/LevelSystem.cs:82-104 | Validating twice is the same as validating once |
| Combat.SetTarget | Scripts/Combat/CombatSystem.cs:169-198 | A null target is refused unchanged. Any other becomes the current target, and the change notification fires only if it differs |
| Combat.FinishAttack | Scripts/Combat/CombatSystem.cs:358-373 | The attack flag is cleared and the finished notification fires, every time |
| Combat.ClearTarget | Scripts/Combat/CombatSystem.cs:203-230 | Without a target nothing changes. Otherwise a running attack is finished, the target becomes null, and the arming flag is kept |
| Combat.CheckForTargetUnderMouse | Scripts/Combat/CombatSystem.cs:110-162 | Clicks over the interface or without a camera are ignored. An enemy hit becomes the target with no attack running. Any other hit clears the target |
| Combat.StartAttack | Scripts/Combat/CombatSystem.cs:235-263 | Without a target or while disarmed nothing happens. Otherwise the attack starts: attacking, disarmed, counted once |
| Combat.Update | Scripts/Combat/CombatSystem.cs:87-105 | An attack starts in a frame exactly when there is a target, the resolver is armed and not attacking, and the target is within range |
| Combat.TargetDestroyed | Scripts/Combat/CombatSystem.cs:302 | A destroyed target reads as null from then on |
| Combat.BaseDamage | Scripts/Combat/CombatSystem.cs:400-404 | Damage before the critical multiplier is twice the effective strength plus the level, if any |
| Combat.CalculateDamage | Scripts/Combat/CombatSystem.cs:396-451 | Without stats the damage is 5 and not critical. Otherwise the hit is critical exactly when the roll is within the critical chance, and the damage comes from the base damage |
| Combat.CritChanceTwentieths | Scripts/Combat/CombatSystem.cs:445-451 | The critical chance Dex·0.1 + Int·0.05 percent, counted in twentieths of a percent |
| Combat.CritChanceMonotone | Scripts/Combat/CombatSystem.cs:445-451 | More dexterity and intelligence never lower the critical chance, so a roll critical for the weaker character is critical for the stronger |
| Combat.Impact | Scripts/Combat/CombatSystem.cs:296-353 | With the target gone, the attack is finished twice. Otherwise, when the target has stats, the damage goes through its health, the recorded flag during that call is up, and the flag is down afterwards; the attack is finished once. Whether the target's own damage text showed is the text rule applied with the recorded flag |
| Combat.CombatHitShowsNoStatsText | Scripts/Combat/CombatSystem.cs:316-322 | A hit on a target with stats is dealt with the combat flag recorded up, so the target's own damage text does not show, and the flag is down afterwards. With the flag down the same hit would show that text exactly when it is positive and changed health |
| Combat.CooldownElapsed | Scripts/Combat/CombatSystem.cs:378-382 | The cooldown re-arms the attack and changes nothing else |
| Combat.CancelAttack | Scripts/Combat/CombatSystem.cs:476-508 | Without a running attack the call is refused unchanged. Otherwise the attack ends, the target is cleared, and the arming flag is kept |
| Combat.OnlyCooldownRearms | Scripts/Combat/CombatSystem.cs:240-241 | No event other than the cooldown re-arms a disarmed resolver |
| Combat.DisarmedWithoutCooldown | Scripts/Combat/CombatSystem.cs:378-382 | Without a cooldown event, a disarmed resolver starts no attack, over any run |
| Combat.StartsBoundedByCooldowns | Scripts/Combat/CombatSystem.cs:235-263 | Over any run, the attacks started are at most the cooldowns elapsed, plus one if the resolver began armed |
| Enemies.ChooseState | Scripts/Enemy/EnemyController.cs:206-228 | Idle without a player. Attacking exactly when within attack range and armed. Otherwise Chasing exactly when within the detection radius |
| Enemies.PerformAttack | Scripts/Enemy/EnemyController.cs:302-333 | Starting an attack makes the enemy attacking and disarmed and counts one start |
| Enemies.FinishAttack | Scripts/Enemy/EnemyController.cs:397-411 | Finishing makes the enemy idle and armed again and counts one finish |
| Enemies.Frame | Scripts/Enemy/EnemyController.cs:125-140 | A disabled or untracking enemy does nothing. Otherwise the state is rechosen, and an attack starts exactly when attacking, armed and not already attacking |
| Enemies.Scan | Scripts/Enemy/EnemyController.cs:166-201 | A player seen is tracked. An unseen tracked player is dropped exactly when beyond 1.5× the radius, which makes the enemy idle. Attack flags are untouched |
| Enemies.TrackingHysteresis | Scripts/Enemy/EnemyController.cs:186-197 | A tracked player within 1.5× the radius is kept even when not seen |
| Enemies.EnemyDamage | Scripts/Enemy/EnemyController.cs:416-433 | Without stats the damage is 3. Otherwise it comes from 1.5× strength, with no critical path |
| Enemies.ApplyDamageToPlayer | Scripts/Enemy/EnemyController.cs:373-392 | Damage lands exactly when a tracked player with stats is within 1.2× the attack range. It then goes through the player's health, and otherwise nothing changes |
| Enemies.HandleDeath | Scripts/Enemy/EnemyController.cs:456-482 | The controller is disabled and the death notification fires |
| Enemies.StepKeepsFlags | Scripts/Enemy/EnemyController.cs:276-279 | Every event keeps exactly one of attacking/armed set, and an attack starts only from armed and not attacking |
| Enemies.RunKeepsFlags | Scripts/Enemy/EnemyController.cs:305-306 | Over any run the flags stay complementary, and starts = finishes + (1 if attacking) |
| Enemies.SpawnedRunsKeepFlags | Scripts/Enemy/EnemyController.cs:397-411 | From spawn, every run keeps the flag invariant |
| Death.CalculateExperienceReward | Scripts/Combat/DeathSystem.cs:303-315 | The reward is the configured amount, plus 5 per level of the dying entity when it has a level |
| Death.RewardGrowsWithLevel | Scripts/Combat/DeathSystem.cs:303-315 | A higher enemy level never lowers the reward |
| Death.ShouldDropItem | Scripts/Combat/DeathSystem.cs:355-359 | An entry drops when the roll is at most its chance, both in hundredths of a percent; `Death.DropChanceExtremes` and `Death.DropChanceMonotone` state what that means |
| Death.DropChanceMonotone | Scripts/Combat/DeathSystem.cs:355-359 | A higher chance, or a lower roll, never turns a drop into no drop |
| Death.DropChanceExtremes | Scripts/Combat/DeathSystem.cs:355-359 | A chance of 100% always drops; a negative chance never does |
| Death.RandomRangeInt | Scripts/Combat/DeathSystem.cs:366 | The draw lies in [lo, hi) for a proper range, is lo for an empty one, and lies in (hi, lo] when the bounds are swapped |
| Death.CalculateDropQuantity | Scripts/Combat/DeathSystem.cs:364-367 | The quantity lies in [min, max] inclusive |
| Death.EveryQuantityReachable | Scripts/Combat/DeathSystem.cs:364-367 | Every quantity in [min, max] is produced by some draw |
| Death.DropFrom | Scripts/Combat/DeathSystem.cs:328-349 | At most one drop per entry, and every drop comes from some entry holding its item, whose roll passed and whose quantity draw gave the amount |
| Death.DropLoot | Scripts/Combat/DeathSystem.cs:320-350 | No table or no prefab means no drops, and never more drops than entries |
| Death.AddLootItem | Scripts/Combat/DeathSystem.cs:472-493 | A missing item changes nothing. Otherwise the table grows by one entry with the given fields and the earlier entries unchanged |
| Death.DropFromAppend | Scripts/Combat/DeathSystem.cs:472-493 | The drops of a table with an entry appended are the old drops followed by the new entry's |
| Death.AddLootItemExtendsDrops | Scripts/Combat/DeathSystem.cs:472-493 | Adding a loot entry keeps every drop the table already produced |
| Death.ListenForDeath | Scripts/Combat/DeathSystem.cs:72 | With the handler subscribed to the health-reached-zero notification, any sequence of health changes runs it at most once: one outcome exactly when the sequence kills a living entity, none for one already dead, and that outcome carries the enemy's loot and experience reward |
| Death.HandleDeath | Scripts/Combat/DeathSystem.cs:101-149 | An inactive entity is ignored, and a player's death grants nothing. An enemy's death gives the experience reward to the player's level component if one exists (its level never drops), drops the loot, and schedules removal |
| Objectives.NewObjective | Scripts/Quest/QuestObjective.cs:66-126 | Every objective kind starts with no progress, not complete, requiring one unit |
| Objectives.UpdateProgress | Scripts/Quest/QuestObjective.cs:34-42 | The amount is added unclamped. The flag is set once the count reaches the requirement and never cleared, and the completion notice fires only on that transition |
| Objectives.ResetProgress | Scripts/Quest/QuestObjective.cs:47-51 | Progress goes to 0 and the flag is cleared, so an objective needing something is incomplete |
| Objectives.IsCompleted | Scripts/Quest/QuestObjective.cs:26-29 | Done when flagged or when the count has reached the requirement; for an objective whose flag agrees with its count, the flag alone decides |
| Objectives.UpdateKeepsCompletion | Scripts/Quest/QuestObjective.cs:26-42 | For a coherent objective, progress of any sign keeps coherence and never un-completes it |
| Objectives.CompletionNotMonotoneWhenIncoherent | Scripts/Quest/QuestObjective.cs:26-51 | A reset objective requiring 0 is complete, and a negative amount then un-completes it |
| Objectives.NonNegativeProgressMonotone | Scripts/Quest/QuestObjective.cs:26-42 | Non-negative progress never un-completes an objective |
| Objectives.CompletionNoticedOnce | Scripts/Quest/QuestObjective.cs:37-41 | Over any sequence of updates the completion notice fires at most once, exactly when the flag goes from clear to set |
| Quests.AllObjectivesComplete | Scripts/Quest/Quest.cs:52-60 | True exactly when every referenced objective is complete, and vacuously for none |
| Quests.IsQuestCompleted | Scripts/Quest/Quest.cs:52-60 | A template is complete exactly when all its objectives are |
| Quests.ResetAll | Scripts/Quest/Quest.cs:65-71 | Every referenced objective is reset, and every other objective is untouched |
| Quests.ResetQuestProgress | Scripts/Quest/Quest.cs:65-71 | Every objective of the template has no progress and no flag afterwards |
| Quests.ResetUncompletes | Scripts/Quest/Quest.cs:52-71 | After a reset, a template with objectives that all need something is incomplete |
| QuestLedger.NewQuestData | Scripts/Quest/QuestManager.cs:439-449 | A new record refers to the template's own objective objects and records the acceptance time |
| QuestLedger.Find | Scripts/Quest/QuestManager.cs:264-291 | The result is the first record with the ID, or none exactly when no record has it |
| QuestLedger.FirstMissing | Scripts/Quest/QuestManager.cs:117-125 | Some prerequisite is reported exactly when one is not completed, and the reported one is not completed |
| QuestLedger.AcceptQuest | Scripts/Quest/QuestManager.cs:93-142 | Refusals come in order: limit reached, already active, completed and not repeatable, missing prerequisite, level too low. Each refusal holds exactly when every earlier test passes and its own fails; a missing prerequisite names the first one not completed. Each refusal changes nothing. Acceptance holds exactly when the independent `CanAccept` does, and appends one record |
| QuestLedger.RemoveAt | Scripts/Quest/QuestManager.cs:167 | The element at i is removed and the others keep their order |
| QuestLedger.CompleteQuest | Scripts/Quest/QuestManager.cs:147-175 | Completion succeeds exactly when the quest is active and all its objectives are complete, and a failure changes nothing. On success the record moves from the active list to the end of the completed list |
| QuestLedger.IsQuestActive | Scripts/Quest/QuestManager.cs:264-267 | A quest is active exactly when some active record carries its ID |
| QuestLedger.AbandonQuest | Scripts/Quest/QuestManager.cs:214-230 | Abandoning is `DropActive`: it succeeds exactly when the quest is active and removes that record only |
| QuestLedger.FailQuest | Scripts/Quest/QuestManager.cs:235-251 | Failing is `DropActive` too: the two differ only in their log text, and no reward is given |
| QuestLedger.DropActive | Scripts/Quest/QuestManager.cs:214-251 | Abandoning or failing a quest succeeds exactly when it is active. It removes the first record with the ID and nothing else, so the completed list and the objectives are untouched |
| QuestLedger.NewLedger | Scripts/Quest/QuestManager.cs:15-19 | A new ledger is empty and valid |
| QuestLedger.RemoveAtKeepsUnique | Scripts/Quest/QuestManager.cs:167 | Removing a record keeps the active IDs unique |
| QuestLedger.AcceptKeepsValid | Scripts/Quest/QuestManager.cs:96-141 | Accepting keeps the active IDs unique and the count within the limit |
| QuestLedger.RemovalsKeepValid | Scripts/Quest/QuestManager.cs:147-251 | Completing, abandoning and failing keep the ledger's invariant |
| QuestLedger.DropRemovesQuest | Scripts/Quest/QuestManager.cs:214-251 | With unique IDs, a removed quest is no longer active |
| QuestLedger.CompletedNotReaccepted | Scripts/Quest/QuestManager.cs:109-114 | A completed non-repeatable quest can never be accepted again |
| QuestLedger.UpdateObjective | Scripts/Quest/QuestManager.cs:382-402 | Only the referenced objective advances, by the amount, and the quest is never completed automatically |
| QuestLedger.Dispatch | Scripts/Quest/QuestManager.cs:304-377 | A dispatch changes objectives only, never the active or completed lists |
| QuestLedger.OnEnemyKilled | Scripts/Quest/QuestManager.cs:304-320 | A kill advances objectives only, never the quest lists |
| QuestLedger.OnItemCollected | Scripts/Quest/QuestManager.cs:325-341 | A pickup advances objectives only, never the quest lists |
| QuestLedger.OnTalkToNpc | Scripts/Quest/QuestManager.cs:346-359 | A conversation advances objectives only, never the quest lists |
| QuestLedger.OnAreaExplored | Scripts/Quest/QuestManager.cs:364-377 | Exploring advances objectives only, never the quest lists |
| QuestLedger.AdvancedCompose | Scripts/Quest/QuestManager.cs:304-377 | Receiving an event n1 times and then n2 times is receiving it n1 + n2 times |
| QuestLedger.UpdateRefsEffect | Scripts/Quest/QuestManager.cs:304-377 | The inner loop advances each matching objective once per reference to it, and leaves non-matching ones alone |
| QuestLedger.UpdateQuestsEffect | Scripts/Quest/QuestManager.cs:304-377 | The outer loop advances each matching objective once per reference across all active records |
| QuestLedger.DispatchEffect | Scripts/Quest/QuestManager.cs:304-422 | An event advances every matching objective by amount × its number of references among active records. Non-matching objectives are unchanged, no flag is cleared, and with a non-negative amount the flag is set once the count reaches the requirement |
| QuestLedger.ReacceptedQuestStartsComplete | Scripts/Quest/QuestManager.cs:445-448 | Because objectives are shared, a quest handed in and accepted again starts out already complete |
| QuestTimer.ExpiredIds | Scripts/Quest/QuestTimer.cs:92-108 | The collected IDs are exactly those of active records that have a limit and whose elapsed time has reached it |
| QuestTimer.Expired | Scripts/Quest/QuestTimer.cs:98-107 | A record has expired when its quest has a positive limit and the elapsed time has reached it |
| QuestTimer.ExpiryPersists | Scripts/Quest/QuestTimer.cs:98-107 | Once expired, a record stays expired at every later time |
| QuestTimer.FailAll | Scripts/Quest/QuestTimer.cs:110-115 | Failing the collected quests never touches the completed list or the objectives |
| QuestTimer.CheckExpiredQuests | Scripts/Quest/QuestTimer.cs:88-116 | A check never completes a quest and never grows the active list |
| QuestTimer.RemoveFirstIsFilter | Scripts/Quest/QuestManager.cs:235-251 | With unique IDs, failing one quest removes exactly the records with its ID |
| QuestTimer.FailAllIsFilter | Scripts/Quest/QuestTimer.cs:110-115 | With unique IDs, failing a list of IDs removes exactly the records with those IDs |
| QuestTimer.CheckFailsExactlyExpired | Scripts/Quest/QuestTimer.cs:88-116 | With unique IDs, a check leaves exactly the unexpired quests active, in order, and the completed list unchanged |
| QuestTimer.UnlimitedNeverExpires | Scripts/Quest/QuestTimer.cs:98 | A quest whose limit is 0 or less is never failed by the timer |
| QuestTimer.KeepUnexpiredMembers | Scripts/Quest/QuestTimer.cs:101-107 | The quests left by a check are exactly the active ones that have not expired |
| Registry.EmptyTableValid | Scripts/Quest/IDManager.cs:17-24 | An empty table satisfies the table invariant |
| Registry.Register | Scripts/Quest/IDManager.cs:54-74 | Registration succeeds exactly when the ID is in range and unused, and a failure changes nothing. On success the ID looks up the object and every other ID looks up what it did before |
| Registry.RegisterKeepsValid | Scripts/Quest/IDManager.cs:69-72 | The used-ID set stays the map's key set, every key stays in range, and the order lists each key once |
| Registry.GetById | Scripts/Quest/IDManager.cs:129-160 | A lookup succeeds exactly for registered IDs and gives the registered object |
| Registry.GetId | Scripts/Quest/IDManager.cs:165-205 | A result other than −1 is an ID under which the object is registered |
| Registry.GetIdComplete | Scripts/Quest/IDManager.cs:165-205 | With a range that excludes −1, the reverse lookup gives −1 exactly when the object is registered under no ID |
| Registry.GenerateNew | Scripts/Quest/IDManager.cs:210-253 | The result is the smallest unused ID in the range, or −1 exactly when every ID of the range is used. Nothing is reserved |
| Registry.RegisterQuest | Scripts/Quest/IDManager.cs:54-74 | Quest registration accepts exactly unused IDs in [1, 999] and leaves the other tables alone |
| Registry.RegisterMob | Scripts/Quest/IDManager.cs:79-99 | Mob registration accepts exactly unused IDs in [1000, 9999] and leaves the other tables alone |
| Registry.RegisterItem | Scripts/Quest/IDManager.cs:104-124 | Item registration accepts exactly unused IDs in [10000, 19999] and leaves the other tables alone |
| Registry.RegistrationsKeepValid | Scripts/Quest/IDManager.cs:54-124 | Every registration keeps all three tables valid |
| Registry.TablesDisjoint | Scripts/Quest/IDManager.cs:27-34 | Because the ranges are disjoint, no ID is registered in two tables |

## Left out

- Progression.ValidateInitialValues: the float experience multiplier is an integer number of thousandths (`multiplierMilli`). The C# keeps any multiplier above 1.0; a value in (1.0, 1.001] has no representation here, because it would round to 1000 thousandths and be reset to 1100. Multipliers finer than a thousandth are not modelled.
- Float-valued stats: attack power, magic power, attack and move speed, dodge, the critical chance and multiplier as stored values, and the equipment's attack-power and magic-power bonuses. Only the integer stats are modelled.
- Combat.CalculateDamage: the critical multiplier and the random ±variation are floating point, so they are the parameter `finish`. The contract pins down the base and the critical decision, not the final number.
- Enemies.EnemyDamage: `finish` likewise stands for the random variation applied to 1.5× strength, written as 3·Str before halving.
- Progression.ExpToNextLevel: the power formula (`Mathf.Pow`, `Mathf.RoundToInt` with banker's rounding) and its memo table are the abstract `Curve.scaled`. Only the base/scaled split and the "level + 1" indexing are modelled.
- Progression.AddExperience: requires every threshold to be positive (`PositiveCurve`). The C# loop does not terminate otherwise.
- Death.HandleDeath: inherits that requirement from `AddExperience`.
- Stats.Rescale: the C# computes `Mathf.CeilToInt((float)current / oldMax * newMax)` on every recalculation, even when the maximum does not change. The model uses the exact integer ceiling of current·newMax/oldMax. Single-precision rounding can overshoot that ceiling by one for ordinary values: 27/150·150 evaluates to 27.0000019 and ceils to 28, and 7/13·13 gives 8. So in the C#, a recalculation with an unchanged maximum can raise current health or mana by one. This affects adding or clearing modifiers, equipping, and consumable buffs, and repeated recalculations can keep raising it up to the maximum. The model never does this. `Stats.RescaleIsCeiling` is a property of the exact arithmetic only. The bounds in `Stats.RescaleBounds`, `Stats.RescalePositive`, `Stats.RescaleWithin` and `Stats.RescaleFull` also hold for the float expression.
- 32-bit wrap-around of C# `int` is not modelled. All integers are unbounded.
- Coroutines, `WaitForSeconds`, cooldown and despawn timers are explicit events (`Impact`, `CooldownDue`, `FrameAt`, …), and the periodic timer is one call per check.
- Randomness (`UnityEngine.Random`) is passed in as rolls. `Death.RandomRangeInt` models the engine's integer draw, including the swapped bounds.
- UI, input raycasts, NavMesh movement, animation, `Debug.Log`, try/catch, and singleton and tag lookups are not modelled. What they provide (the clicked object, the distance, the player's components) is a parameter.
- Death.HandleDeath: the player lookup is the parameters `playerFound` and `playerLevel`. Spawned loot pickups are the list of `Drop`s.
- Combat.CritChanceTwentieths: the C# returns a 5 percent chance when there are no stats. That branch is not modelled, because its only caller, `CalculateDamage`, has already returned the default damage by then.
- Death.ShouldDropItem: the C# compares the float percentage with `Random.Range(0f, 100f)`. The model quantises both to hundredths of a percent: the chance is an integer in hundredths, and the roll is an integer that stands for a draw from [0, 10000] (`Death.DropChanceExtremes` assumes that range). Chances finer than a hundredth of a percent, and the float roll's exact distribution, are not modelled.
- Equipment.UseInventoryItem: when equipping takes the slot's last unit, the C# re-reads the now empty slot's item type and throws a NullReferenceException. The model returns the state at that point, with the equip applied, instead of an exception. `Equipment.EquipLastUnitEmptiesSlot` proves that this is the state reached.
- Enemies.ApplyDamageToPlayer: the impact compares the distance recorded by the last frame, as the code does. The player's actual position at impact time is not modelled.
- QuestManager's `GiveRewards` only writes log lines, so it is left out. Completion does not change experience or gold.
- Quest prerequisites are the IDs of the prerequisite quests rather than object references. Only their IDs are compared.
- QuestTimer.CheckExpiredQuests: time is an integer parameter `now` in the unit of the limits, read once per check. The C# code uses float minutes from `DateTime.Now` and reads the clock per quest.
- Registry.GetId: the reverse lookup returns the first ID in insertion order. This is the C# dictionary's enumeration order when nothing was removed, and the registry never removes.
- Registry.GenerateNew: requires a range that does not contain −1, so that −1 is unambiguous. All three configured ranges satisfy this.
- The level-progress fraction and other float or display queries (`GetLevelProgress`, tooltips, rarity colours, stat strings) are not modelled.
- Enemies.Step and Combat.Step: these event interpreters order events as the run's sequence. Concurrent coroutines interleave exactly in that sequence.

=== FILE: character_stats.dfy ===
/** Character attributes and vitals: the four attributes with their base values
    and modifiers, the integer derived stats, attribute-point spending, health
    and mana with clamping and proportional rescaling, and the one-shot death
    notification. */
module Stats {
  import opened Util

  datatype Attribute = Strength | Dexterity | Intelligence | Vitality

  /** One integer per attribute; used for base values, modifiers and bonuses. */
  datatype Attributes = Attributes(strength: int, dexterity: int, intelligence: int, vitality: int)
  {
    function Get(a: Attribute): int {
      match a
      case Strength => strength
      case Dexterity => dexterity
      case Intelligence => intelligence
      case Vitality => vitality
    }

    /** The same record with attribute `a` increased by `d`. */
    function Bump(a: Attribute, d: int): (r: Attributes)
      ensures r.Get(a) == Get(a) + d
      ensures forall b :: b != a ==> r.Get(b) == Get(b)
    {
      match a
      case Strength => this.(strength := strength + d)
      case Dexterity => this.(dexterity := dexterity + d)
      case Intelligence => this.(intelligence := intelligence + d)
      case Vitality => this.(vitality := vitality + d)
    }

    function Plus(o: Attributes): Attributes {
      Attributes(strength + o.strength, dexterity + o.dexterity,
                 intelligence + o.intelligence, vitality + o.vitality)
    }

    function Minus(o: Attributes): Attributes {
      Attributes(strength - o.strength, dexterity - o.dexterity,
                 intelligence - o.intelligence, vitality - o.vitality)
    }

    predicate IsZero() {
      strength == 0 && dexterity == 0 && intelligence == 0 && vitality == 0
    }
  }

  const Zero := Attributes(0, 0, 0, 0)

  /** Inspector defaults of the base attributes. */
  const DefaultBase := Attributes(10, 10, 10, 10)

  /** The integer equipment bonuses the character sums over the equipped items. */
  datatype EquipBonus = EquipBonus(health: int, mana: int, physicalDefense: int, magicalDefense: int)
  {
    function Plus(o: EquipBonus): EquipBonus {
      EquipBonus(health + o.health, mana + o.mana,
                 physicalDefense + o.physicalDefense, magicalDefense + o.magicalDefense)
    }
  }

  const NoBonus := EquipBonus(0, 0, 0, 0)

  // Constants of the stat formulas.
  const HealthPerVitality := 10
  const HealthPerStrength := 2
  const ManaPerIntelligence := 10
  const ManaPerVitality := 1

  /** Maximum health for effective attributes `e` and equipment bonus `b`. */
  function MaxHealthOf(e: Attributes, b: EquipBonus): int {
    e.vitality * HealthPerVitality + e.strength * HealthPerStrength + b.health
  }

  function MaxManaOf(e: Attributes, b: EquipBonus): int {
    e.intelligence * ManaPerIntelligence + e.vitality * ManaPerVitality + b.mana
  }

  /** Physical defence; C# `/` truncates toward zero. */
  function PhysicalDefenseOf(e: Attributes, b: EquipBonus): int {
    b.physicalDefense + TruncDiv(e.vitality, 2)
  }

  function MagicalDefenseOf(e: Attributes, b: EquipBonus): int {
    b.magicalDefense + TruncDiv(e.intelligence, 3)
  }

  /** Current health (or mana) after the maximum moves from `oldMax` to `newMax`:
      a positive value under a positive old maximum keeps its fraction of the
      maximum, rounded up; anything else is left alone. The rounding is the
      exact ceiling of the rational current·newMax/oldMax, where the original
      rounds a single-precision product that can sit just above an integer. */
  function Rescale(current: int, oldMax: int, newMax: int): (r: int)
    ensures current <= 0 || oldMax <= 0 ==> r == current
    ensures current > 0 && oldMax > 0 && newMax > 0 ==> r >= 1
    ensures 0 < current <= oldMax && newMax >= 0 ==> 0 <= r <= newMax
    ensures 0 < current == oldMax ==> r == newMax
  {
    if oldMax > 0 && current > 0 then
      var r := CeilDiv(current * newMax, oldMax);
      RescaleBounds(current, oldMax, newMax, r);
      r
    else current
  }

  /** A positive value under a positive old maximum becomes the least integer
      `r` with r / newMax >= current / oldMax, in exact arithmetic. */
  lemma RescaleIsCeiling(current: int, oldMax: int, newMax: int)
    requires current > 0 && oldMax > 0
    ensures var r := Rescale(current, oldMax, newMax);
            r * oldMax >= current * newMax > (r - 1) * oldMax
  {
    var r := Rescale(current, oldMax, newMax);
    assert (r - 1) * oldMax == r * oldMax - oldMax;
  }

  lemma RescaleBounds(current: int, oldMax: int, newMax: int, r: int)
    requires current > 0 && oldMax > 0
    requires current * newMax <= r * oldMax < current * newMax + oldMax
    ensures newMax > 0 ==> r >= 1
    ensures current <= oldMax && newMax >= 0 ==> 0 <= r <= newMax
    ensures current == oldMax ==> r == newMax
  {
    if newMax > 0 { RescalePositive(current, oldMax, newMax, r); }
    if current <= oldMax && newMax >= 0 { RescaleWithin(current, oldMax, newMax, r); }
    if current == oldMax { RescaleFull(oldMax, newMax, r); }
  }

  lemma RescalePositive(current: int, oldMax: int, newMax: int, r: int)
    requires current > 0 && oldMax > 0 && newMax > 0
    requires current * newMax <= r * oldMax
    ensures r >= 1
  {
    MulMonotone(0, current, newMax);
    MulMonotone(0, r, oldMax);
  }

  lemma RescaleWithin(current: int, oldMax: int, newMax: int, r: int)
    requires 0 < current <= oldMax && newMax >= 0
    requires current * newMax <= r * oldMax < current * newMax + oldMax
    ensures 0 <= r <= newMax
  {
    if newMax > 0 {
      MulMonotone(0, current, newMax);
      MulMonotone(current, oldMax, newMax);
    }
    assert current * newMax <= oldMax * newMax;
    assert (newMax + 1) * oldMax == oldMax * newMax + oldMax;
    MulMonotone(0, r, oldMax);
    MulMonotone(r, newMax + 1, oldMax);
  }

  lemma RescaleFull(oldMax: int, newMax: int, r: int)
    requires oldMax > 0
    requires oldMax * newMax <= r * oldMax < oldMax * newMax + oldMax
    ensures r == newMax
  {
    assert oldMax * newMax == newMax * oldMax;
    assert (newMax + 1) * oldMax == newMax * oldMax + oldMax;
    MulMonotone(newMax, r, oldMax);
    MulMonotone(r, newMax + 1, oldMax);
  }

  /** The character's attributes and vitals. `deathNotices` counts how often
      the health-reached-zero notification has fired. */
  datatype CharacterStats = CharacterStats(
    base: Attributes,
    modifiers: Attributes,
    attributePoints: int,
    equip: EquipBonus,
    maxHealth: int,
    currentHealth: int,
    maxMana: int,
    currentMana: int,
    physicalDefense: int,
    magicalDefense: int,
    isDead: bool,
    deathNotices: nat)
  {
    /** Effective attributes: base plus modifier. */
    function Effective(): (e: Attributes)
      ensures forall a :: e.Get(a) == base.Get(a) + modifiers.Get(a)
    {
      base.Plus(modifiers)
    }

    function StrengthValue(): int { Effective().strength }
    function DexterityValue(): int { Effective().dexterity }
    function IntelligenceValue(): int { Effective().intelligence }
    function VitalityValue(): int { Effective().vitality }

    /** The death notification has fired exactly when the flag is set. */
    predicate DeathConsistent() {
      deathNotices == (if isDead then 1 else 0)
    }

    /** Health and mana lie within their maxima. */
    predicate VitalsInRange() {
      0 <= currentHealth <= maxHealth && 0 <= currentMana <= maxMana
    }

    /** The derived stats agree with the attributes and the stored bonus. */
    predicate DerivedUpToDate() {
      var e := Effective();
      && maxHealth == MaxHealthOf(e, equip)
      && maxMana == MaxManaOf(e, equip)
      && physicalDefense == PhysicalDefenseOf(e, equip)
      && magicalDefense == MagicalDefenseOf(e, equip)
    }
  }

  /** Recomputes the derived stats. With an equipment table present (`Some`)
      its bonus totals replace the stored ones; without one they are kept.
      Current health and mana follow their maxima proportionally. */
  function CalculateStats(s: CharacterStats, eq: Option<EquipBonus>): (s': CharacterStats)
    ensures s'.DerivedUpToDate()
    ensures s'.equip == (if eq.Some? then eq.value else s.equip)
    ensures s'.base == s.base && s'.modifiers == s.modifiers
    ensures s'.attributePoints == s.attributePoints
    ensures s'.isDead == s.isDead && s'.deathNotices == s.deathNotices
    ensures s'.currentHealth == Rescale(s.currentHealth, s.maxHealth, s'.maxHealth)
    ensures s'.currentMana == Rescale(s.currentMana, s.maxMana, s'.maxMana)
    ensures s.currentHealth == 0 ==> s'.currentHealth == 0
    ensures s.currentHealth > 0 && s.maxHealth > 0 && s'.maxHealth > 0 ==> s'.currentHealth > 0
    ensures 0 <= s.currentHealth <= s.maxHealth && s.currentHealth > 0 && s'.maxHealth >= 0
            ==> 0 <= s'.currentHealth <= s'.maxHealth
  {
    var b := if eq.Some? then eq.value else s.equip;
    var e := s.Effective();
    var maxH := MaxHealthOf(e, b);
    var maxM := MaxManaOf(e, b);
    s.(equip := b,
       maxHealth := maxH,
       currentHealth := Rescale(s.currentHealth, s.maxHealth, maxH),
       maxMana := maxM,
       currentMana := Rescale(s.currentMana, s.maxMana, maxM),
       physicalDefense := PhysicalDefenseOf(e, b),
       magicalDefense := MagicalDefenseOf(e, b))
  }

  /** A character as it stands after its start-up: derived stats computed
      from zeroed fields, then health and mana filled to their maxima. */
  function Spawn(base: Attributes, attributePoints: int, eq: Option<EquipBonus>): (s: CharacterStats)
    ensures s.DerivedUpToDate() && s.DeathConsistent() && !s.isDead
    ensures s.currentHealth == s.maxHealth && s.currentMana == s.maxMana
    ensures s.modifiers == Zero && s.base == base && s.attributePoints == attributePoints
  {
    var blank := CharacterStats(base, Zero, attributePoints, NoBonus, 0, 0, 0, 0, 0, 0, false, 0);
    var c := CalculateStats(blank, eq);
    c.(currentHealth := c.maxHealth, currentMana := c.maxMana)
  }

  /** Spends `points` unspent points on attribute `a`. Fails, changing
      nothing, unless 0 < points <= the unspent points. */
  function AddPoints(s: CharacterStats, a: Attribute, points: int, eq: Option<EquipBonus>): (r: (CharacterStats, bool))
    ensures r.1 <==> 0 < points <= s.attributePoints
    ensures !r.1 ==> r.0 == s
    ensures r.1 ==> r.0.base.Get(a) + r.0.attributePoints == s.base.Get(a) + s.attributePoints
    ensures r.1 ==> r.0.base.Get(a) == s.base.Get(a) + points && r.0.attributePoints >= 0
    ensures r.1 ==> forall b :: b != a ==> r.0.base.Get(b) == s.base.Get(b)
    ensures r.1 ==> r.0.modifiers == s.modifiers && r.0.DerivedUpToDate()
  {
    if points <= 0 || points > s.attributePoints then (s, false)
    else
      var raised := s.(base := s.base.Bump(a, points), attributePoints := s.attributePoints - points);
      (CalculateStats(raised, eq), true)
  }

  /** Grants unspent points; a non-positive grant is ignored. No recalculation. */
  function AddAttributePoints(s: CharacterStats, points: int): (s': CharacterStats)
    ensures s'.attributePoints == s.attributePoints + (if points > 0 then points else 0)
    ensures s' == s.(attributePoints := s'.attributePoints)
  {
    if points <= 0 then s else s.(attributePoints := s.attributePoints + points)
  }

  /** Adds `m` (possibly negative) to the modifier of `a`, then recalculates. */
  function AddModifier(s: CharacterStats, a: Attribute, m: int, eq: Option<EquipBonus>): (s': CharacterStats)
    ensures s'.modifiers.Get(a) == s.modifiers.Get(a) + m
    ensures forall b :: b != a ==> s'.modifiers.Get(b) == s.modifiers.Get(b)
    ensures s'.modifiers == s.modifiers.Bump(a, m)
    ensures s'.base == s.base && s'.attributePoints == s.attributePoints
    ensures s'.DerivedUpToDate()
    ensures s'.equip == (if eq.Some? then eq.value else s.equip)
    ensures s'.isDead == s.isDead && s'.deathNotices == s.deathNotices
  {
    CalculateStats(s.(modifiers := s.modifiers.Bump(a, m)), eq)
  }

  /** Adds a whole bonus record to the modifiers, one attribute at a time in
      the order strength, dexterity, intelligence, vitality, recalculating
      after each. */
  function AddModifiers(s: CharacterStats, m: Attributes, eq: Option<EquipBonus>): (s': CharacterStats)
    ensures s'.modifiers == s.modifiers.Plus(m)
    ensures s'.base == s.base && s'.attributePoints == s.attributePoints
    ensures s'.DerivedUpToDate()
    ensures s'.equip == (if eq.Some? then eq.value else s.equip)
    ensures s'.isDead == s.isDead && s'.deathNotices == s.deathNotices
  {
    var s1 := AddModifier(s, Strength, m.strength, eq);
    var s2 := AddModifier(s1, Dexterity, m.dexterity, eq);
    var s3 := AddModifier(s2, Intelligence, m.intelligence, eq);
    BumpAllIsPlus(s.modifiers, m);
    AddModifier(s3, Vitality, m.vitality, eq)
  }

  /** Bumping each attribute in turn adds the whole record. */
  lemma BumpAllIsPlus(a: Attributes, m: Attributes)
    ensures a.Bump(Strength, m.strength).Bump(Dexterity, m.dexterity)
             .Bump(Intelligence, m.intelligence).Bump(Vitality, m.vitality) == a.Plus(m)
  {
  }

  /** Zeroes all four modifiers; when they are already zero nothing happens
      (not even a recalculation). */
  function ClearAllModifiers(s: CharacterStats, eq: Option<EquipBonus>): (s': CharacterStats)
    ensures s'.modifiers == Zero
    ensures s.modifiers.IsZero() ==> s' == s
    ensures s'.base == s.base && s'.attributePoints == s.attributePoints
    ensures s'.isDead == s.isDead && s'.deathNotices == s.deathNotices
    ensures !s.modifiers.IsZero() ==> s'.DerivedUpToDate()
    ensures !s.modifiers.IsZero() ==> s'.equip == (if eq.Some? then eq.value else s.equip)
  {
    if s.modifiers.IsZero() then s
    else CalculateStats(s.(modifiers := Zero), eq)
  }

  /** Changes health by `amount`. A dead character ignores damage but still
      accepts healing. Health is clamped to [0, maxHealth]; if it changed and
      reached zero, the death notification fires unless it already has. */
  function ModifyHealth(s: CharacterStats, amount: int): (s': CharacterStats)
    ensures s.isDead && amount < 0 ==> s' == s
    ensures !(s.isDead && amount < 0) ==>
              s'.currentHealth == Clamp(s.currentHealth + amount, 0, s.maxHealth)
    ensures 0 <= s.currentHealth <= s.maxHealth ==> 0 <= s'.currentHealth <= s'.maxHealth
    ensures !(s.isDead && amount < 0) && s.maxHealth >= 0 ==> 0 <= s'.currentHealth <= s'.maxHealth
    ensures s'.isDead == (s.isDead || (s'.currentHealth != s.currentHealth && s'.currentHealth <= 0))
    ensures s'.deathNotices == s.deathNotices + (if !s.isDead && s'.isDead then 1 else 0)
    ensures s.DeathConsistent() ==> s'.DeathConsistent()
    ensures s' == s.(currentHealth := s'.currentHealth, isDead := s'.isDead, deathNotices := s'.deathNotices)
  {
    if s.isDead && amount < 0 then s
    else
      var h := Clamp(s.currentHealth + amount, 0, s.maxHealth);
      var s1 := s.(currentHealth := h);
      if h != s.currentHealth && h <= 0 then Die(s1) else s1
  }

  /** Marks the character dead and fires the notification, once. */
  function Die(s: CharacterStats): (s': CharacterStats)
    requires s.currentHealth <= 0
    ensures s'.isDead
    ensures s'.deathNotices == s.deathNotices + (if s.isDead then 0 else 1)
    ensures s' == s.(isDead := true, deathNotices := s'.deathNotices)
  {
    if s.currentHealth <= 0 && s.isDead then s
    else s.(isDead := true, deathNotices := s.deathNotices + 1)
  }

  /** Whether a change of health shows floating damage text: only for damage
      that really lowered health and did not come from the player's combat
      resolver, which shows its own text. */
  predicate ShowsDamageText(s: CharacterStats, amount: int, fromCombat: bool)
    ensures ShowsDamageText(s, amount, fromCombat) ==> !fromCombat && !s.isDead
    ensures ShowsDamageText(s, amount, fromCombat) && s.currentHealth >= 0 ==>
              ModifyHealth(s, amount).currentHealth < s.currentHealth
  {
    !(s.isDead && amount < 0) && amount < 0 && !fromCombat
    && ModifyHealth(s, amount).currentHealth != s.currentHealth
  }

  /** Changes mana by `amount`, clamped to [0, maxMana]. */
  function ModifyMana(s: CharacterStats, amount: int): (s': CharacterStats)
    ensures s'.currentMana == Clamp(s.currentMana + amount, 0, s.maxMana)
    ensures s.maxMana >= 0 ==> 0 <= s'.currentMana <= s'.maxMana
    ensures s' == s.(currentMana := s'.currentMana)
  {
    s.(currentMana := Clamp(s.currentMana + amount, 0, s.maxMana))
  }

  function RestoreFullHealth(s: CharacterStats): (s': CharacterStats)
    ensures s'.currentHealth == s'.maxHealth
    ensures s' == s.(currentHealth := s.maxHealth)
  {
    if s.currentHealth == s.maxHealth then s else s.(currentHealth := s.maxHealth)
  }

  function RestoreFullMana(s: CharacterStats): (s': CharacterStats)
    ensures s'.currentMana == s'.maxMana
    ensures s' == s.(currentMana := s.maxMana)
  {
    if s.currentMana == s.maxMana then s else s.(currentMana := s.maxMana)
  }

  predicate IsAlive(s: CharacterStats) {
    s.currentHealth > 0
  }

  /** The alive query and the death notification agree on a change of
      health: a change that raises the notification leaves the character
      not alive, and a change that leaves a living-flagged character not
      alive raises it, unless health did not move. */
  lemma DeathNoticeMeansNotAlive(s: CharacterStats, amount: int)
    ensures var s' := ModifyHealth(s, amount);
            && (!s.isDead && s'.isDead ==> !IsAlive(s'))
            && (!s.isDead && !IsAlive(s') && s'.currentHealth != s.currentHealth ==> s'.isDead)
  {
  }

  /** Applies a sequence of health changes in order. */
  function ApplyHealthChanges(s: CharacterStats, amounts: seq<int>): CharacterStats
    decreases |amounts|
  {
    if |amounts| == 0 then s
    else ApplyHealthChanges(ModifyHealth(s, amounts[0]), amounts[1..])
  }

  /** Over any sequence of health changes the death notification fires at most
      once, health stays within [0, maxHealth], and once the character is dead
      it stays dead. */
  lemma {:induction false} DeathFiresAtMostOnce(s: CharacterStats, amounts: seq<int>)
    requires s.DeathConsistent() && s.maxHealth >= 0 && 0 <= s.currentHealth <= s.maxHealth
    ensures var t := ApplyHealthChanges(s, amounts);
            t.deathNotices <= 1 && t.DeathConsistent()
            && 0 <= t.currentHealth <= t.maxHealth
            && (s.isDead ==> t.isDead)
    decreases |amounts|
  {
    if |amounts| > 0 {
      DeathFiresAtMostOnce(ModifyHealth(s, amounts[0]), amounts[1..]);
    }
  }

  /** Once dead, damage of any size leaves the character exactly as it was. */
  lemma {:induction false} DeadIgnoresDamage(s: CharacterStats, amounts: seq<int>)
    requires s.isDead
    requires forall i :: 0 <= i < |amounts| ==> amounts[i] < 0
    ensures ApplyHealthChanges(s, amounts) == s
    decreases |amounts|
  {
    if |amounts| > 0 {
      DeadIgnoresDamage(ModifyHealth(s, amounts[0]), amounts[1..]);
    }
  }

  /** Restoring full health after death revives the character as far as
      `IsAlive` is concerned, but the dead flag stays set, so from then on the
      character ignores every hit. */
  lemma RestoreAfterDeathIsInvulnerable(s: CharacterStats, hit: int)
    requires s.isDead && s.maxHealth > 0 && hit < 0
    ensures var t := RestoreFullHealth(s);
            IsAlive(t) && t.isDead && ModifyHealth(t, hit) == t
  {
  }

  /** Spending points on vitality raises maximum health by ten per point and
      maximum mana by one per point, with the equipment table unchanged. */
  lemma {:induction false} VitalityRaisesMaxima(s: CharacterStats, points: int)
    requires s.DerivedUpToDate() && 0 < points <= s.attributePoints
    ensures var r := AddPoints(s, Vitality, points, None);
            r.1 && r.0.maxHealth == s.maxHealth + HealthPerVitality * points
            && r.0.maxMana == s.maxMana + ManaPerVitality * points
  {
    var r := AddPoints(s, Vitality, points, None);
    assert r.0.Effective().vitality == s.Effective().vitality + points;
    assert r.0.Effective().strength == s.Effective().strength;
    assert r.0.Effective().intelligence == s.Effective().intelligence;
  }

  /** Defence division rounds toward zero: a negative effective vitality
      lowers physical defence by its magnitude halved and rounded down, so an
      odd one gives one more than floor division would (-3 gives -1, not -2). */
  lemma NegativeVitalityDefense(e: Attributes, b: EquipBonus)
    requires e.vitality < 0
    ensures PhysicalDefenseOf(e, b) == b.physicalDefense - (-e.vitality) / 2
    ensures e.vitality % 2 == 1 ==> PhysicalDefenseOf(e, b) == b.physicalDefense + e.vitality / 2 + 1
  {
  }

  /** The same for magical defence, with intelligence divided by three. */
  lemma NegativeIntelligenceDefense(e: Attributes, b: EquipBonus)
    requires e.intelligence < 0
    ensures MagicalDefenseOf(e, b) == b.magicalDefense - (-e.intelligence) / 3
    ensures e.intelligence % 3 != 0 ==> MagicalDefenseOf(e, b) == b.magicalDefense + e.intelligence / 3 + 1
  {
  }
}

=== FILE: combat.dfy ===
/** The player's combat resolver: the target and attack flags, the attack
    started when the target is in range, the delayed impact that deals
    damage, the cooldown that re-arms the attack, cancelling, and the integer
    part of the damage formula. The two delayed continuations of an attack
    are explicit events. */
module Combat {
  import opened Util
  import opened Stats

  /** Identity of a target object. */
  type TargetId = nat

  /** `target` is `None` when there is no target or the target object has
      been destroyed. The counters record the started, finished and
      target-changed notifications; `damageFromCombat` is the engine-wide
      flag that marks damage dealt by this resolver. */
  datatype CombatState = CombatState(
    target: Option<TargetId>,
    canAttack: bool,
    isAttacking: bool,
    damageFromCombat: bool,
    attackStarts: nat,
    attackFinishes: nat,
    targetChanges: nat)

  /** State of a fresh resolver. */
  const Initial := CombatState(None, true, false, false, 0, 0, 0)

  /** What a left click hit. */
  datatype Click = OverUi | NoCamera | HitEnemy(enemy: TargetId) | HitOther | HitNothing

  datatype DamageResult = DamageResult(damage: int, isCritical: bool)

  /** Damage without a stats component. */
  const DefaultDamage := 5

  // ----------------------------------------------------------------- target

  /** Makes `target` the current target; a missing target is refused. The
      change notification fires only if the target really changed. */
  function SetTarget(c: CombatState, target: Option<TargetId>): (r: (CombatState, bool))
    ensures r.1 <==> target.Some?
    ensures !r.1 ==> r.0 == c
    ensures r.1 ==> r.0.target == target
    ensures r.1 ==> r.0.targetChanges == c.targetChanges + (if c.target == target then 0 else 1)
    ensures r.0 == c.(target := r.0.target, targetChanges := r.0.targetChanges)
  {
    if target.None? then (c, false)
    else if c.target != target then (c.(target := target, targetChanges := c.targetChanges + 1), true)
    else (c, true)
  }

  /** Ends the attack state; the finished notification fires every time. */
  function FinishAttack(c: CombatState): (r: CombatState)
    ensures !r.isAttacking && r.attackFinishes == c.attackFinishes + 1
    ensures r == c.(isAttacking := false, attackFinishes := r.attackFinishes)
  {
    c.(isAttacking := false, attackFinishes := c.attackFinishes + 1)
  }

  /** Drops the target, finishing a running attack first. Without a target
      nothing happens. */
  function ClearTarget(c: CombatState): (r: CombatState)
    ensures c.target.None? ==> r == c
    ensures c.target.Some? ==> r.target.None? && !r.isAttacking && r.targetChanges == c.targetChanges + 1
    ensures c.target.Some? ==> r.attackFinishes == c.attackFinishes + (if c.isAttacking then 1 else 0)
    ensures r.canAttack == c.canAttack
  {
    if c.target.None? then c
    else
      var c1 := if c.isAttacking then FinishAttack(c) else c;
      c1.(target := None, targetChanges := c1.targetChanges + 1)
  }

  /** Handles a left click: clicks over the interface or without a camera
      are ignored; an enemy becomes the target (finishing a running attack
      first); anything else clears the target. */
  function CheckForTargetUnderMouse(c: CombatState, click: Click): (r: CombatState)
    ensures click.OverUi? || click.NoCamera? ==> r == c
    ensures click.HitEnemy? ==> r.target == Some(click.enemy) && !r.isAttacking
    ensures click.HitOther? || click.HitNothing? ==> r == ClearTarget(c)
    ensures r.canAttack == c.canAttack
  {
    match click
    case OverUi => c
    case NoCamera => c
    case HitEnemy(e) =>
      var c1 := if c.isAttacking then FinishAttack(c) else c;
      SetTarget(c1, Some(e)).0
    case HitOther => ClearTarget(c)
    case HitNothing => ClearTarget(c)
  }

  // ----------------------------------------------------------------- attack

  /** Starts an attack on the current target: the attack flag is raised and
      the attack disarmed until the cooldown elapses; the impact and the
      cooldown are scheduled. Without a target or while disarmed nothing
      happens. */
  function StartAttack(c: CombatState): (r: CombatState)
    ensures !c.canAttack || c.target.None? ==> r == c
    ensures c.canAttack && c.target.Some? ==>
              r == c.(isAttacking := true, canAttack := false, attackStarts := c.attackStarts + 1)
  {
    if !c.canAttack || c.target.None? then c
    else c.(isAttacking := true, canAttack := false, attackStarts := c.attackStarts + 1)
  }

  /** One frame: the click (if any) is handled, then an attack starts when
      there is a target, the attack is armed and idle, and the target is
      within `attackRange`. `distance` is the distance to the target after
      the click, in the same unit as the range. */
  function Update(c: CombatState, click: Option<Click>, distance: int, attackRange: int): (r: CombatState)
    ensures var c1 := if click.Some? then CheckForTargetUnderMouse(c, click.value) else c;
            r.attackStarts == c1.attackStarts + (if AttackBegins(c1, distance, attackRange) then 1 else 0)
    ensures var c1 := if click.Some? then CheckForTargetUnderMouse(c, click.value) else c;
            AttackBegins(c1, distance, attackRange) ==> r.isAttacking && !r.canAttack && r.target == c1.target
    ensures var c1 := if click.Some? then CheckForTargetUnderMouse(c, click.value) else c;
            AttackBegins(c1, distance, attackRange) ==> r == StartAttack(c1)
    ensures var c1 := if click.Some? then CheckForTargetUnderMouse(c, click.value) else c;
            !AttackBegins(c1, distance, attackRange) ==> r == c1
  {
    var c1 := if click.Some? then CheckForTargetUnderMouse(c, click.value) else c;
    if c1.target.Some? && c1.canAttack && !c1.isAttacking && distance <= attackRange then StartAttack(c1) else c1
  }

  /** When a frame starts an attack. */
  predicate AttackBegins(c: CombatState, distance: int, attackRange: int) {
    c.target.Some? && c.canAttack && !c.isAttacking && distance <= attackRange
  }

  /** The target object was destroyed: every later null test sees no target.
      No notification fires. */
  function TargetDestroyed(c: CombatState): (r: CombatState)
    ensures r.target.None? && r == c.(target := None)
  {
    c.(target := None)
  }

  // ----------------------------------------------------------------- damage

  /** Base damage before the critical multiplier, the random variation and
      rounding: twice the effective strength plus the level when there is a
      level component. */
  function BaseDamage(s: CharacterStats, level: Option<int>): (d: int)
    ensures d == 2 * s.StrengthValue() + (if level.Some? then level.value else 0)
  {
    s.StrengthValue() * 2 + (if level.Some? then level.value else 0)
  }

  /** The critical chance in twentieths of a percentage point: dexterity
      counts 0.1 and intelligence 0.05 points each. */
  function CritChanceTwentieths(s: CharacterStats): int {
    2 * s.DexterityValue() + s.IntelligenceValue()
  }

  /** More dexterity and intelligence never lower the critical chance, so a
      roll that is critical for the weaker character is critical for the
      stronger one. */
  lemma CritChanceMonotone(s: CharacterStats, t: CharacterStats, critRoll: int)
    requires s.DexterityValue() <= t.DexterityValue() && s.IntelligenceValue() <= t.IntelligenceValue()
    ensures CritChanceTwentieths(s) <= CritChanceTwentieths(t)
    ensures critRoll <= CritChanceTwentieths(s) ==> critRoll <= CritChanceTwentieths(t)
  {
  }

  /** The damage of one hit. `critRoll` is the uniform roll in [0, 100]
      measured in twentieths of a point; `finish` stands for the float part
      of the formula (critical multiplier, random variation, rounding),
      applied to the base damage and the critical decision. Without stats
      the default damage is used and the hit is never critical. */
  function CalculateDamage(stats: Option<CharacterStats>, level: Option<int>, critRoll: int,
                           finish: (int, bool) -> int): (r: DamageResult)
    ensures stats.None? ==> r == DamageResult(DefaultDamage, false)
    ensures stats.Some? ==> (r.isCritical <==> critRoll <= CritChanceTwentieths(stats.value))
    ensures stats.Some? ==> r.damage == finish(BaseDamage(stats.value, level), r.isCritical)
  {
    if stats.None? then DamageResult(DefaultDamage, false)
    else
      var crit := critRoll <= CritChanceTwentieths(stats.value);
      DamageResult(finish(BaseDamage(stats.value, level), crit), crit)
  }

  /** What an impact produced: the resolver's state, the target's stats
      after the hit, and the hit dealt (if one was). `hitFlag` is the value
      of the combat flag while the target's health changed (`None` when it
      did not), and `statsText` whether that health change showed the
      target's own floating damage text. */
  datatype Impacted = Impacted(state: CombatState, targetStats: Option<CharacterStats>, dealt: Option<DamageResult>,
                               hitFlag: Option<bool>, statsText: bool)

  /** The delayed impact of an attack. Without a target the attack is
      finished, and finished again on the way out, so the finished
      notification fires twice. Otherwise the damage is computed and, when
      the target has stats, subtracted from its health with the combat flag
      raised around the call; then the attack is finished once. */
  function Impact(c: CombatState, attacker: Option<CharacterStats>, level: Option<int>, critRoll: int,
                  finish: (int, bool) -> int, targetStats: Option<CharacterStats>): (r: Impacted)
    ensures !r.state.isAttacking
    ensures r.state.damageFromCombat == (c.damageFromCombat && !(c.target.Some? && targetStats.Some?))
    ensures r.state.canAttack == c.canAttack && r.state.target == c.target
    ensures c.target.None? ==> r.state.attackFinishes == c.attackFinishes + 2
                                && r.targetStats == targetStats && r.dealt.None?
    ensures c.target.Some? ==> r.state.attackFinishes == c.attackFinishes + 1
    ensures c.target.Some? && targetStats.Some? ==>
              var d := CalculateDamage(attacker, level, critRoll, finish);
              && r.dealt == Some(d)
              && r.targetStats == Some(ModifyHealth(targetStats.value, -d.damage))
    ensures c.target.Some? && targetStats.None? ==> r.dealt.None? && r.targetStats.None?
    ensures r.hitFlag.Some? <==> r.dealt.Some?
    ensures r.hitFlag.Some? ==> r.hitFlag.value && !r.state.damageFromCombat
    ensures r.statsText <==>
              r.dealt.Some? && targetStats.Some? && r.hitFlag.Some?
              && ShowsDamageText(targetStats.value, -r.dealt.value.damage, r.hitFlag.value)
  {
    if c.target.None? then
      Impacted(FinishAttack(FinishAttack(c)), targetStats, None, None, false)
    else
      var d := CalculateDamage(attacker, level, critRoll, finish);
      if targetStats.Some? then
        var flagged := c.(damageFromCombat := true);
        var hit := ModifyHealth(targetStats.value, -d.damage);
        var text := ShowsDamageText(targetStats.value, -d.damage, flagged.damageFromCombat);
        Impacted(FinishAttack(flagged.(damageFromCombat := false)), Some(hit), Some(d),
                 Some(flagged.damageFromCombat), text)
      else
        Impacted(FinishAttack(c), targetStats, None, None, false)
  }

  /** A hit from the resolver never shows the target's own floating damage
      text, because the combat flag is up while its health changes; with the
      flag down, the same hit would show it exactly when it is positive and
      changed health. */
  lemma CombatHitShowsNoStatsText(c: CombatState, attacker: Option<CharacterStats>, level: Option<int>,
                                  critRoll: int, finish: (int, bool) -> int, target: CharacterStats)
    requires c.target.Some?
    ensures var r := Impact(c, attacker, level, critRoll, finish, Some(target));
            && r.dealt.Some? && r.hitFlag == Some(true) && !r.statsText
            && !r.state.damageFromCombat
            && (ShowsDamageText(target, -r.dealt.value.damage, false) <==>
                  r.dealt.value.damage > 0 && r.targetStats.value.currentHealth != target.currentHealth)
  {
  }

  /** The cooldown elapsed: the attack is armed again. */
  function CooldownElapsed(c: CombatState): (r: CombatState)
    ensures r.canAttack && r == c.(canAttack := true)
  {
    c.(canAttack := true)
  }

  /** Cancels a running attack and drops the target; the arming flag is left
      alone. Refused when no attack is running. */
  function CancelAttack(c: CombatState): (r: (CombatState, bool))
    ensures r.1 <==> c.isAttacking
    ensures !r.1 ==> r.0 == c
    ensures r.1 ==> !r.0.isAttacking && r.0.target.None? && r.0.canAttack == c.canAttack
    ensures r.1 ==> r.0.attackFinishes == c.attackFinishes + 1
    ensures r.1 ==> r.0.targetChanges == c.targetChanges + (if c.target.Some? then 1 else 0)
  {
    if !c.isAttacking then (c, false)
    else
      (c.(isAttacking := false, target := None,
          targetChanges := c.targetChanges + (if c.target.Some? then 1 else 0),
          attackFinishes := c.attackFinishes + 1), true)
  }

  // ------------------------------------------------------------------ runs

  /** Everything that can happen to the resolver. */
  datatype Event =
    | Frame(click: Option<Click>, distance: int, attackRange: int)
    | SetTargetCall(t: Option<TargetId>)
    | ClearTargetCall
    | CancelCall
    | Destroyed
    | ImpactDue(attacker: Option<CharacterStats>, level: Option<int>, critRoll: int,
                finish: (int, bool) -> int, targetStats: Option<CharacterStats>)
    | CooldownDue

  function Step(c: CombatState, e: Event): CombatState {
    match e
    case Frame(click, d, range) => Update(c, click, d, range)
    case SetTargetCall(t) => SetTarget(c, t).0
    case ClearTargetCall => ClearTarget(c)
    case CancelCall => CancelAttack(c).0
    case Destroyed => TargetDestroyed(c)
    case ImpactDue(a, l, roll, f, ts) => Impact(c, a, l, roll, f, ts).state
    case CooldownDue => CooldownElapsed(c)
  }

  function Run(c: CombatState, events: seq<Event>): CombatState
    decreases |events|
  {
    if |events| == 0 then c else Run(Step(c, events[0]), events[1..])
  }

  /** Only the cooldown re-arms the attack: a single event that is not the
      cooldown never turns a disarmed resolver into an armed one. */
  lemma OnlyCooldownRearms(c: CombatState, e: Event)
    requires !c.canAttack && !e.CooldownDue?
    ensures !Step(c, e).canAttack
  {
  }

  /** Over any run without a cooldown event, a disarmed resolver starts no
      attack and stays disarmed. */
  lemma {:induction false} DisarmedWithoutCooldown(c: CombatState, events: seq<Event>)
    requires !c.canAttack
    requires forall i :: 0 <= i < |events| ==> !events[i].CooldownDue?
    ensures !Run(c, events).canAttack
    ensures Run(c, events).attackStarts == c.attackStarts
    decreases |events|
  {
    if |events| > 0 {
      OnlyCooldownRearms(c, events[0]);
      var c1 := Step(c, events[0]);
      assert c1.attackStarts == c.attackStarts;
      DisarmedWithoutCooldown(c1, events[1..]);
    }
  }

  /** Every start of an attack is paid for by a cooldown: over any run, the
      attacks started never exceed the cooldowns seen plus one if the
      resolver began armed. */
  lemma {:induction false} StartsBoundedByCooldowns(c: CombatState, events: seq<Event>)
    ensures Run(c, events).attackStarts
            <= c.attackStarts + CooldownCount(events) + (if c.canAttack then 1 else 0)
    decreases |events|
  {
    if |events| > 0 {
      var c1 := Step(c, events[0]);
      assert c1.attackStarts <= c.attackStarts + 1;
      assert c1.attackStarts == c.attackStarts + 1 ==> c.canAttack && !c1.canAttack;
      assert c1.canAttack && !c.canAttack ==> events[0].CooldownDue?;
      StartsBoundedByCooldowns(c1, events[1..]);
      assert CooldownCount(events) == (if events[0].CooldownDue? then 1 else 0) + CooldownCount(events[1..]);
    }
  }

  function CooldownCount(events: seq<Event>): nat
    decreases |events|
  {
    if |events| == 0 then 0 else (if events[0].CooldownDue? then 1 else 0) + CooldownCount(events[1..])
  }
}

=== FILE: consumable.dfy ===
/** Using a consumable: healing, mana and permanent attribute modifiers. */
module Consumables {
  import opened Util
  import opened Stats
  import opened Items

  /** Applies consumable `c` to `stats` (missing stats: nothing happens).
      Healing goes through the health path only when positive, mana likewise,
      and when any of the four bonuses is nonzero all four are added as
      modifiers. The effect duration is never consulted. `eq` is the
      equipment table seen by the recalculations. */
  function UseConsumable(stats: Option<CharacterStats>, c: ConsumableData, eq: Option<EquipBonus>): (r: Option<CharacterStats>)
    ensures stats.None? <==> r.None?
    ensures stats.Some? ==> r.value.base == stats.value.base
                            && r.value.attributePoints == stats.value.attributePoints
    ensures stats.Some? && c.bonus.IsZero() ==> r.value.modifiers == stats.value.modifiers
    ensures stats.Some? ==> r.value.modifiers == stats.value.modifiers.Plus(c.bonus)
    ensures stats.Some? && c.bonus.IsZero() && c.manaRestore <= 0 ==>
              r.value.currentMana == stats.value.currentMana
  {
    match stats
    case None => None
    case Some(s) =>
      var s1 := if c.healthRestore > 0 then ModifyHealth(s, c.healthRestore) else s;
      var s2 := if c.manaRestore > 0 then ModifyMana(s1, c.manaRestore) else s1;
      var s3 := if !c.bonus.IsZero() then AddModifiers(s2, c.bonus, eq) else s2;
      Some(s3)
  }

  /** A consumable never kills: it neither fires the death notification nor
      lowers health, and on an in-range character with an unchanged maximum
      it heals by exactly the restore amount, capped at the maximum. */
  lemma {:induction false} ConsumableOnlyHeals(s: CharacterStats, c: ConsumableData, eq: Option<EquipBonus>)
    requires c.bonus.IsZero()
    requires 0 <= s.currentHealth <= s.maxHealth
    ensures var r := UseConsumable(Some(s), c, eq).value;
            r.isDead == s.isDead && r.deathNotices == s.deathNotices
            && r.currentHealth == (if c.healthRestore > 0 then Clamp(s.currentHealth + c.healthRestore, 0, s.maxHealth)
                                   else s.currentHealth)
            && r.currentHealth >= s.currentHealth
  {
    if c.healthRestore > 0 {
      var h := ModifyHealth(s, c.healthRestore);
      assert h.currentHealth >= s.currentHealth;
    }
  }

  /** Modifiers from a consumable persist: using two consumables stacks their
      bonuses, with nothing ever taking the first one away. */
  lemma ConsumableBuffsStack(s: CharacterStats, c1: ConsumableData, c2: ConsumableData, eq: Option<EquipBonus>)
    ensures var r := UseConsumable(UseConsumable(Some(s), c1, eq), c2, eq).value;
            r.modifiers == s.modifiers.Plus(c1.bonus).Plus(c2.bonus)
  {
  }
}

=== FILE: death.dfy ===
/** Death handling: what happens when an entity's health reaches zero. A
    player's death only disables it; an enemy's death also grants the
    player experience, drops loot from the enemy's table and removes the
    corpse. Random draws are parameters. */
module Death {
  import opened Util
  import opened Stats
  import opened Items
  import opened Progression

  /** One entry of a loot table; `dropChance` is a percentage in hundredths
      (10000 is certain). */
  datatype LootDrop = LootDrop(item: Option<Item>, dropChance: int, minQuantity: int, maxQuantity: int)

  /** One spawned loot pickup. */
  datatype Drop = Drop(item: Item, quantity: int)

  /** Per-entity settings: the experience reward, whether a loot prefab is
      configured, and the loot table. */
  datatype DeathConfig = DeathConfig(experienceReward: int, hasLootPrefab: bool, possibleLoots: seq<LootDrop>)

  /** Extra experience per level of the dying entity. */
  const ExpPerEnemyLevel := 5
  /** The upper end of the drop roll: 100 percent in hundredths. */
  const RollMax := 10000

  /** Experience for killing an entity: the configured reward plus five per
      level when the entity has a level component. */
  function CalculateExperienceReward(cfg: DeathConfig, enemyLevel: Option<int>): (xp: int)
    ensures enemyLevel.None? ==> xp == cfg.experienceReward
    ensures enemyLevel.Some? ==> xp - cfg.experienceReward == ExpPerEnemyLevel * enemyLevel.value
  {
    var xp := cfg.experienceReward;
    if enemyLevel.Some? then xp + enemyLevel.value * ExpPerEnemyLevel else xp
  }

  /** A higher enemy level never lowers the reward. */
  lemma RewardGrowsWithLevel(cfg: DeathConfig, l1: int, l2: int)
    requires l1 <= l2
    ensures CalculateExperienceReward(cfg, Some(l1)) <= CalculateExperienceReward(cfg, Some(l2))
  {
  }

  /** An entry drops when the roll, uniform over [0, 100] percent, is at
      most its chance. */
  predicate ShouldDropItem(roll: int, dropChance: int) {
    roll <= dropChance
  }

  /** A chance of 100 percent or more always drops and a negative chance
      never drops, whatever the roll in range. */
  lemma DropChanceExtremes(roll: int, dropChance: int)
    requires 0 <= roll <= RollMax
    ensures dropChance >= RollMax ==> ShouldDropItem(roll, dropChance)
    ensures dropChance < 0 ==> !ShouldDropItem(roll, dropChance)
  {
  }

  /** A higher chance, or a lower roll, never turns a drop into no drop. */
  lemma DropChanceMonotone(roll1: int, roll2: int, c1: int, c2: int)
    requires roll2 <= roll1 && c1 <= c2
    ensures ShouldDropItem(roll1, c1) ==> ShouldDropItem(roll2, c2)
  {
  }

  /** The engine's integer draw from [lo, hiExclusive) with the draw `r`: the
      low end when the bounds meet, and the bounds swapped (the range
      (hiExclusive, lo]) when given in the wrong order. */
  function RandomRangeInt(lo: int, hiExclusive: int, r: nat): (v: int)
    ensures lo < hiExclusive ==> lo <= v < hiExclusive
    ensures lo == hiExclusive ==> v == lo
    ensures lo > hiExclusive ==> hiExclusive < v <= lo
  {
    if lo < hiExclusive then lo + r % (hiExclusive - lo)
    else if lo == hiExclusive then lo
    else lo - r % (lo - hiExclusive)
  }

  /** The quantity of a drop: a draw from [min, max] inclusive. */
  function CalculateDropQuantity(minQuantity: int, maxQuantity: int, r: nat): (q: int)
    ensures minQuantity <= maxQuantity ==> minQuantity <= q <= maxQuantity
    ensures minQuantity == maxQuantity + 1 ==> q == minQuantity
  {
    RandomRangeInt(minQuantity, maxQuantity + 1, r)
  }

  /** Every quantity in [min, max] is drawn by some draw. */
  lemma EveryQuantityReachable(minQuantity: int, maxQuantity: int, q: int)
    requires minQuantity <= q <= maxQuantity
    ensures CalculateDropQuantity(minQuantity, maxQuantity, q - minQuantity) == q
  {
  }

  /** The drops of the entries from `i` on; `roll(j)` and `pick(j)` are the
      draws used for entry `j`. Entries without an item are skipped. */
  function DropFrom(loots: seq<LootDrop>, i: nat, roll: nat -> int, pick: nat -> nat): (r: seq<Drop>)
    requires i <= |loots|
    ensures |r| <= |loots| - i
    ensures forall k :: 0 <= k < |r| ==> DroppedBy(loots, i, r[k], roll, pick)
    decreases |loots| - i
  {
    if i == |loots| then []
    else
      var rest := DropFrom(loots, i + 1, roll, pick);
      var l := loots[i];
      DroppedByWiden(loots, i, rest, roll, pick);
      if l.item.Some? && ShouldDropItem(roll(i), l.dropChance) then
        var d := Drop(l.item.value, CalculateDropQuantity(l.minQuantity, l.maxQuantity, pick(i)));
        assert DroppedBy(loots, i, d, roll, pick) by { assert loots[i].item == Some(d.item); }
        [d] + rest
      else rest
  }

  /** `d` is what some entry from `i` on produces: the entry holds its item,
      the entry's roll succeeded and its draw gave the quantity. */
  ghost predicate DroppedBy(loots: seq<LootDrop>, i: nat, d: Drop, roll: nat -> int, pick: nat -> nat) {
    exists j :: i <= j < |loots| && loots[j].item == Some(d.item)
                && ShouldDropItem(roll(j), loots[j].dropChance)
                && d.quantity == CalculateDropQuantity(loots[j].minQuantity, loots[j].maxQuantity, pick(j))
  }

  lemma DroppedByWiden(loots: seq<LootDrop>, i: nat, ds: seq<Drop>, roll: nat -> int, pick: nat -> nat)
    requires forall k :: 0 <= k < |ds| ==> DroppedBy(loots, i + 1, ds[k], roll, pick)
    ensures forall k :: 0 <= k < |ds| ==> DroppedBy(loots, i, ds[k], roll, pick)
  {
    forall k | 0 <= k < |ds|
      ensures DroppedBy(loots, i, ds[k], roll, pick)
    {
      var j :| i + 1 <= j < |loots| && loots[j].item == Some(ds[k].item)
               && ShouldDropItem(roll(j), loots[j].dropChance)
               && ds[k].quantity == CalculateDropQuantity(loots[j].minQuantity, loots[j].maxQuantity, pick(j));
    }
  }

  /** The drop of one entry, if it drops. */
  function EntryDrop(l: LootDrop, rollValue: int, pickValue: nat): seq<Drop> {
    if l.item.Some? && ShouldDropItem(rollValue, l.dropChance) then
      [Drop(l.item.value, CalculateDropQuantity(l.minQuantity, l.maxQuantity, pickValue))]
    else []
  }

  /** The loot of a dead enemy: nothing without a table or a prefab,
      otherwise the drops of the table's entries in order. */
  function DropLoot(cfg: DeathConfig, roll: nat -> int, pick: nat -> nat): (r: seq<Drop>)
    ensures |cfg.possibleLoots| == 0 || !cfg.hasLootPrefab ==> r == []
    ensures |r| <= |cfg.possibleLoots|
  {
    if |cfg.possibleLoots| == 0 || !cfg.hasLootPrefab then [] else DropFrom(cfg.possibleLoots, 0, roll, pick)
  }

  /** Appends an entry to the loot table; a missing item is ignored. The
      original's quantity bounds default to 1 and 1; here a caller passes
      them explicitly. */
  function AddLootItem(cfg: DeathConfig, item: Option<Item>, dropChance: int, minQuantity: int, maxQuantity: int)
    : (r: DeathConfig)
    ensures item.None? ==> r == cfg
    ensures item.Some? ==> && |r.possibleLoots| == |cfg.possibleLoots| + 1
                           && r.possibleLoots[..|cfg.possibleLoots|] == cfg.possibleLoots
                           && r.possibleLoots[|cfg.possibleLoots|] == LootDrop(item, dropChance, minQuantity, maxQuantity)
    ensures r.experienceReward == cfg.experienceReward && r.hasLootPrefab == cfg.hasLootPrefab
  {
    if item.None? then cfg
    else cfg.(possibleLoots := cfg.possibleLoots + [LootDrop(item, dropChance, minQuantity, maxQuantity)])
  }

  /** The drops of a table with one entry appended are the old drops
      followed by the new entry's drop, if any. */
  lemma {:induction false} DropFromAppend(loots: seq<LootDrop>, l: LootDrop, i: nat, roll: nat -> int, pick: nat -> nat)
    requires i <= |loots|
    ensures DropFrom(loots + [l], i, roll, pick)
            == DropFrom(loots, i, roll, pick) + EntryDrop(l, roll(|loots|), pick(|loots|))
    decreases |loots| - i
  {
    if i < |loots| {
      assert (loots + [l])[i] == loots[i];
      DropFromAppend(loots, l, i + 1, roll, pick);
    } else {
      assert (loots + [l])[i] == l;
      assert DropFrom(loots + [l], i + 1, roll, pick) == [];
    }
  }

  /** Adding a loot entry keeps every drop the table already produced and
      adds at most the new entry's drop at the end. */
  lemma AddLootItemExtendsDrops(cfg: DeathConfig, item: Item, dropChance: int, minQuantity: int, maxQuantity: int,
                                roll: nat -> int, pick: nat -> nat)
    requires cfg.hasLootPrefab
    ensures var l := LootDrop(Some(item), dropChance, minQuantity, maxQuantity);
            DropLoot(AddLootItem(cfg, Some(item), dropChance, minQuantity, maxQuantity), roll, pick)
            == DropLoot(cfg, roll, pick) + EntryDrop(l, roll(|cfg.possibleLoots|), pick(|cfg.possibleLoots|))
  {
    var l := LootDrop(Some(item), dropChance, minQuantity, maxQuantity);
    DropFromAppend(cfg.possibleLoots, l, 0, roll, pick);
    if |cfg.possibleLoots| == 0 {
      assert DropFrom([], 0, roll, pick) == [];
      assert [] + [l] == [l];
    }
  }

  /** What handling a death produced: whether it ran, the player's level
      component afterwards, the experience event (if raised), the loot
      spawned and whether the corpse was scheduled for removal. */
  datatype DeathOutcome = DeathOutcome(
    handled: bool,
    playerLevel: Option<LevelSystem>,
    xpRewarded: Option<int>,
    drops: seq<Drop>,
    corpseRemoval: bool)

  /** Handles a death. An inactive or destroyed entity is ignored. A
      player's death grants nothing. An enemy's death gives the reward to
      the player's level component, when a player with one exists, then
      drops loot and schedules the corpse's removal. */
  method HandleDeath(cfg: DeathConfig, active: bool, isPlayer: bool, enemyLevel: Option<int>,
                     playerFound: bool, playerLevel: Option<LevelSystem>, curve: Curve,
                     roll: nat -> int, pick: nat -> nat)
    returns (o: DeathOutcome)
    requires PositiveCurve(curve)
    ensures !active ==> o == DeathOutcome(false, playerLevel, None, [], false)
    ensures active && isPlayer ==> o == DeathOutcome(true, playerLevel, None, [], false)
    ensures active && !isPlayer ==> o.handled && o.corpseRemoval && o.drops == DropLoot(cfg, roll, pick)
    ensures active && !isPlayer && playerFound && playerLevel.Some? ==>
              o.xpRewarded == Some(CalculateExperienceReward(cfg, enemyLevel))
              && o.playerLevel.Some?
              && o.playerLevel.value.level >= playerLevel.value.level
    ensures o.xpRewarded.Some? ==> active && !isPlayer && playerFound && playerLevel.Some?
    ensures o.xpRewarded.None? ==> o.playerLevel == playerLevel
  {
    if !active {
      return DeathOutcome(false, playerLevel, None, [], false);
    }
    if isPlayer {
      return DeathOutcome(true, playerLevel, None, [], false);
    }
    var level := playerLevel;
    var xp: Option<int> := None;
    if playerFound && playerLevel.Some? {
      var amount := CalculateExperienceReward(cfg, enemyLevel);
      var q, _ := AddExperience(playerLevel.value, curve, amount);
      level := Some(q);
      xp := Some(amount);
    }
    o := DeathOutcome(true, level, xp, DropLoot(cfg, roll, pick), true);
  }

  /** The entity's death handler as a listener on its health-reached-zero
      notification: the health changes are applied in order, and each change
      that raises the notification runs `HandleDeath` once, with the player's
      level as the previous handling left it. Since the notification fires at
      most once, so do the rewards: at most one outcome, none for an entity
      that was already dead, and one exactly when this sequence kills it. */
  method ListenForDeath(cfg: DeathConfig, s: CharacterStats, amounts: seq<int>, active: bool, isPlayer: bool,
                        enemyLevel: Option<int>, playerFound: bool, playerLevel: Option<LevelSystem>,
                        curve: Curve, roll: nat -> int, pick: nat -> nat)
    returns (t: CharacterStats, outcomes: seq<DeathOutcome>)
    requires PositiveCurve(curve) && s.DeathConsistent()
    ensures t == ApplyHealthChanges(s, amounts)
    ensures |outcomes| == t.deathNotices - s.deathNotices
    ensures |outcomes| <= 1
    ensures |outcomes| == 1 <==> !s.isDead && t.isDead
    ensures forall i :: 0 <= i < |outcomes| ==> outcomes[i].handled == active
    ensures |outcomes| == 1 && active && !isPlayer ==> outcomes[0].drops == DropLoot(cfg, roll, pick)
    ensures |outcomes| == 1 && active && !isPlayer && playerFound && playerLevel.Some? ==>
              outcomes[0].xpRewarded == Some(CalculateExperienceReward(cfg, enemyLevel))
  {
    t := s;
    outcomes := [];
    var rest := amounts;
    var level := playerLevel;
    while |rest| > 0
      invariant ApplyHealthChanges(t, rest) == ApplyHealthChanges(s, amounts)
      invariant t.DeathConsistent()
      invariant s.isDead ==> t.isDead
      invariant |outcomes| == t.deathNotices - s.deathNotices
      invariant |outcomes| == 0 ==> level == playerLevel
      invariant forall i :: 0 <= i < |outcomes| ==> outcomes[i].handled == active
      invariant |outcomes| == 1 && active && !isPlayer ==> outcomes[0].drops == DropLoot(cfg, roll, pick)
      invariant |outcomes| == 1 && active && !isPlayer && playerFound && playerLevel.Some? ==>
                  outcomes[0].xpRewarded == Some(CalculateExperienceReward(cfg, enemyLevel))
      decreases |rest|
    {
      var next := ModifyHealth(t, rest[0]);
      if next.deathNotices > t.deathNotices {
        var o := HandleDeath(cfg, active, isPlayer, enemyLevel, playerFound, level, curve, roll, pick);
        outcomes := outcomes + [o];
        level := o.playerLevel;
      }
      t := next;
      rest := rest[1..];
    }
  }
}

=== FILE: enemy.dfy ===
/** The enemy controller: the Idle/Chasing/Attacking state chosen each frame
    from the distance to the player, the periodic scan that acquires and
    loses the player, and the attack cycle (start, delayed impact, cooldown
    that finishes the attack). Distances and radii are integers in one
    common unit; the delayed steps of the attack are explicit events. */
module Enemies {
  import opened Util
  import opened Stats

  datatype EnemyState = Idle | Chasing | Attacking

  /** Fixed configuration: detection radius and attack range. */
  datatype Config = Config(detectionRadius: int, attackRange: int)

  /** `tracking` says whether a player is being followed and `playerHasStats`
      whether that player has a stats component; `distance` is the distance
      recorded by the last frame. `enabled` is cleared on death, which stops
      the frames but not the already running scan and attack steps. */
  datatype Enemy = Enemy(
    state: EnemyState,
    tracking: bool,
    playerHasStats: bool,
    distance: int,
    isAttacking: bool,
    canAttack: bool,
    enabled: bool,
    attackStarts: nat,
    attackFinishes: nat,
    deathNotices: nat)

  const Spawned := Enemy(Idle, false, false, 0, false, true, true, 0, 0, 0)

  /** Damage without a stats component. */
  const DefaultDamage := 3

  /** The state a frame chooses: Idle without a player; otherwise Attacking
      when the player is within attack range and the attack is armed, else
      Chasing when within detection radius, else Idle. */
  function ChooseState(cfg: Config, tracking: bool, distance: int, canAttack: bool): (s: EnemyState)
    ensures !tracking ==> s == Idle
    ensures tracking ==> (s == Attacking <==> distance <= cfg.attackRange && canAttack)
    ensures tracking ==> (s == Chasing <==> !(distance <= cfg.attackRange && canAttack) && distance <= cfg.detectionRadius)
  {
    if !tracking then Idle
    else if distance <= cfg.attackRange && canAttack then Attacking
    else if distance <= cfg.detectionRadius then Chasing
    else Idle
  }

  /** Starts an attack: attacking and disarmed until the cooldown ends. */
  function PerformAttack(e: Enemy): (r: Enemy)
    ensures r.isAttacking && !r.canAttack
    ensures r == e.(isAttacking := true, canAttack := false, attackStarts := r.attackStarts)
    ensures r.attackStarts == e.attackStarts + 1
  {
    e.(isAttacking := true, canAttack := false, attackStarts := e.attackStarts + 1)
  }

  /** Ends an attack after the cooldown: idle and armed again. */
  function FinishAttack(e: Enemy): (r: Enemy)
    ensures !r.isAttacking && r.canAttack
    ensures r == e.(isAttacking := false, canAttack := true, attackFinishes := r.attackFinishes)
    ensures r.attackFinishes == e.attackFinishes + 1
  {
    e.(isAttacking := false, canAttack := true, attackFinishes := e.attackFinishes + 1)
  }

  /** When a frame starts an attack. */
  predicate StartsAttack(cfg: Config, e: Enemy, distance: int) {
    e.enabled && e.tracking && ChooseState(cfg, true, distance, e.canAttack) == Attacking
    && !e.isAttacking && e.canAttack
  }

  /** One frame of a live enemy following a player at `distance`: record the
      distance, choose the state, and in the Attacking state start an
      attack unless one is running. Without a player, or once disabled,
      nothing happens. */
  function Frame(cfg: Config, e: Enemy, distance: int): (r: Enemy)
    ensures !e.enabled || !e.tracking ==> r == e
    ensures e.enabled && e.tracking ==> r.distance == distance && r.state == ChooseState(cfg, true, distance, e.canAttack)
    ensures StartsAttack(cfg, e, distance) <==> r.attackStarts == e.attackStarts + 1
    ensures !StartsAttack(cfg, e, distance) ==> r.attackStarts == e.attackStarts
    ensures StartsAttack(cfg, e, distance) ==> r.isAttacking && !r.canAttack
    ensures !StartsAttack(cfg, e, distance) ==> r.isAttacking == e.isAttacking && r.canAttack == e.canAttack
  {
    if !e.enabled || !e.tracking then e
    else
      var s := ChooseState(cfg, true, distance, e.canAttack);
      var e1 := e.(distance := distance, state := s);
      if s == Attacking && !e1.isAttacking && e1.canAttack then PerformAttack(e1) else e1
  }

  /** What the periodic scan saw: a player inside the detection radius (and
      whether it has stats), or none, together with the distance to the
      tracked player. */
  datatype Sighting = Seen(hasStats: bool) | Unseen

  /** The scan: a player inside the radius is tracked, and an idle enemy
      starts chasing; otherwise a tracked player farther than 1.5 times the
      radius is dropped and the enemy goes idle. */
  function Scan(cfg: Config, e: Enemy, sight: Sighting, distance: int): (r: Enemy)
    ensures sight.Seen? ==> r.tracking && r.playerHasStats == sight.hasStats
    ensures sight.Seen? ==> r.state == (if e.state == Idle then Chasing else e.state)
    ensures sight.Unseen? ==> (r.tracking <==> e.tracking && !LostPlayer(cfg, distance))
    ensures sight.Unseen? && e.tracking && LostPlayer(cfg, distance) ==> r.state == Idle && !r.playerHasStats
    ensures sight.Unseen? && !(e.tracking && LostPlayer(cfg, distance)) ==> r == e
    ensures r.isAttacking == e.isAttacking && r.canAttack == e.canAttack
  {
    match sight
    case Seen(hasStats) =>
      e.(tracking := true, playerHasStats := hasStats, state := if e.state == Idle then Chasing else e.state)
    case Unseen =>
      if e.tracking && LostPlayer(cfg, distance) then e.(tracking := false, playerHasStats := false, state := Idle)
      else e
  }

  /** The player is lost beyond 1.5 times the detection radius. */
  predicate LostPlayer(cfg: Config, distance: int) {
    2 * distance > 3 * cfg.detectionRadius
  }

  /** A tracked player is dropped only when none was seen and it is beyond
      the expanded radius; hysteresis keeps it between 1 and 1.5 radii. */
  lemma TrackingHysteresis(cfg: Config, e: Enemy, distance: int)
    requires e.tracking && cfg.detectionRadius >= 0
    requires distance <= cfg.detectionRadius * 3 / 2
    ensures Scan(cfg, e, Unseen, distance).tracking
  {
  }

  /** The enemy's damage: one and a half times its strength, then varied
      and rounded by `finish` (applied to three times the strength, the base
      in halves). Without stats the default is used. There is no critical
      hit. */
  function EnemyDamage(stats: Option<CharacterStats>, finish: int -> int): (d: int)
    ensures stats.None? ==> d == DefaultDamage
    ensures stats.Some? ==> d == finish(3 * stats.value.StrengthValue())
  {
    if stats.None? then DefaultDamage else finish(3 * stats.value.StrengthValue())
  }

  /** Whether the delayed impact lands: a tracked player with stats, at a
      recorded distance of at most 1.2 times the attack range. */
  predicate InReach(cfg: Config, e: Enemy) {
    e.tracking && e.playerHasStats && 10 * e.distance <= 12 * cfg.attackRange
  }

  /** The delayed impact: when in reach, the damage is subtracted from the
      player's health and reported; otherwise nothing happens. The attack
      stays running until the cooldown. */
  function ApplyDamageToPlayer(cfg: Config, e: Enemy, stats: Option<CharacterStats>, finish: int -> int,
                               player: CharacterStats): (r: (CharacterStats, Option<int>))
    ensures InReach(cfg, e) <==> r.1.Some?
    ensures !InReach(cfg, e) ==> r.0 == player
    ensures InReach(cfg, e) ==> r.1 == Some(EnemyDamage(stats, finish)) && r.0 == ModifyHealth(player, -r.1.value)
  {
    if InReach(cfg, e) then
      var d := EnemyDamage(stats, finish);
      (ModifyHealth(player, -d), Some(d))
    else (player, None)
  }

  /** The enemy's health reached zero: the controller is disabled and the
      death notified. */
  function HandleDeath(e: Enemy): (r: Enemy)
    ensures !r.enabled && r.deathNotices == e.deathNotices + 1
    ensures r == e.(enabled := false, deathNotices := r.deathNotices)
  {
    e.(enabled := false, deathNotices := e.deathNotices + 1)
  }

  // ------------------------------------------------------------------ runs

  /** Everything that can happen to the enemy's flags. Impacts do not touch
      them and are left out. */
  datatype Event =
    | FrameAt(distance: int)
    | ScanSaw(sight: Sighting, distance: int)
    | CooldownDue
    | Died

  function Step(cfg: Config, e: Enemy, ev: Event): Enemy {
    match ev
    case FrameAt(d) => Frame(cfg, e, d)
    case ScanSaw(s, d) => Scan(cfg, e, s, d)
    case CooldownDue => if e.isAttacking then FinishAttack(e) else e
    case Died => HandleDeath(e)
  }

  function Run(cfg: Config, e: Enemy, events: seq<Event>): Enemy
    decreases |events|
  {
    if |events| == 0 then e else Run(cfg, Step(cfg, e, events[0]), events[1..])
  }

  /** The attack flags are complementary: exactly one of attacking and
      armed holds. */
  predicate FlagsExclusive(e: Enemy) {
    e.isAttacking != e.canAttack
  }

  /** Every step keeps the attack flags complementary, and an attack only
      starts when none is running. */
  lemma StepKeepsFlags(cfg: Config, e: Enemy, ev: Event)
    requires FlagsExclusive(e)
    ensures FlagsExclusive(Step(cfg, e, ev))
    ensures Step(cfg, e, ev).attackStarts > e.attackStarts ==> !e.isAttacking && e.canAttack
  {
  }

  /** Over any run from the spawned state the flags stay complementary, so
      the attacks started and finished differ by at most one. */
  lemma {:induction false} RunKeepsFlags(cfg: Config, e: Enemy, events: seq<Event>)
    requires FlagsExclusive(e)
    requires e.attackStarts == e.attackFinishes + (if e.isAttacking then 1 else 0)
    ensures var r := Run(cfg, e, events);
            FlagsExclusive(r) && r.attackStarts == r.attackFinishes + (if r.isAttacking then 1 else 0)
    decreases |events|
  {
    if |events| > 0 {
      var e1 := Step(cfg, e, events[0]);
      StepKeepsFlags(cfg, e, events[0]);
      assert e1.attackStarts == e1.attackFinishes + (if e1.isAttacking then 1 else 0);
      RunKeepsFlags(cfg, e1, events[1..]);
    }
  }

  /** The spawned enemy satisfies the flag invariant, so every run does. */
  lemma SpawnedRunsKeepFlags(cfg: Config, events: seq<Event>)
    ensures var r := Run(cfg, Spawned, events);
            FlagsExclusive(r) && r.attackStarts == r.attackFinishes + (if r.isAttacking then 1 else 0)
  {
    RunKeepsFlags(cfg, Spawned, events);
  }
}

=== FILE: equipment_item.dfy ===
/** The requirement check an equipment item performs before it may be worn. */
module EquipmentItems {
  import opened Util
  import opened Stats
  import opened Items

  /** Whether a character with stats `stats` at level `level` may equip an
      item with data `d`. Either reference may be missing. The checks run in
      the order level, strength, dexterity, intelligence, each against the
      effective (modified) attribute; vitality is never checked. */
  function CanEquip(stats: Option<CharacterStats>, level: Option<int>, d: EquipmentData): (ok: bool)
    ensures ok <==> stats.Some? && level.Some?
                    && level.value >= d.requiredLevel
                    && stats.value.StrengthValue() >= d.requiredStrength
                    && stats.value.DexterityValue() >= d.requiredDexterity
                    && stats.value.IntelligenceValue() >= d.requiredIntelligence
  {
    if stats.None? || level.None? then false
    else if level.value < d.requiredLevel then false
    else if stats.value.StrengthValue() < d.requiredStrength then false
    else if stats.value.DexterityValue() < d.requiredDexterity then false
    else if stats.value.IntelligenceValue() < d.requiredIntelligence then false
    else true
  }

  /** Effective attributes at least as high, at a level at least as high,
      never turn an allowed item into a forbidden one. */
  lemma CanEquipMonotone(s: CharacterStats, t: CharacterStats, l: int, m: int, d: EquipmentData)
    requires CanEquip(Some(s), Some(l), d)
    requires m >= l
    requires t.StrengthValue() >= s.StrengthValue()
    requires t.DexterityValue() >= s.DexterityValue()
    requires t.IntelligenceValue() >= s.IntelligenceValue()
    ensures CanEquip(Some(t), Some(m), d)
  {
  }

  /** Vitality plays no part: any change of base vitality or its modifier
      leaves the verdict as it was. */
  lemma CanEquipIgnoresVitality(s: CharacterStats, l: Option<int>, d: EquipmentData, bv: int, mv: int)
    ensures CanEquip(Some(s), l, d)
            == CanEquip(Some(s.(base := s.base.(vitality := bv), modifiers := s.modifiers.(vitality := mv))), l, d)
  {
  }

  /** The check reads effective attributes, so a strength modifier can
      satisfy a requirement that the base strength does not meet: with every
      other requirement met and base < required <= base + modifier, the item
      is refused without the modifier and allowed with it. */
  lemma ModifierSatisfiesRequirement(s: CharacterStats, l: int, d: EquipmentData, m: int)
    requires l >= d.requiredLevel
    requires s.DexterityValue() >= d.requiredDexterity && s.IntelligenceValue() >= d.requiredIntelligence
    requires s.base.strength < d.requiredStrength <= s.base.strength + m
    ensures !CanEquip(Some(s.(modifiers := s.modifiers.(strength := 0))), Some(l), d)
    ensures CanEquip(Some(s.(modifiers := s.modifiers.(strength := m))), Some(l), d)
  {
  }
}

=== FILE: equipment_manager.dfy ===
/** The player's equipment: a table of twelve slots, equipping with a
    requirement check and symmetric attribute bonuses, the cached defence
    totals, the full rebuild of modifiers from the worn items, and using an
    item from the inventory. */
module Equipment {
  import opened Util
  import opened Stats
  import opened Items
  import opened EquipmentItems
  import opened Inventory
  import opened Consumables

  /** The slot table. A slot not yet in the table counts as empty. */
  type Table = map<EquipmentSlot, Option<EquipmentItem>>

  /** The equipment component together with the player components it talks
      to: stats and level (either may be missing), the inventory (if one
      exists), whether the stats listen for equipment changes, and the
      defence cache. */
  datatype Manager = Manager(
    table: Table,
    stats: Option<CharacterStats>,
    level: Option<int>,
    inventory: Option<seq<Slot>>,
    statsListening: bool,
    cacheDirty: bool,
    cachePhysical: int,
    cacheMagical: int)

  function Occupant(t: Table, s: EquipmentSlot): Option<EquipmentItem> {
    if s in t then t[s] else None
  }

  function ItemBonus(o: Option<EquipmentItem>): Attributes {
    if o.Some? then BonusOf(o.value) else Zero
  }

  function ItemStatBonus(o: Option<EquipmentItem>): EquipBonus {
    if o.Some? then StatBonusOf(o.value) else NoBonus
  }

  /** Sum of the attribute bonuses of the items worn in `order`'s slots. */
  function AttrSum(t: Table, order: seq<EquipmentSlot>): Attributes
    decreases |order|
  {
    if |order| == 0 then Zero else ItemBonus(Occupant(t, order[0])).Plus(AttrSum(t, order[1..]))
  }

  /** Sum of the health, mana and defence bonuses over `order`'s slots. */
  function StatSum(t: Table, order: seq<EquipmentSlot>): EquipBonus
    decreases |order|
  {
    if |order| == 0 then NoBonus else ItemStatBonus(Occupant(t, order[0])).Plus(StatSum(t, order[1..]))
  }

  /** The slots in enumeration order. */
  function SlotOrder(): (order: seq<EquipmentSlot>)
    ensures order == AllSlots
  {
    AllSlots
  }

  /** The attribute bonuses of everything worn. */
  function EquipmentModifiers(t: Table): Attributes { AttrSum(t, SlotOrder()) }

  /** The stat bonus totals the character sums over the worn items. */
  function EquipmentBonus(t: Table): EquipBonus { StatSum(t, SlotOrder()) }

  /** Every worn item sits in the slot it declares. */
  predicate SlotsConsistent(t: Table) {
    forall s :: s in t && t[s].Some? ==> SlotOf(t[s].value) == s
  }

  /** The defence cache, when not marked stale, holds the worn totals. */
  predicate CacheFresh(m: Manager) {
    !m.cacheDirty ==> m.cachePhysical == EquipmentBonus(m.table).physicalDefense
                      && m.cacheMagical == EquipmentBonus(m.table).magicalDefense
  }

  predicate Distinct(order: seq<EquipmentSlot>) {
    forall i, j :: 0 <= i < j < |order| ==> order[i] != order[j]
  }

  // ------------------------------------------------------------------- setup

  /** Start-up of the slot table `t0`: every slot is written empty. */
  function InitializeEquipmentSlots(t0: Table): (t: Table)
    ensures forall s: EquipmentSlot :: s in t && t[s].None?
    ensures SlotsConsistent(t)
  {
    AllSlotsComplete();
    InitSlots(t0, AllSlots)
  }

  function InitSlots(t: Table, order: seq<EquipmentSlot>): (r: Table)
    ensures forall s :: s in order ==> s in r && r[s].None?
    ensures forall s :: s !in order ==> (s in r <==> s in t) && (s in t ==> r[s] == t[s])
    decreases |order|
  {
    if |order| == 0 then t else InitSlots(t[order[0] := None], order[1..])
  }

  /** A manager as it stands after start-up, from the table `t0` it was
      created with. */
  function NewManager(t0: Table, stats: Option<CharacterStats>, level: Option<int>, inventory: Option<seq<Slot>>,
                      statsListening: bool): (m: Manager)
    ensures forall s :: Occupant(m.table, s).None?
    ensures SlotsConsistent(m.table) && CacheFresh(m)
    ensures EquipmentModifiers(m.table) == Zero && EquipmentBonus(m.table) == NoBonus
  {
    var t := InitializeEquipmentSlots(t0);
    EmptySums(t, AllSlots);
    Manager(t, stats, level, inventory, statsListening, true, 0, 0)
  }

  lemma {:induction false} EmptySums(t: Table, order: seq<EquipmentSlot>)
    requires forall s :: Occupant(t, s).None?
    ensures AttrSum(t, order) == Zero && StatSum(t, order) == NoBonus
    decreases |order|
  {
    if |order| > 0 { EmptySums(t, order[1..]); }
  }

  // ------------------------------------------------------------ bonus sums

  /** Rewriting one slot changes the bonus sum by the difference between the
      new and the old occupant, when the slot is listed once. */
  lemma {:induction false} AttrSumUpdate(t: Table, order: seq<EquipmentSlot>, s: EquipmentSlot, x: Option<EquipmentItem>)
    requires Distinct(order)
    ensures AttrSum(t[s := x], order)
            == if s in order then AttrSum(t, order).Minus(ItemBonus(Occupant(t, s))).Plus(ItemBonus(x))
               else AttrSum(t, order)
    decreases |order|
  {
    if |order| > 0 {
      var h, rest := order[0], order[1..];
      assert Distinct(rest) by {
        forall i, j | 0 <= i < j < |rest| ensures rest[i] != rest[j] {
          assert rest[i] == order[i + 1] && rest[j] == order[j + 1];
        }
      }
      AttrSumUpdate(t, rest, s, x);
      assert AttrSum(t[s := x], order) == ItemBonus(Occupant(t[s := x], h)).Plus(AttrSum(t[s := x], rest));
      assert AttrSum(t, order) == ItemBonus(Occupant(t, h)).Plus(AttrSum(t, rest));
      if h == s {
        assert s !in rest by {
          forall k | 0 <= k < |rest| ensures rest[k] != s {
            assert rest[k] == order[k + 1];
          }
        }
        assert Occupant(t[s := x], h) == x;
        SwapHead(ItemBonus(Occupant(t, s)), AttrSum(t, rest), ItemBonus(x));
      } else {
        assert Occupant(t[s := x], h) == Occupant(t, h);
        assert s in order <==> s in rest;
        if s in rest {
          SwapTail(ItemBonus(Occupant(t, h)), AttrSum(t, rest), ItemBonus(Occupant(t, s)), ItemBonus(x));
        }
      }
    }
  }

  lemma SwapHead(o: Attributes, rest: Attributes, x: Attributes)
    ensures x.Plus(rest) == o.Plus(rest).Minus(o).Plus(x)
  {
  }

  lemma SwapTail(h: Attributes, rest: Attributes, o: Attributes, x: Attributes)
    ensures h.Plus(rest.Minus(o).Plus(x)) == h.Plus(rest).Minus(o).Plus(x)
  {
  }

  lemma ModifiersAfterSlotWrite(t: Table, s: EquipmentSlot, x: Option<EquipmentItem>)
    ensures EquipmentModifiers(t[s := x])
            == EquipmentModifiers(t).Minus(ItemBonus(Occupant(t, s))).Plus(ItemBonus(x))
  {
    AllSlotsComplete();
    AttrSumUpdate(t, AllSlots, s, x);
  }

  // ---------------------------------------------------------------- bonuses

  /** Adds (or, with `apply` false, subtracts) an item's four attribute
      bonuses to the modifiers, one attribute at a time with a recalculation
      after each, against the table as it stands. Fails when there are no
      stats. Health and mana bonuses are not applied here. */
  function ApplyEquipmentBonuses(m: Manager, item: EquipmentItem, apply: bool): (r: (Manager, bool))
    ensures r.1 <==> m.stats.Some?
    ensures !r.1 ==> r.0 == m
    ensures r.1 ==> r.0 == m.(stats := r.0.stats, cacheDirty := true) && r.0.stats.Some?
    ensures r.1 ==> var s := m.stats.value; var s' := r.0.stats.value;
              && s'.modifiers == (if apply then s.modifiers.Plus(BonusOf(item)) else s.modifiers.Minus(BonusOf(item)))
              && s'.base == s.base && s'.attributePoints == s.attributePoints
              && s'.isDead == s.isDead && s'.deathNotices == s.deathNotices
              && s'.DerivedUpToDate() && s'.equip == EquipmentBonus(m.table)
  {
    if m.stats.None? then (m, false)
    else (m.(stats := Some(ShiftModifiers(m.stats.value, BonusOf(item), apply, EquipmentBonus(m.table))), cacheDirty := true), true)
  }

  /** The stats after adding (or subtracting) bonus `b` attribute by
      attribute, recalculating against the totals `eq` each time. */
  function ShiftModifiers(s: CharacterStats, b: Attributes, apply: bool, eq: EquipBonus): (s': CharacterStats)
    ensures s'.modifiers == (if apply then s.modifiers.Plus(b) else s.modifiers.Minus(b))
    ensures s'.base == s.base && s'.attributePoints == s.attributePoints
    ensures s'.isDead == s.isDead && s'.deathNotices == s.deathNotices
    ensures s'.DerivedUpToDate() && s'.equip == eq
  {
    var delta := if apply then b else Zero.Minus(b);
    var s' := AddModifiers(s, delta, Some(eq));
    assert s.modifiers.Plus(Zero.Minus(b)) == s.modifiers.Minus(b);
    s'
  }

  /** The stats' response to the equipment-changed notification: a full
      recalculation against the current table, when they listen. */
  function EquipmentChanged(m: Manager): (m': Manager)
    ensures m'.table == m.table && m'.level == m.level && m'.inventory == m.inventory
    ensures m'.cacheDirty == m.cacheDirty && m'.statsListening == m.statsListening
    ensures m'.cachePhysical == m.cachePhysical && m'.cacheMagical == m.cacheMagical
    ensures m'.stats.Some? <==> m.stats.Some?
    ensures m.stats.Some? ==> var s := m.stats.value; var s' := m'.stats.value;
              s'.modifiers == s.modifiers && s'.base == s.base && s'.attributePoints == s.attributePoints
              && s'.isDead == s.isDead && s'.deathNotices == s.deathNotices
    ensures m.stats.Some? && m.statsListening ==>
              m'.stats.value.DerivedUpToDate() && m'.stats.value.equip == EquipmentBonus(m.table)
  {
    if m.statsListening && m.stats.Some? then
      m.(stats := Some(CalculateStats(m.stats.value, Some(EquipmentBonus(m.table)))))
    else m
  }

  // ---------------------------------------------------------- equip / unequip

  /** Takes off whatever is in `slot`: its bonuses are subtracted (while it is
      still in the table), the slot is cleared, the item goes back to the
      inventory, the cache is marked stale and the change is announced. An
      empty slot gives `None` and changes nothing. */
  function UnequipItem(m: Manager, slot: EquipmentSlot): (r: (Manager, Option<EquipmentItem>))
    ensures r.1 == Occupant(m.table, slot)
    ensures r.1.None? ==> r.0 == m
    ensures r.1.Some? ==> r.0.table == m.table[slot := None] && r.0.cacheDirty
    ensures r.0.level == m.level && r.0.statsListening == m.statsListening
    ensures r.0.stats.Some? <==> m.stats.Some?
    ensures r.0.inventory.Some? <==> m.inventory.Some?
    ensures m.inventory.Some? ==> |r.0.inventory.value| == |m.inventory.value|
  {
    var occupant := Occupant(m.table, slot);
    if occupant.None? then (m, None)
    else
      var item := occupant.value;
      var m1 := ApplyEquipmentBonuses(m, item, false).0;
      var m2 := m1.(table := m1.table[slot := None], cacheDirty := true);
      (EquipmentChanged(m2.(inventory := ReturnToInventory(m2.inventory, item))), occupant)
  }

  /** The inventory after an unequipped item is handed back to it (one unit). */
  function ReturnToInventory(inv: Option<seq<Slot>>, item: EquipmentItem): (r: Option<seq<Slot>>)
    ensures r.Some? <==> inv.Some?
    ensures inv.Some? ==> |r.value| == |inv.value|
    ensures inv.Some? && AddItem(inv.value, Some(item), 1).1
            ==> Count(r.value, Some(item)) == Count(inv.value, Some(item)) + 1
  {
    if inv.Some? then Some(AddItem(inv.value, Some(item), 1).0) else None
  }

  /** The inventory after one unit of an equipped item is taken out of it. */
  function TakeFromInventory(inv: Option<seq<Slot>>, item: EquipmentItem): (r: Option<seq<Slot>>)
    ensures r.Some? <==> inv.Some?
    ensures inv.Some? ==> |r.value| == |inv.value|
    ensures inv.Some? && NonNegative(inv.value) && Count(inv.value, Some(item)) >= 1
            ==> Count(r.value, Some(item)) == Count(inv.value, Some(item)) - 1
  {
    if inv.Some? then Some(RemoveItem(inv.value, Some(item), 1).0) else None
  }

  /** Unequipping subtracts exactly the occupant's attribute bonuses from the
      modifiers and leaves everything else about the character alone; if the
      stats listen, the derived stats are then recomputed against the new
      table. */
  lemma UnequipItemStats(m: Manager, slot: EquipmentSlot)
    requires m.stats.Some?
    ensures var r := UnequipItem(m, slot); var s := m.stats.value; var s' := r.0.stats.value;
            && s'.modifiers == s.modifiers.Minus(ItemBonus(r.1))
            && s'.base == s.base && s'.attributePoints == s.attributePoints
            && s'.isDead == s.isDead && s'.deathNotices == s.deathNotices
            && (m.statsListening && r.1.Some? ==> s'.DerivedUpToDate() && s'.equip == EquipmentBonus(r.0.table))
  {
  }

  /** Unequipping empties the slot, touches no other slot, and keeps every
      item in its declared slot and the cache honest. */
  lemma UnequipItemTable(m: Manager, slot: EquipmentSlot)
    ensures var r := UnequipItem(m, slot).0;
            && Occupant(r.table, slot).None?
            && (forall s :: s != slot ==> Occupant(r.table, s) == Occupant(m.table, s))
            && (SlotsConsistent(m.table) ==> SlotsConsistent(r.table))
            && (CacheFresh(m) ==> CacheFresh(r))
  {
    var u := UnequipItem(m, slot);
    if u.1.Some? {
      assert u.0.table == m.table[slot := None] && u.0.cacheDirty;
    } else {
      assert u.0 == m;
    }
  }

  /** Puts `item` on. A missing item, missing stats or level, or an unmet
      requirement give `None` and change nothing; the check runs before the
      current occupant of the slot is taken off. On success the occupant (if
      any) is taken off as by `UnequipItem` and returned, the item goes into
      its declared slot, its bonuses are added, one unit of it leaves the
      inventory, the cache is marked stale and the change is announced. */
  function EquipItem(m: Manager, item: Option<EquipmentItem>): (r: (Manager, Option<EquipmentItem>))
    ensures !Equippable(m, item) ==> r == (m, None)
    ensures Equippable(m, item) ==>
              && r.1 == Occupant(m.table, SlotOf(item.value))
              && r.0.table == m.table[SlotOf(item.value) := item]
              && r.0.cacheDirty && r.0.level == m.level && r.0.statsListening == m.statsListening
              && r.0.stats.Some?
    ensures r.0.inventory.Some? <==> m.inventory.Some?
    ensures m.inventory.Some? ==> |r.0.inventory.value| == |m.inventory.value|
  {
    if !Equippable(m, item) then (m, None)
    else
      var it := item.value;
      var slot := SlotOf(it);
      var u := UnequipItem(m, slot);
      var m1 := u.0;
      OverwriteSlot(m.table, slot, None, Some(it));
      var m2 := m1.(table := m1.table[slot := Some(it)]);
      var m3 := ApplyEquipmentBonuses(m2, it, true).0;
      var m4 := m3.(inventory := TakeFromInventory(m3.inventory, it), cacheDirty := true);
      (EquipmentChanged(m4), u.1)
  }

  lemma OverwriteSlot(t: Table, s: EquipmentSlot, x: Option<EquipmentItem>, y: Option<EquipmentItem>)
    ensures t[s := x][s := y] == t[s := y]
  {
  }

  /** Equipping adds exactly the new item's bonuses and removes those of the
      occupant it displaced; nothing else about the character changes, and
      the derived stats stay consistent. */
  lemma EquipItemStats(m: Manager, item: Option<EquipmentItem>)
    requires Equippable(m, item)
    ensures var r := EquipItem(m, item); var s := m.stats.value; var s' := r.0.stats.value;
            && s'.modifiers == s.modifiers.Minus(ItemBonus(r.1)).Plus(BonusOf(item.value))
            && s'.base == s.base && s'.attributePoints == s.attributePoints
            && s'.isDead == s.isDead && s'.deathNotices == s.deathNotices
            && s'.DerivedUpToDate()
            && (m.statsListening ==> s'.equip == EquipmentBonus(r.0.table))
  {
    UnequipItemStats(m, SlotOf(item.value));
  }

  /** Equipping keeps every item in its declared slot and the cache honest. */
  lemma EquipItemTable(m: Manager, item: Option<EquipmentItem>)
    ensures var r := EquipItem(m, item).0;
            && (SlotsConsistent(m.table) ==> SlotsConsistent(r.table))
            && (CacheFresh(m) ==> CacheFresh(r))
  {
  }

  /** The guard of `EquipItem`: an item, stats and level exist and the
      requirements are met. */
  predicate Equippable(m: Manager, item: Option<EquipmentItem>) {
    item.Some? && m.stats.Some? && m.level.Some?
    && CanEquip(m.stats, m.level, item.value.behaviour.equipment)
  }

  /** Removing an item's bonuses and adding them back are symmetric: the
      modifiers minus the bonuses of everything worn never change under
      equipping or unequipping. Any other modifier (a consumable's, say)
      survives both. */
  lemma {:induction false} EquipKeepsNonEquipmentModifiers(m: Manager, item: Option<EquipmentItem>)
    requires m.stats.Some?
    ensures var r := EquipItem(m, item).0;
            r.stats.Some?
            && r.stats.value.modifiers.Minus(EquipmentModifiers(r.table))
               == m.stats.value.modifiers.Minus(EquipmentModifiers(m.table))
  {
    if Equippable(m, item) {
      var r := EquipItem(m, item);
      var slot := SlotOf(item.value);
      EquipItemStats(m, item);
      ModifiersAfterSlotWrite(m.table, slot, item);
      SwapCancels(m.stats.value.modifiers, EquipmentModifiers(m.table), ItemBonus(r.1), BonusOf(item.value));
    }
  }

  lemma {:induction false} UnequipKeepsNonEquipmentModifiers(m: Manager, slot: EquipmentSlot)
    requires m.stats.Some?
    ensures var r := UnequipItem(m, slot).0;
            r.stats.Some?
            && r.stats.value.modifiers.Minus(EquipmentModifiers(r.table))
               == m.stats.value.modifiers.Minus(EquipmentModifiers(m.table))
  {
    UnequipItemStats(m, slot);
    var r := UnequipItem(m, slot);
    if r.1.Some? {
      ModifiersAfterSlotWrite(m.table, slot, None);
      SwapCancels(m.stats.value.modifiers, EquipmentModifiers(m.table), ItemBonus(r.1), Zero);
    }
  }

  /** Exchanging `o` for `b` in both the modifiers and the worn total leaves
      their difference alone. */
  lemma SwapCancels(a: Attributes, e: Attributes, o: Attributes, b: Attributes)
    ensures a.Minus(o).Plus(b).Minus(e.Minus(o).Plus(b)) == a.Minus(e)
    ensures b == Zero ==> a.Minus(o).Minus(e.Minus(o).Plus(b)) == a.Minus(e)
  {
  }

  /** Equipping an item into an empty slot and taking it off again restores
      every modifier and the slot table exactly. */
  lemma EquipThenUnequipRestores(m: Manager, item: EquipmentItem)
    requires Equippable(m, Some(item)) && Occupant(m.table, SlotOf(item)).None?
    ensures var e := EquipItem(m, Some(item));
            var u := UnequipItem(e.0, SlotOf(item));
            && e.1.None? && u.1 == Some(item)
            && u.0.stats.value.modifiers == m.stats.value.modifiers
            && forall s :: Occupant(u.0.table, s) == Occupant(m.table, s)
  {
    EquipThenUnequipTable(m, item);
    EquipThenUnequipModifiers(m, item);
  }

  lemma EquipThenUnequipTable(m: Manager, item: EquipmentItem)
    requires Equippable(m, Some(item)) && Occupant(m.table, SlotOf(item)).None?
    ensures var e := EquipItem(m, Some(item));
            var u := UnequipItem(e.0, SlotOf(item));
            && e.1.None? && u.1 == Some(item)
            && forall s :: Occupant(u.0.table, s) == Occupant(m.table, s)
  {
    var slot := SlotOf(item);
    var e := EquipItem(m, Some(item));
    var u := UnequipItem(e.0, slot);
    assert u.0.table == m.table[slot := Some(item)][slot := None];
  }

  lemma EquipThenUnequipModifiers(m: Manager, item: EquipmentItem)
    requires Equippable(m, Some(item)) && Occupant(m.table, SlotOf(item)).None?
    ensures var e := EquipItem(m, Some(item));
            var u := UnequipItem(e.0, SlotOf(item));
            u.0.stats.Some? && u.0.stats.value.modifiers == m.stats.value.modifiers
  {
    var slot := SlotOf(item);
    var e := EquipItem(m, Some(item));
    EquipItemStats(m, Some(item));
    UnequipItemStats(e.0, slot);
    var b := BonusOf(item);
    assert m.stats.value.modifiers.Minus(Zero).Plus(b).Minus(b) == m.stats.value.modifiers;
  }


  /** Equipping into an occupied slot hands back the previous occupant, and
      the slot then holds the new item alone. */
  lemma EquipReplacesOccupant(m: Manager, item: EquipmentItem, prev: EquipmentItem)
    requires Equippable(m, Some(item)) && Occupant(m.table, SlotOf(item)) == Some(prev)
    ensures var e := EquipItem(m, Some(item));
            e.1 == Some(prev) && Occupant(e.0.table, SlotOf(item)) == Some(item)
  {
  }

  // ------------------------------------------------------------ defence cache

  /** Recomputes the defence cache when it is stale. */
  function UpdateStatsCache(m: Manager): (m': Manager)
    ensures !m'.cacheDirty
    ensures CacheFresh(m) ==> CacheFresh(m')
    ensures m' == m.(cacheDirty := false, cachePhysical := m'.cachePhysical, cacheMagical := m'.cacheMagical)
  {
    if !m.cacheDirty then m
    else
      var b := EquipmentBonus(m.table);
      m.(cachePhysical := b.physicalDefense, cacheMagical := b.magicalDefense, cacheDirty := false)
  }

  /** The physical defence summed over the worn items. */
  function GetTotalPhysicalDefense(m: Manager): (r: (Manager, int))
    ensures CacheFresh(m) ==> r.1 == EquipmentBonus(m.table).physicalDefense && CacheFresh(r.0)
    ensures r.0.table == m.table && r.0.stats == m.stats
  {
    var m' := UpdateStatsCache(m);
    (m', m'.cachePhysical)
  }

  function GetTotalMagicalDefense(m: Manager): (r: (Manager, int))
    ensures CacheFresh(m) ==> r.1 == EquipmentBonus(m.table).magicalDefense && CacheFresh(r.0)
    ensures r.0.table == m.table && r.0.stats == m.stats
  {
    var m' := UpdateStatsCache(m);
    (m', m'.cacheMagical)
  }

  /** The worn defence total is an honest sum: with a single item worn it is
      that item's defence. */
  lemma {:induction false} SingleItemDefense(m: Manager, item: EquipmentItem)
    requires CacheFresh(m) && (forall s :: Occupant(m.table, s).None?)
    ensures var e := EquipItem(m, Some(item)).0;
            Equippable(m, Some(item)) ==>
              GetTotalPhysicalDefense(e).1 == item.behaviour.equipment.physicalDefense
  {
    if Equippable(m, Some(item)) {
      var e := EquipItem(m, Some(item)).0;
      var slot := SlotOf(item);
      AllSlotsComplete();
      assert e.table == m.table[slot := Some(item)] && e.cacheDirty;
      forall x | x != slot ensures Occupant(e.table, x).None? {
        assert Occupant(e.table, x) == Occupant(m.table, x);
      }
      StatSumSingle(e.table, AllSlots, slot, item);
    }
  }

  lemma {:induction false} StatSumSingle(t: Table, order: seq<EquipmentSlot>, s: EquipmentSlot, item: EquipmentItem)
    requires Distinct(order) && s in order
    requires Occupant(t, s) == Some(item) && forall x :: x != s ==> Occupant(t, x).None?
    ensures StatSum(t, order) == StatBonusOf(item)
    decreases |order|
  {
    assert Distinct(order[1..]) by {
      forall i, j | 0 <= i < j < |order[1..]| ensures order[1..][i] != order[1..][j] {
        assert order[1..][i] == order[i + 1] && order[1..][j] == order[j + 1];
      }
    }
    if order[0] == s {
      assert s !in order[1..] by {
        forall k | 0 <= k < |order[1..]| ensures order[1..][k] != s {
          assert order[1..][k] == order[k + 1];
        }
      }
      StatSumWithout(t, order[1..], s);
    } else {
      StatSumSingle(t, order[1..], s, item);
    }
  }

  lemma {:induction false} StatSumWithout(t: Table, order: seq<EquipmentSlot>, s: EquipmentSlot)
    requires s !in order && forall x :: x != s ==> Occupant(t, x).None?
    ensures StatSum(t, order) == NoBonus
    decreases |order|
  {
    if |order| > 0 { StatSumWithout(t, order[1..], s); }
  }

  // ------------------------------------------------------------------ refresh

  /** Re-adds the bonuses of the items worn in `order`'s slots, in order. */
  function ReapplyAll(m: Manager, order: seq<EquipmentSlot>): (m': Manager)
    requires m.stats.Some?
    ensures m'.stats.Some? && m'.table == m.table
    ensures m'.stats.value.modifiers == m.stats.value.modifiers.Plus(AttrSum(m.table, order))
    ensures m'.stats.value.base == m.stats.value.base
    ensures m'.stats.value.isDead == m.stats.value.isDead
    ensures m'.stats.value.deathNotices == m.stats.value.deathNotices
    decreases |order|
  {
    if |order| == 0 then
      PlusAssoc(m.stats.value.modifiers, Zero, Zero);
      m
    else
      var o := Occupant(m.table, order[0]);
      var m1 := if o.Some? then ApplyEquipmentBonuses(m, o.value, true).0 else m;
      assert m1.stats.Some? && m1.table == m.table;
      assert m1.stats.value.modifiers == m.stats.value.modifiers.Plus(ItemBonus(o));
      PlusAssoc(m.stats.value.modifiers, ItemBonus(o), AttrSum(m.table, order[1..]));
      ReapplyAll(m1, order[1..])
  }

  lemma PlusAssoc(a: Attributes, b: Attributes, c: Attributes)
    ensures a.Plus(b).Plus(c) == a.Plus(b.Plus(c))
    ensures a.Plus(Zero) == a
  {
  }

  /** Rebuilds the modifiers from the worn items: clears every modifier, then
      adds each worn item's bonuses in slot order. Fails without stats. */
  function RefreshEquipmentBonuses(m: Manager): (r: (Manager, bool))
    ensures r.1 <==> m.stats.Some?
    ensures !r.1 ==> r.0 == m
    ensures r.1 ==> r.0.stats.Some? && r.0.stats.value.modifiers == EquipmentModifiers(m.table)
    ensures r.1 ==> r.0.table == m.table && r.0.cacheDirty
    ensures r.1 ==> r.0.stats.value.base == m.stats.value.base
  {
    if m.stats.None? then (m, false)
    else
      var s1 := ClearAllModifiers(m.stats.value, Some(EquipmentBonus(m.table)));
      var m2 := ReapplyAll(m.(stats := Some(s1)), AllSlots);
      (m2.(cacheDirty := true), true)
  }

  /** A refresh discards any modifier that did not come from equipment, such
      as a consumable's buff, while a character whose modifiers are exactly
      the worn bonuses keeps them unchanged. */
  lemma RefreshDiscardsBuffs(m: Manager, buff: Attributes)
    requires m.stats.Some? && m.stats.value.modifiers == EquipmentModifiers(m.table).Plus(buff)
    ensures var r := RefreshEquipmentBonuses(m).0;
            r.stats.value.modifiers == m.stats.value.modifiers.Minus(buff)
  {
    var r := RefreshEquipmentBonuses(m).0;
    var e := EquipmentModifiers(m.table);
    assert r.stats.value.modifiers == e;
    PlusMinusCancel(e, buff);
  }

  lemma PlusMinusCancel(e: Attributes, b: Attributes)
    ensures e.Plus(b).Minus(b) == e
  {
  }

  // -------------------------------------------------------------------- using

  /** Using equipment means equipping it. */
  function UseEquipment(m: Manager, item: EquipmentItem): (m': Manager)
    ensures Equippable(m, Some(item)) ==> Occupant(m'.table, SlotOf(item)) == Some(item)
    ensures !Equippable(m, Some(item)) ==> m' == m
  {
    EquipItem(m, Some(item)).0
  }

  /** Uses the item in inventory slot `index`, with the manager's stats
      standing for the player found by tag: nothing happens for an index out
      of range, an empty slot or missing stats. Equipment is equipped, a
      consumable is applied, any other item does nothing; then, if the slot
      still holds an item of the consumable type, one unit of it is removed.
      If equipping took the slot's last unit, the slot is empty when it is
      re-read: the original then dereferences the missing item and throws,
      after the equip has taken effect. The model ends in that state, the
      equip kept and nothing further done. */
  function UseInventoryItem(m: Manager, index: int): (m': Manager)
    requires m.inventory.Some?
    ensures m'.inventory.Some? && |m'.inventory.value| == |m.inventory.value|
    ensures (index < 0 || index >= |m.inventory.value| || m.inventory.value[index].item.None?
             || m.stats.None?) ==> m' == m
    ensures 0 <= index < |m.inventory.value| && m.stats.Some?
            && m.inventory.value[index].item.Some? && m.inventory.value[index].item.value.behaviour.Plain?
            && m.inventory.value[index].item.value.itemType != Items.Consumable
            ==> m' == m
  {
    var inv := m.inventory.value;
    if index < 0 || index >= |inv| || inv[index].item.None? || m.stats.None? then m
    else
      var it := inv[index].item.value;
      var m1 :=
        match it.behaviour
        case Plain => m
        case Gear(_) => EquipItem(m, Some(it)).0
        case Potion(c) => m.(stats := UseConsumable(m.stats, c, Some(EquipmentBonus(m.table))));
      var inv1 := m1.inventory.value;
      var slot := inv1[index];
      if slot.item.Some? && slot.item.value.itemType == Items.Consumable then
        m1.(inventory := Some(RemoveItem(inv1, slot.item, 1).0))
      else m1
  }

  /** Drinking a potion from a slot heals and then spends exactly one unit. */
  lemma {:induction false} PotionSpendsOneUnit(m: Manager, index: int)
    requires m.inventory.Some? && Valid(m.inventory.value) && m.stats.Some?
    requires 0 <= index < |m.inventory.value|
    requires var sl := m.inventory.value[index];
             sl.item.Some? && sl.item.value.behaviour.Potion? && sl.item.value.itemType == Items.Consumable
    ensures var it := m.inventory.value[index].item;
            Count(UseInventoryItem(m, index).inventory.value, it) == Count(m.inventory.value, it) - 1
  {
    var inv := m.inventory.value;
    var it := inv[index].item;
    ValidNonNegative(inv);
    CountAtLeastSlot(inv, index, it);
  }

  /** Equipping the last unit held in a slot, into a free equipment slot,
      wears the item and leaves the inventory slot empty; no other item's
      count changes. This is the state in which the original's re-read of
      the slot fails. */
  lemma EquipLastUnitEmptiesSlot(m: Manager, index: int)
    requires m.inventory.Some? && Valid(m.inventory.value)
    requires 0 <= index < |m.inventory.value|
    requires var sl := m.inventory.value[index];
             && sl.item.Some? && sl.item.value.behaviour.Gear?
             && Count(m.inventory.value, sl.item) == 1
             && Equippable(m, Some(sl.item.value))
             && Occupant(m.table, SlotOf(sl.item.value)).None?
    ensures var it := m.inventory.value[index].item.value;
            var r := UseInventoryItem(m, index);
            && r == EquipItem(m, Some(it)).0
            && r.inventory.value[index].item.None?
            && Occupant(r.table, SlotOf(it)) == Some(it)
            && Count(r.inventory.value, Some(it)) == 0
            && forall o :: o != Some(it) && o.Some? ==> Count(r.inventory.value, o) == Count(m.inventory.value, o)
  {
    var inv := m.inventory.value;
    var it: EquipmentItem := inv[index].item.value;
    ValidNonNegative(inv);
    var e := EquipItem(m, Some(it)).0;
    assert e.inventory == TakeFromInventory(m.inventory, it);
    var inv1 := RemoveItem(inv, Some(it), 1).0;
    assert e.inventory.value == inv1;
    RemoveItemNeverFills(inv, Some(it), 1);
    if inv1[index].item.Some? {
      ValidNonNegative(inv1);
      CountAtLeastSlot(inv1, index, Some(it));
      assert false;
    }
  }

  lemma {:induction false} CountAtLeastSlot(slots: seq<Slot>, i: int, it: Option<Item>)
    requires NonNegative(slots) && 0 <= i < |slots| && slots[i].item == it
    ensures Count(slots, it) >= slots[i].quantity
    decreases |slots|
  {
    if i > 0 {
      CountAtLeastSlot(slots[1..], i - 1, it);
    } else {
      CountNonNegative(slots[1..], it);
    }
  }
}

=== FILE: id_registry.dfy ===
/** The ID registry: three tables (quests, mobs, items) that map integer
    IDs from disjoint ranges to objects. Objects are identified by a
    handle. Each table remembers its IDs in registration order, which is
    the order reverse lookups enumerate them in. */
module Registry {
  import opened Util

  type Handle = nat

  /** An inclusive range of IDs. */
  datatype Range = Range(lo: int, hi: int) {
    predicate Contains(id: int) { lo <= id <= hi }
  }

  const QuestRange := Range(1, 999)
  const MobRange := Range(1000, 9999)
  const ItemRange := Range(10000, 19999)

  /** Value returned by reverse lookups and generation on failure. */
  const NoId := -1

  /** One table: the ID-to-object map, the IDs in registration order, and
      the set of used IDs kept beside the map. */
  datatype IdTable = IdTable(byId: map<int, Handle>, order: seq<int>, used: set<int>)

  const EmptyTable := IdTable(map[], [], {})

  /** The table's invariant: the used set is the map's key set, every key
      lies in the range, and the order lists each key exactly once. */
  predicate TableValid(t: IdTable, rg: Range) {
    && t.used == t.byId.Keys
    && (forall id :: id in t.byId ==> rg.Contains(id))
    && (forall i :: 0 <= i < |t.order| ==> t.order[i] in t.byId)
    && (forall id :: id in t.byId ==> id in t.order)
    && (forall i, j :: 0 <= i < j < |t.order| ==> t.order[i] != t.order[j])
  }

  lemma EmptyTableValid(rg: Range)
    ensures TableValid(EmptyTable, rg)
  {
  }

  /** Registers `obj` under `id`. Refused with no change when the ID is out
      of range or already used. */
  function Register(t: IdTable, rg: Range, obj: Handle, id: int): (r: (IdTable, bool))
    ensures r.1 <==> rg.Contains(id) && id !in t.used
    ensures !r.1 ==> r.0 == t
    ensures r.1 ==> GetById(r.0, id) == Some(obj)
    ensures r.1 ==> forall other :: other != id ==> GetById(r.0, other) == GetById(t, other)
  {
    if !rg.Contains(id) then (t, false)
    else if id in t.used then (t, false)
    else (IdTable(t.byId[id := obj], t.order + [id], t.used + {id}), true)
  }

  /** Registration keeps the table's invariant. */
  lemma RegisterKeepsValid(t: IdTable, rg: Range, obj: Handle, id: int)
    requires TableValid(t, rg)
    ensures TableValid(Register(t, rg, obj, id).0, rg)
  {
    var r := Register(t, rg, obj, id);
    if r.1 {
      var o := r.0.order;
      forall i, j | 0 <= i < j < |o| ensures o[i] != o[j] {
        if j == |o| - 1 { assert o[i] == t.order[i]; assert o[i] in t.byId; }
      }
      forall k | k in r.0.byId ensures k in o {
        if k != id { assert k in t.order; }
        else { assert o[|o| - 1] == id; }
      }
    }
  }

  /** Looks an ID up; unregistered IDs give nothing. */
  function GetById(t: IdTable, id: int): (r: Option<Handle>)
    ensures r.Some? <==> id in t.byId
    ensures r.Some? ==> t.byId[id] == r.value
  {
    if id in t.byId then Some(t.byId[id]) else None
  }

  /** The first ID, in registration order, under which `obj` is
      registered, or -1. */
  function GetId(t: IdTable, obj: Handle): (r: int)
    ensures r != NoId ==> r in t.byId && t.byId[r] == obj && r in t.order
  {
    FirstIdOf(t.byId, t.order, obj)
  }

  function FirstIdOf(byId: map<int, Handle>, order: seq<int>, obj: Handle): (r: int)
    ensures r != NoId ==> r in byId && byId[r] == obj && r in order
    ensures r == NoId && NoId !in order ==> forall i :: 0 <= i < |order| && order[i] in byId ==> byId[order[i]] != obj
    decreases |order|
  {
    if |order| == 0 then NoId
    else if order[0] in byId && byId[order[0]] == obj then order[0]
    else
      var r := FirstIdOf(byId, order[1..], obj);
      assert forall i :: 1 <= i < |order| ==> order[i] == order[1..][i - 1];
      r
  }

  /** In a valid table whose range excludes -1, the reverse lookup fails
      exactly when the object is registered under no ID. */
  lemma GetIdComplete(t: IdTable, rg: Range, obj: Handle)
    requires TableValid(t, rg) && !rg.Contains(NoId)
    ensures GetId(t, obj) == NoId <==> forall id :: id in t.byId ==> t.byId[id] != obj
  {
    if GetId(t, obj) == NoId {
      assert NoId !in t.order;
      forall id | id in t.byId ensures t.byId[id] != obj {
        assert id in t.order;
        var i :| 0 <= i < |t.order| && t.order[i] == id;
      }
    }
  }

  /** The smallest unused ID of the range, or -1 when every ID is used. The
      ID is not reserved. */
  method GenerateNew(t: IdTable, rg: Range) returns (r: int)
    requires !rg.Contains(NoId)
    ensures r == NoId ==> forall id :: rg.lo <= id <= rg.hi ==> id in t.used
    ensures r != NoId ==> rg.Contains(r) && r !in t.used
    ensures r != NoId ==> forall id :: rg.lo <= id < r ==> id in t.used
  {
    var id := rg.lo;
    while id <= rg.hi
      invariant rg.lo <= id
      invariant forall k :: rg.lo <= k < id ==> k in t.used
      decreases rg.hi - id
    {
      if id !in t.used {
        return id;
      }
      id := id + 1;
    }
    return NoId;
  }

  /** The three tables. */
  datatype Registry = Registry(quests: IdTable, mobs: IdTable, items: IdTable)

  predicate Valid(g: Registry) {
    TableValid(g.quests, QuestRange) && TableValid(g.mobs, MobRange) && TableValid(g.items, ItemRange)
  }

  function RegisterQuest(g: Registry, quest: Handle, id: int): (r: (Registry, bool))
    ensures r.1 <==> 1 <= id <= 999 && id !in g.quests.used
    ensures r.0.mobs == g.mobs && r.0.items == g.items
    ensures r.1 ==> GetById(r.0.quests, id) == Some(quest)
  {
    var (t, ok) := Register(g.quests, QuestRange, quest, id);
    (g.(quests := t), ok)
  }

  function RegisterMob(g: Registry, mob: Handle, id: int): (r: (Registry, bool))
    ensures r.1 <==> 1000 <= id <= 9999 && id !in g.mobs.used
    ensures r.0.quests == g.quests && r.0.items == g.items
    ensures r.1 ==> GetById(r.0.mobs, id) == Some(mob)
  {
    var (t, ok) := Register(g.mobs, MobRange, mob, id);
    (g.(mobs := t), ok)
  }

  function RegisterItem(g: Registry, item: Handle, id: int): (r: (Registry, bool))
    ensures r.1 <==> 10000 <= id <= 19999 && id !in g.items.used
    ensures r.0.quests == g.quests && r.0.mobs == g.mobs
    ensures r.1 ==> GetById(r.0.items, id) == Some(item)
  {
    var (t, ok) := Register(g.items, ItemRange, item, id);
    (g.(items := t), ok)
  }

  /** Every registration keeps the registry valid, and since the ranges are
      disjoint no ID is registered in two tables. */
  lemma RegistrationsKeepValid(g: Registry, h: Handle, id: int)
    requires Valid(g)
    ensures Valid(RegisterQuest(g, h, id).0)
    ensures Valid(RegisterMob(g, h, id).0)
    ensures Valid(RegisterItem(g, h, id).0)
  {
    RegisterKeepsValid(g.quests, QuestRange, h, id);
    RegisterKeepsValid(g.mobs, MobRange, h, id);
    RegisterKeepsValid(g.items, ItemRange, h, id);
  }

  /** An ID is registered in at most one table. */
  lemma TablesDisjoint(g: Registry, id: int)
    requires Valid(g)
    ensures !(id in g.quests.byId && id in g.mobs.byId)
    ensures !(id in g.quests.byId && id in g.items.byId)
    ensures !(id in g.mobs.byId && id in g.items.byId)
  {
  }
}

=== FILE: inventory.dfy ===
/** The player's fixed-size slot inventory: stacking on insertion, removal in
    slot order, counting and lookup of the first free slot. */
module Inventory {
  import opened Util
  import opened Items

  /** One inventory slot; `None` is an empty slot. */
  datatype Slot = Slot(item: Option<Item>, quantity: int)
  {
    predicate IsEmpty() { item.None? || quantity <= 0 }

    function Clear(): (s: Slot)
      ensures s.IsEmpty() && s.item.None? && s.quantity == 0
    {
      Slot(None, 0)
    }
  }

  const EmptySlot := Slot(None, 0)

  /** Inspector default of the number of slots. */
  const DefaultMaxSlots := 30

  function Min(a: int, b: int): int { if a <= b then a else b }

  /** The amount of `it` that a slot contributes to a count. */
  function Contrib(s: Slot, it: Option<Item>): int {
    if s.item == it then s.quantity else 0
  }

  /** Total quantity over the slots holding `it`; this is the item count
      query. With `None` it sums the quantities of the empty slots. */
  function Count(slots: seq<Slot>, it: Option<Item>): int
    decreases |slots|
  {
    if |slots| == 0 then 0 else Contrib(slots[0], it) + Count(slots[1..], it)
  }

  /** The item-count query as a single forward pass over the slots, adding
      the quantity of every slot that holds `item`; it agrees with `Count`. */
  method GetItemCount(slots: seq<Slot>, item: Option<Item>) returns (total: int)
    ensures total == Count(slots, item)
  {
    total := 0;
    var i := 0;
    assert slots[0..] == slots;
    while i < |slots|
      invariant 0 <= i <= |slots|
      invariant total + Count(slots[i..], item) == Count(slots, item)
    {
      assert slots[i..][1..] == slots[i + 1..];
      if slots[i].item == item {
        total := total + slots[i].quantity;
      }
      i := i + 1;
    }
  }

  /** Number of slots with no item. */
  function NullCount(slots: seq<Slot>): nat
    decreases |slots|
  {
    if |slots| == 0 then 0 else (if slots[0].item.None? then 1 else 0) + NullCount(slots[1..])
  }

  predicate NonNegative(slots: seq<Slot>) {
    forall i :: 0 <= i < |slots| ==> slots[i].quantity >= 0
  }

  /** An item that can live in the inventory: stacks hold at least one. */
  predicate ItemOk(it: Item) {
    it.stackable ==> it.maxStackSize >= 1
  }

  /** The slot invariant: a slot is empty exactly when its quantity is zero,
      a stackable item's stack is within its maximum and a non-stackable item
      sits alone. */
  predicate SlotOk(s: Slot) {
    && (s.item.None? <==> s.quantity == 0)
    && (s.item.Some? ==> ItemOk(s.item.value) && 1 <= s.quantity
                         && (if s.item.value.stackable then s.quantity <= s.item.value.maxStackSize
                             else s.quantity == 1))
  }

  predicate Valid(slots: seq<Slot>) {
    forall i :: 0 <= i < |slots| ==> SlotOk(slots[i])
  }

  /** A fresh inventory of `maxSlots` empty slots (none when not positive). */
  function InitializeInventory(maxSlots: int): (slots: seq<Slot>)
    ensures |slots| == (if maxSlots > 0 then maxSlots else 0)
    ensures forall i :: 0 <= i < |slots| ==> slots[i] == EmptySlot
    ensures Valid(slots)
    decreases if maxSlots > 0 then maxSlots else 0
  {
    if maxSlots <= 0 then [] else InitializeInventory(maxSlots - 1) + [EmptySlot]
  }

  /** The lowest index whose slot has no item, or -1. */
  function FindEmptySlot(slots: seq<Slot>): (r: int)
    ensures r == -1 <==> forall i :: 0 <= i < |slots| ==> slots[i].item.Some?
    ensures r != -1 ==> 0 <= r < |slots| && slots[r].item.None?
                        && forall i :: 0 <= i < r ==> slots[i].item.Some?
  {
    FindEmptyFrom(slots, 0)
  }

  function FindEmptyFrom(slots: seq<Slot>, i: nat): (r: int)
    requires i <= |slots|
    requires forall j :: 0 <= j < i ==> slots[j].item.Some?
    ensures r == -1 <==> forall j :: 0 <= j < |slots| ==> slots[j].item.Some?
    ensures r != -1 ==> i <= r < |slots| && slots[r].item.None?
                        && forall j :: 0 <= j < r ==> slots[j].item.Some?
    decreases |slots| - i
  {
    if i == |slots| then -1
    else if slots[i].item.None? then i
    else FindEmptyFrom(slots, i + 1)
  }

  // ---------------------------------------------------------------- counting

  lemma {:induction false} CountUpdate(slots: seq<Slot>, i: int, x: Slot, it: Option<Item>)
    requires 0 <= i < |slots|
    ensures Count(slots[i := x], it) == Count(slots, it) - Contrib(slots[i], it) + Contrib(x, it)
    decreases |slots|
  {
    if i > 0 {
      assert slots[i := x][1..] == slots[1..][i - 1 := x];
      CountUpdate(slots[1..], i - 1, x, it);
    } else {
      assert slots[i := x][1..] == slots[1..];
    }
  }

  lemma {:induction false} NullCountUpdate(slots: seq<Slot>, i: int, x: Slot)
    requires 0 <= i < |slots| && slots[i].item.None? && x.item.Some?
    ensures NullCount(slots[i := x]) == NullCount(slots) - 1
    decreases |slots|
  {
    if i > 0 {
      assert slots[i := x][1..] == slots[1..][i - 1 := x];
      NullCountUpdate(slots[1..], i - 1, x);
    } else {
      assert slots[i := x][1..] == slots[1..];
    }
  }

  lemma {:induction false} CountNonNegative(slots: seq<Slot>, it: Option<Item>)
    requires NonNegative(slots)
    ensures Count(slots, it) >= 0
    decreases |slots|
  {
    if |slots| > 0 { CountNonNegative(slots[1..], it); }
  }

  /** Splitting off the first slot of a suffix. */
  lemma CountSuffix(slots: seq<Slot>, i: int, it: Option<Item>)
    requires 0 <= i < |slots|
    ensures Count(slots[i..], it) == Contrib(slots[i], it) + Count(slots[i + 1..], it)
  {
    assert slots[i..][1..] == slots[i + 1..];
  }

  lemma {:induction false} ValidNonNegative(slots: seq<Slot>)
    requires Valid(slots)
    ensures NonNegative(slots)
  {
  }

  // --------------------------------------------------------------- insertion

  /** First pass of insertion for a stackable item: from slot `i` on, tops up
      every stack of `it` below its maximum, stopping as soon as nothing is
      left to add. Returns the slots and the quantity still to place. */
  function TopUp(slots: seq<Slot>, it: Item, q: int, i: nat): (r: (seq<Slot>, int))
    requires i <= |slots| && q > 0
    ensures |r.0| == |slots|
    ensures Count(r.0, Some(it)) + r.1 == Count(slots, Some(it)) + q
    ensures forall o :: o != Some(it) ==> Count(r.0, o) == Count(slots, o)
    ensures 0 <= r.1 <= q
    ensures forall j :: 0 <= j < i ==> r.0[j] == slots[j]
    ensures forall j :: 0 <= j < |slots| && (slots[j].item != Some(it) || slots[j].quantity >= it.maxStackSize) ==>
              r.0[j] == slots[j]
    ensures forall j :: 0 <= j < |slots| && slots[j].item == Some(it) ==>
              r.0[j].item == Some(it) && r.0[j].quantity >= slots[j].quantity
              && (slots[j].quantity < it.maxStackSize ==> r.0[j].quantity <= it.maxStackSize)
    ensures r.1 > 0 ==> forall j :: i <= j < |slots| && slots[j].item == Some(it) ==>
              r.0[j].quantity >= it.maxStackSize
    decreases |slots| - i
  {
    if i == |slots| then (slots, q)
    else if slots[i].item == Some(it) && slots[i].quantity < it.maxStackSize then
      var add := Min(q, it.maxStackSize - slots[i].quantity);
      var x := Slot(Some(it), slots[i].quantity + add);
      var next := slots[i := x];
      CountUpdateAll(slots, i, x, it);
      if q - add <= 0 then (next, q - add)
      else TopUp(next, it, q - add, i + 1)
    else TopUp(slots, it, q, i + 1)
  }

  /** Effect of rewriting a slot whose old and new item are `it` or absent,
      on every count but that of `it`. */
  lemma CountUpdateAll(slots: seq<Slot>, i: int, x: Slot, it: Item)
    requires 0 <= i < |slots|
    requires slots[i].item == Some(it) || slots[i].item.None?
    requires x.item == Some(it)
    ensures Count(slots[i := x], Some(it)) == Count(slots, Some(it)) - Contrib(slots[i], Some(it)) + x.quantity
    ensures forall o :: o != Some(it) && o.Some? ==> Count(slots[i := x], o) == Count(slots, o)
    ensures slots[i].item == Some(it) ==> forall o :: o != Some(it) ==> Count(slots[i := x], o) == Count(slots, o)
  {
    CountUpdate(slots, i, x, Some(it));
    forall o | o != Some(it) && o.Some?
      ensures Count(slots[i := x], o) == Count(slots, o)
    {
      CountUpdate(slots, i, x, o);
    }
    if slots[i].item == Some(it) {
      forall o | o != Some(it)
        ensures Count(slots[i := x], o) == Count(slots, o)
      {
        CountUpdate(slots, i, x, o);
      }
    }
  }

  /** Second pass of insertion: while something is left, puts a new stack
      into the first slot with no item. Each step fills a free slot, so the
      number of free slots bounds the passes. Returns the slots and the
      quantity still to place, which is positive only when no free slot is
      left. */
  function Fill(slots: seq<Slot>, it: Item, q: int): (r: (seq<Slot>, int))
    ensures |r.0| == |slots|
    ensures Count(r.0, Some(it)) + r.1 == Count(slots, Some(it)) + q
    ensures forall o :: o != Some(it) && o.Some? ==> Count(r.0, o) == Count(slots, o)
    ensures q >= 0 ==> 0 <= r.1
    ensures q >= 0 && ItemOk(it) ==> r.1 <= q
    ensures r.1 > 0 ==> FindEmptySlot(r.0) == -1
    ensures q <= 0 ==> r == (slots, q)
    ensures forall j :: 0 <= j < |slots| && slots[j].item.Some? ==> r.0[j] == slots[j]
    ensures forall j :: 0 <= j < |slots| && r.0[j] != slots[j] ==>
              slots[j].item.None? && r.0[j].item == Some(it)
              && (if it.stackable then r.0[j].quantity == Min(r.0[j].quantity, it.maxStackSize) else r.0[j].quantity == 1)
              && (q > 0 && (it.stackable ==> it.maxStackSize >= 1) ==> r.0[j].quantity >= 1)
    decreases NullCount(slots)
  {
    if q <= 0 then (slots, q)
    else
      var idx := FindEmptySlot(slots);
      if idx == -1 then (slots, q)
      else
        var add := if it.stackable then Min(q, it.maxStackSize) else 1;
        var x := Slot(Some(it), add);
        NullCountUpdate(slots, idx, x);
        CountUpdateAll(slots, idx, x, it);
        Fill(slots[idx := x], it, q - add)
  }

  /** Adds `q` units of `item`. A missing item or a non-positive quantity is
      refused with no change. A stackable item first tops up its existing
      stacks in slot order; whatever remains opens new stacks of at most the
      maximum (one unit each for a non-stackable item). When no free slot is
      left the result is false, but what was already placed stays placed. */
  function AddItem(slots: seq<Slot>, item: Option<Item>, q: int): (r: (seq<Slot>, bool))
    ensures |r.0| == |slots|
    ensures item.None? || q <= 0 ==> r == (slots, false)
    ensures item.Some? && r.1 ==> Count(r.0, item) == Count(slots, item) + q
    ensures item.Some? && q > 0 && !r.1 ==> FindEmptySlot(r.0) == -1
    ensures item.Some? && q > 0 && !r.1 && ItemOk(item.value) ==>
              Count(slots, item) <= Count(r.0, item) < Count(slots, item) + q
    ensures forall o :: o != item && o.Some? ==> Count(r.0, o) == Count(slots, o)
  {
    if item.None? || q <= 0 then (slots, false)
    else
      var it := item.value;
      var t := if it.stackable then TopUp(slots, it, q, 0) else (slots, q);
      if t.1 <= 0 then (t.0, true)
      else
        var f := Fill(t.0, it, t.1);
        (f.0, f.1 <= 0)
  }

  /** Insertion keeps the slot invariant for an item whose stacks hold at
      least one unit. */
  lemma AddItemKeepsValid(slots: seq<Slot>, item: Item, q: int)
    requires Valid(slots) && ItemOk(item)
    ensures Valid(AddItem(slots, Some(item), q).0)
  {
    if q > 0 {
      var t := if item.stackable then TopUp(slots, item, q, 0) else (slots, q);
      assert Valid(t.0) by {
        forall j | 0 <= j < |slots| ensures SlotOk(t.0[j]) {
          if slots[j].item == Some(item) && item.stackable {
            assert slots[j].quantity <= item.maxStackSize;
          }
        }
      }
      if t.1 > 0 {
        var f := Fill(t.0, item, t.1);
        forall j | 0 <= j < |slots| ensures SlotOk(f.0[j]) {
          if f.0[j] != t.0[j] {
            assert f.0[j].quantity >= 1;
          }
        }
      }
    }
  }

  /** A stackable item opens a new stack only after every existing stack of
      it has been filled to the maximum. */
  lemma StacksFilledBeforeNewSlots(slots: seq<Slot>, item: Item, q: int, j: int, k: int)
    requires item.stackable && 0 <= j < |slots| && 0 <= k < |slots|
    requires slots[j].item.None? && AddItem(slots, Some(item), q).0[j].item == Some(item)
    requires slots[k].item == Some(item)
    ensures AddItem(slots, Some(item), q).0[k].quantity >= item.maxStackSize
  {
  }

  // ----------------------------------------------------------------- removal

  /** Removes up to `rem` units of `it`, scanning from slot `i` in order;
      a slot left with no units is cleared. Returns the slots and the amount
      that could not be removed. */
  function RemoveFrom(slots: seq<Slot>, it: Item, rem: int, i: nat): (r: (seq<Slot>, int))
    requires i <= |slots|
    ensures |r.0| == |slots|
    ensures forall j :: 0 <= j < i ==> r.0[j] == slots[j]
    ensures forall j :: 0 <= j < |slots| && slots[j].item != Some(it) ==> r.0[j] == slots[j]
    ensures NonNegative(slots) ==> NonNegative(r.0)
    ensures NonNegative(slots) && rem >= 0 ==>
              rem - r.1 == Min(rem, Count(slots[i..], Some(it)))
              && Count(r.0, Some(it)) == Count(slots, Some(it)) - (rem - r.1)
    ensures NonNegative(slots) ==> forall o :: o != Some(it) && o.Some? ==> Count(r.0, o) == Count(slots, o)
    ensures Valid(slots) ==> Valid(r.0)
    decreases |slots| - i
  {
    if i == |slots| || rem <= 0 then
      SuffixCountNonNegative(slots, i, Some(it));
      (slots, rem)
    else if slots[i].item == Some(it) then
      var take := Min(rem, slots[i].quantity);
      var left := slots[i].quantity - take;
      var x := if left <= 0 then EmptySlot else Slot(Some(it), left);
      var next := slots[i := x];
      var r := RemoveFrom(next, it, rem - take, i + 1);
      RemoveStep(slots, i, it, rem, x, r);
      r
    else
      var r := RemoveFrom(slots, it, rem, i + 1);
      CountSuffix(slots, i, Some(it));
      r
  }

  lemma SuffixCountNonNegative(slots: seq<Slot>, i: int, it: Option<Item>)
    requires 0 <= i <= |slots|
    ensures NonNegative(slots) ==> Count(slots[i..], it) >= 0
  {
    if NonNegative(slots) { CountNonNegative(slots[i..], it); }
  }

  /** The bookkeeping of one removal step that takes units from slot `i`. */
  lemma RemoveStep(slots: seq<Slot>, i: int, it: Item, rem: int, x: Slot, r: (seq<Slot>, int))
    requires 0 <= i < |slots| && slots[i].item == Some(it) && rem > 0
    requires var left := slots[i].quantity - Min(rem, slots[i].quantity);
             x == if left <= 0 then EmptySlot else Slot(Some(it), left)
    requires var next := slots[i := x];
             var rem' := rem - Min(rem, slots[i].quantity);
             && |r.0| == |next|
             && (NonNegative(next) && rem' >= 0 ==>
                   rem' - r.1 == Min(rem', Count(next[i + 1..], Some(it)))
                   && Count(r.0, Some(it)) == Count(next, Some(it)) - (rem' - r.1))
             && (NonNegative(next) ==> forall o :: o != Some(it) && o.Some? ==> Count(r.0, o) == Count(next, o))
    ensures NonNegative(slots) ==>
              rem - r.1 == Min(rem, Count(slots[i..], Some(it)))
              && Count(r.0, Some(it)) == Count(slots, Some(it)) - (rem - r.1)
    ensures NonNegative(slots) ==> forall o :: o != Some(it) && o.Some? ==> Count(r.0, o) == Count(slots, o)
  {
    var next := slots[i := x];
    if NonNegative(slots) {
      assert NonNegative(next);
      CountUpdate(slots, i, x, Some(it));
      forall o | o != Some(it) && o.Some? ensures Count(next, o) == Count(slots, o) {
        CountUpdate(slots, i, x, o);
      }
      CountSuffix(slots, i, Some(it));
      assert next[i + 1..] == slots[i + 1..];
      CountNonNegative(slots[i + 1..], Some(it));
    }
  }

  /** Removes up to `q` units of `item` in slot order. A missing item or a
      non-positive quantity is refused with no change; otherwise the result
      says whether at least one unit was removed. */
  function RemoveItem(slots: seq<Slot>, item: Option<Item>, q: int): (r: (seq<Slot>, bool))
    ensures |r.0| == |slots|
    ensures item.None? || q <= 0 ==> r == (slots, false)
    ensures item.Some? && q > 0 && NonNegative(slots) ==>
              && Count(r.0, item) == Count(slots, item) - Min(q, Count(slots, item))
              && (r.1 <==> Count(slots, item) >= 1)
    ensures item.Some? && q > 0 && Valid(slots) && !r.1 ==> r.0 == slots
    ensures NonNegative(slots) ==> forall o :: o != item && o.Some? ==> Count(r.0, o) == Count(slots, o)
    ensures Valid(slots) ==> Valid(r.0)
  {
    if item.None? || q <= 0 then (slots, false)
    else
      var r := RemoveFrom(slots, item.value, q, 0);
      assert slots[0..] == slots;
      RemoveNothing(slots, item.value, q, r);
      (r.0, r.1 < q)
  }

  lemma RemoveNothing(slots: seq<Slot>, it: Item, q: int, r: (seq<Slot>, int))
    requires q > 0 && r == RemoveFrom(slots, it, q, 0)
    ensures Valid(slots) && r.1 >= q ==> r.0 == slots
  {
    if Valid(slots) && r.1 >= q {
      assert slots[0..] == slots;
      assert Count(slots, Some(it)) <= 0;
      forall j | 0 <= j < |slots| ensures r.0[j] == slots[j] {
        if slots[j].item == Some(it) {
          ZeroCountMeansZeroSlots(slots, it, j);
        }
      }
    }
  }

  lemma {:induction false} ZeroCountMeansZeroSlots(slots: seq<Slot>, it: Item, j: int)
    requires NonNegative(slots) && Count(slots, Some(it)) <= 0
    requires 0 <= j < |slots| && slots[j].item == Some(it)
    ensures slots[j].quantity == 0
    decreases |slots|
  {
    CountNonNegative(slots[1..], Some(it));
    if j > 0 { ZeroCountMeansZeroSlots(slots[1..], it, j - 1); }
  }

  /** A removal scan only lowers or clears the slots it visits: every slot
      keeps its item or ends empty. */
  lemma {:induction false} RemoveFromNeverFills(slots: seq<Slot>, it: Item, rem: int, i: nat)
    requires i <= |slots|
    ensures var r := RemoveFrom(slots, it, rem, i);
            forall j :: 0 <= j < |slots| ==> r.0[j].item == slots[j].item || r.0[j].item.None?
    decreases |slots| - i
  {
    if i == |slots| || rem <= 0 {
    } else if slots[i].item == Some(it) {
      var take := Min(rem, slots[i].quantity);
      var left := slots[i].quantity - take;
      var x := if left <= 0 then EmptySlot else Slot(Some(it), left);
      var next := slots[i := x];
      RemoveFromNeverFills(next, it, rem - take, i + 1);
    } else {
      RemoveFromNeverFills(slots, it, rem, i + 1);
    }
  }

  /** Removing items never puts an item into a slot: each slot afterwards
      holds what it held before or nothing. */
  lemma RemoveItemNeverFills(slots: seq<Slot>, item: Option<Item>, q: int)
    ensures var r := RemoveItem(slots, item, q);
            forall j :: 0 <= j < |slots| ==> r.0[j].item == slots[j].item || r.0[j].item.None?
  {
    if item.Some? && q > 0 {
      RemoveFromNeverFills(slots, item.value, q, 0);
    }
  }

  // ------------------------------------------------------------------ lookup

  /** Scans from slot `i` with running total `total`, answering true at the
      first matching slot where the total reaches `q`. */
  function HasFrom(slots: seq<Slot>, it: Option<Item>, q: int, i: nat, total: int): bool
    requires i <= |slots|
    decreases |slots| - i
  {
    if i == |slots| then false
    else if slots[i].item == it then
      if total + slots[i].quantity >= q then true
      else HasFrom(slots, it, q, i + 1, total + slots[i].quantity)
    else HasFrom(slots, it, q, i + 1, total)
  }

  /** Whether at least `q` units of `it` are held, stopping at the first
      slot where the running total reaches `q`. With `None` it looks at the
      empty slots. */
  function HasItem(slots: seq<Slot>, it: Option<Item>, q: int): (r: bool)
    ensures r ==> exists i :: 0 <= i < |slots| && slots[i].item == it
  {
    HasFromWitness(slots, it, q, 0, 0);
    HasFrom(slots, it, q, 0, 0)
  }

  lemma {:induction false} HasFromWitness(slots: seq<Slot>, it: Option<Item>, q: int, i: nat, total: int)
    requires i <= |slots|
    ensures HasFrom(slots, it, q, i, total) ==> exists j :: i <= j < |slots| && slots[j].item == it
    decreases |slots| - i
  {
    if i < |slots| {
      if slots[i].item == it {
        if total + slots[i].quantity < q { HasFromWitness(slots, it, q, i + 1, total + slots[i].quantity); }
      } else {
        HasFromWitness(slots, it, q, i + 1, total);
      }
    }
  }

  lemma {:induction false} HasFromMeansCount(slots: seq<Slot>, it: Option<Item>, q: int, i: nat, total: int)
    requires i <= |slots| && NonNegative(slots) && total < q
    ensures HasFrom(slots, it, q, i, total) <==> total + Count(slots[i..], it) >= q
    decreases |slots| - i
  {
    if i < |slots| {
      CountSuffix(slots, i, it);
      CountNonNegative(slots[i + 1..], it);
      if slots[i].item == it {
        if total + slots[i].quantity < q {
          HasFromMeansCount(slots, it, q, i + 1, total + slots[i].quantity);
        }
      } else {
        HasFromMeansCount(slots, it, q, i + 1, total);
      }
    }
  }

  /** For a positive quantity, the early-exit scan agrees with the count. */
  lemma HasItemIffCount(slots: seq<Slot>, it: Option<Item>, q: int)
    requires NonNegative(slots) && q >= 1
    ensures HasItem(slots, it, q) <==> Count(slots, it) >= q
  {
    assert slots[0..] == slots;
    HasFromMeansCount(slots, it, q, 0, 0);
  }

  /** For a non-positive quantity the scan is not a count comparison: it
      answers whether any slot holds the item at all. */
  lemma HasItemZeroQuantity(slots: seq<Slot>, it: Item)
    requires NonNegative(slots)
    ensures HasItem(slots, Some(it), 0) <==> exists i :: 0 <= i < |slots| && slots[i].item == Some(it)
  {
    if exists i :: 0 <= i < |slots| && slots[i].item == Some(it) {
      var i :| 0 <= i < |slots| && slots[i].item == Some(it);
      HasFromFound(slots, Some(it), 0, 0, 0, i);
    }
  }

  lemma {:induction false} HasFromFound(slots: seq<Slot>, it: Option<Item>, q: int, i: nat, total: int, k: int)
    requires i <= k < |slots| && slots[k].item == it && NonNegative(slots) && total >= q
    ensures HasFrom(slots, it, q, i, total)
    decreases |slots| - i
  {
    if slots[i].item != it { HasFromFound(slots, it, q, i + 1, total, k); }
  }

  /** Adding then removing the same quantity of an item returns its count to
      what it was. */
  lemma AddThenRemoveRestoresCount(slots: seq<Slot>, item: Item, q: int)
    requires Valid(slots) && ItemOk(item) && q > 0
    requires AddItem(slots, Some(item), q).1
    ensures var a := AddItem(slots, Some(item), q).0;
            Count(RemoveItem(a, Some(item), q).0, Some(item)) == Count(slots, Some(item))
  {
    var a := AddItem(slots, Some(item), q).0;
    AddItemKeepsValid(slots, item, q);
    ValidNonNegative(a);
    ValidNonNegative(slots);
    CountNonNegative(slots, Some(item));
  }
}

=== FILE: items.dfy ===
/** Item definitions: the fields of a generic item that the inventory needs,
    and the extra data carried by equipment and consumables. An item asset is
    identified by its `handle`, standing in for object identity. */
module Items {
  import opened Stats

  datatype ItemType = Weapon | Armor | Consumable | Miscellaneous | QuestItem

  datatype EquipmentType = WeaponGear | ArmorGear | Accessory

  /** The twelve equipment slots, in declaration order. */
  datatype EquipmentSlot =
    | MainHand | OffHand
    | Helmet | Chest | Legs | Boots | Gloves
    | Ring1 | Ring2 | Necklace | Earring1 | Earring2

  /** Every slot once, in declaration order (the order of enumeration). */
  const AllSlots: seq<EquipmentSlot> :=
    [MainHand, OffHand, Helmet, Chest, Legs, Boots, Gloves,
     Ring1, Ring2, Necklace, Earring1, Earring2]

  /** Integer data of an equipment asset. */
  datatype EquipmentData = EquipmentData(
    equipmentType: EquipmentType,
    slot: EquipmentSlot,
    bonus: Attributes,          // strength, dexterity, intelligence, vitality bonuses
    healthBonus: int,
    manaBonus: int,
    physicalDefense: int,
    magicalDefense: int,
    requiredLevel: int,
    requiredStrength: int,
    requiredDexterity: int,
    requiredIntelligence: int)

  /** Integer data of a consumable asset; the duration is in whole seconds. */
  datatype ConsumableData = ConsumableData(
    healthRestore: int,
    manaRestore: int,
    bonus: Attributes,
    effectDuration: int)

  /** What "using" an item does depends on its class. */
  datatype Behaviour = Plain | Gear(equipment: EquipmentData) | Potion(consumable: ConsumableData)

  datatype Item = Item(
    handle: nat,
    itemType: ItemType,
    stackable: bool,
    maxStackSize: int,
    behaviour: Behaviour)
  {
    predicate IsEquipment() { behaviour.Gear? }
  }

  /** An item of the equipment class. */
  type EquipmentItem = i: Item | i.IsEquipment()
    witness Item(0, Weapon, false, 1, Gear(EquipmentData(WeaponGear, MainHand, Zero, 0, 0, 0, 0, 1, 0, 0, 0)))

  function SlotOf(i: EquipmentItem): EquipmentSlot {
    i.behaviour.equipment.slot
  }

  function BonusOf(i: EquipmentItem): Attributes {
    i.behaviour.equipment.bonus
  }

  /** The bonus totals an equipped item contributes to derived stats. */
  function StatBonusOf(i: EquipmentItem): EquipBonus {
    var d := i.behaviour.equipment;
    EquipBonus(d.healthBonus, d.manaBonus, d.physicalDefense, d.magicalDefense)
  }

  /** The position of a slot in the enumeration. */
  function SlotIndex(s: EquipmentSlot): (i: nat)
    ensures i < |AllSlots| && AllSlots[i] == s
  {
    match s
    case MainHand => 0  case OffHand => 1
    case Helmet => 2    case Chest => 3     case Legs => 4  case Boots => 5  case Gloves => 6
    case Ring1 => 7     case Ring2 => 8     case Necklace => 9
    case Earring1 => 10 case Earring2 => 11
  }

  /** The slot enumeration lists each of the twelve slots exactly once. */
  lemma AllSlotsComplete()
    ensures |AllSlots| == 12
    ensures forall s: EquipmentSlot :: s in AllSlots
    ensures forall i, j :: 0 <= i < j < |AllSlots| ==> AllSlots[i] != AllSlots[j]
  {
    forall s: EquipmentSlot ensures s in AllSlots {
      var _ := SlotIndex(s);
    }
  }
}

=== FILE: level_system.dfy ===
/** Experience and levels: the level-up loop that may cross several levels in
    one grant, the rewards of each level, setting the level directly, and the
    start-up validation. The experience curve is kept abstract: the threshold
    for reaching a level is a fixed function of that level. */
module Progression {
  import opened Util
  import opened Stats

  /** The experience needed to reach each level. `base` is the configured
      base amount, returned for levels up to 1; `scaled` stands for the
      rounded power formula used above level 1 (including whatever the
      memo table first recorded for a level, which is what later lookups
      return). */
  datatype Curve = Curve(base: int, scaled: int -> int)

  /** The level component. `multiplierMilli` is the growth multiplier in
      thousandths; `stats` is the sibling stats component, if any. */
  datatype LevelSystem = LevelSystem(
    level: int,
    currentExp: int,
    multiplierMilli: int,
    pointsPerLevel: int,
    stats: Option<CharacterStats>)

  const MinLevel := 1
  const MinExp := 0
  /** The multiplier that replaces one not above 1.0, in thousandths. */
  const FallbackMultiplierMilli := 1100

  /** Experience needed to reach `target`. */
  function ExpForLevel(c: Curve, target: int): int {
    if target <= 1 then c.base else c.scaled(target)
  }

  /** Experience needed to leave `level`: the amount for the level above it.
      From level 1 on this is the scaled amount, never the base amount. */
  function ExpToNextLevel(c: Curve, level: int): (e: int)
    ensures level >= MinLevel ==> e == c.scaled(level + 1)
    ensures level < MinLevel ==> e == c.base
  {
    ExpForLevel(c, level + 1)
  }

  /** Every threshold is positive, so the level-up loop terminates. */
  ghost predicate PositiveCurve(c: Curve) {
    c.base > 0 && forall n :: c.scaled(n) > 0
  }

  /** Total experience consumed by climbing from `from` to `to`. */
  function SumThresholds(c: Curve, from: int, to: int): int
    decreases to - from
  {
    if from >= to then 0 else ExpToNextLevel(c, from) + SumThresholds(c, from + 1, to)
  }

  /** Reference definition of the level-up loop: while the experience covers
      the current threshold, pay it and go up one level. The result is the
      final level and experience. */
  function Settle(c: Curve, level: int, exp: int): (r: (int, int))
    requires PositiveCurve(c)
    ensures r.0 >= level
    ensures r.1 < ExpToNextLevel(c, r.0)
    ensures exp == r.1 + SumThresholds(c, level, r.0)
    ensures exp >= 0 ==> r.1 >= 0
    ensures exp < ExpToNextLevel(c, level) ==> r == (level, exp)
    decreases exp
  {
    var t := ExpToNextLevel(c, level);
    if exp >= t then Settle(c, level + 1, exp - t) else (level, exp)
  }

  /** The rewards of one level: attribute points, then health and mana
      restored to their maxima. Nothing happens without stats. */
  function ApplyLevelUpRewards(stats: Option<CharacterStats>, pointsPerLevel: int): (r: Option<CharacterStats>)
    ensures r.Some? <==> stats.Some?
    ensures stats.Some? ==>
              var s := stats.value; var s' := r.value;
              && s'.attributePoints == s.attributePoints + (if pointsPerLevel > 0 then pointsPerLevel else 0)
              && s'.currentHealth == s'.maxHealth && s'.currentMana == s'.maxMana
              && s' == s.(attributePoints := s'.attributePoints, currentHealth := s'.currentHealth,
                          currentMana := s'.currentMana)
  {
    if stats.None? then None
    else Some(RestoreFullMana(RestoreFullHealth(AddAttributePoints(stats.value, pointsPerLevel))))
  }

  /** The rewards of `n` consecutive levels. */
  function Rewards(stats: Option<CharacterStats>, pointsPerLevel: int, n: int): Option<CharacterStats>
    decreases n
  {
    if n <= 0 then stats else ApplyLevelUpRewards(Rewards(stats, pointsPerLevel, n - 1), pointsPerLevel)
  }

  function Max0(x: int): int { if x > 0 then x else 0 }

  /** `n` levels grant `n` times the (non-negative part of the) per-level
      points, leave health and mana full, and touch nothing else. */
  lemma {:induction false} RewardsEffect(stats: Option<CharacterStats>, pointsPerLevel: int, n: nat)
    ensures var r := Rewards(stats, pointsPerLevel, n);
            && (r.Some? <==> stats.Some?)
            && (stats.Some? ==>
                  && r.value.attributePoints == stats.value.attributePoints + n * Max0(pointsPerLevel)
                  && (n > 0 ==> r.value.currentHealth == r.value.maxHealth && r.value.currentMana == r.value.maxMana)
                  && r.value == stats.value.(attributePoints := r.value.attributePoints,
                                             currentHealth := r.value.currentHealth,
                                             currentMana := r.value.currentMana))
  {
    if n > 0 {
      RewardsEffect(stats, pointsPerLevel, n - 1);
      assert (n - 1) * Max0(pointsPerLevel) + Max0(pointsPerLevel) == n * Max0(pointsPerLevel);
    }
  }

  /** Adds experience and levels up as often as it covers the threshold,
      granting the rewards of every level crossed. A non-positive amount is
      refused and changes nothing. */
  method AddExperience(p: LevelSystem, c: Curve, amount: int) returns (q: LevelSystem, ok: bool)
    requires PositiveCurve(c)
    ensures ok <==> amount > 0
    ensures !ok ==> q == p
    ensures ok ==> (q.level, q.currentExp) == Settle(c, p.level, p.currentExp + amount)
    ensures ok ==> q.stats == Rewards(p.stats, p.pointsPerLevel, q.level - p.level)
    ensures ok ==> && q.level >= p.level
                   && q.currentExp < ExpToNextLevel(c, q.level)
                   && p.currentExp + amount == q.currentExp + SumThresholds(c, p.level, q.level)
                   && (p.currentExp >= 0 ==> q.currentExp >= 0)
    ensures ok && p.stats.Some? ==>
              q.stats.Some? && q.stats.value.attributePoints
                               == p.stats.value.attributePoints + (q.level - p.level) * Max0(p.pointsPerLevel)
    ensures q.multiplierMilli == p.multiplierMilli && q.pointsPerLevel == p.pointsPerLevel
  {
    if amount <= 0 {
      return p, false;
    }
    var level, exp, stats := p.level, p.currentExp + amount, p.stats;
    var t := ExpToNextLevel(c, level);
    while exp >= t
      invariant level >= p.level
      invariant t == ExpToNextLevel(c, level)
      invariant Settle(c, level, exp) == Settle(c, p.level, p.currentExp + amount)
      invariant stats == Rewards(p.stats, p.pointsPerLevel, level - p.level)
      decreases exp
    {
      exp := exp - t;
      level := level + 1;
      stats := ApplyLevelUpRewards(stats, p.pointsPerLevel);
      t := ExpToNextLevel(c, level);
    }
    RewardsEffect(p.stats, p.pointsPerLevel, level - p.level);
    q := p.(level := level, currentExp := exp, stats := stats);
    ok := true;
  }

  /** More experience never ends at a lower level. */
  lemma {:induction false} MoreExperienceNeverLowersLevel(c: Curve, level: int, e1: int, e2: int)
    requires PositiveCurve(c) && e1 <= e2
    ensures Settle(c, level, e1).0 <= Settle(c, level, e2).0
    decreases e1
  {
    var t := ExpToNextLevel(c, level);
    if e1 >= t {
      MoreExperienceNeverLowersLevel(c, level + 1, e1 - t, e2 - t);
    }
  }

  /** Sets the level directly. A non-positive or unchanged level is refused.
      Raising grants the points of every level gained at once and restores
      health and mana; lowering grants nothing. Either way the experience
      goes to zero. */
  function SetLevel(p: LevelSystem, newLevel: int): (r: (LevelSystem, bool))
    ensures r.1 <==> newLevel > 0 && newLevel != p.level
    ensures !r.1 ==> r.0 == p
    ensures r.1 ==> r.0 == p.(level := newLevel, currentExp := 0, stats := r.0.stats)
    ensures r.1 && newLevel < p.level ==> r.0.stats == p.stats
  {
    if newLevel <= 0 then (p, false)
    else
      var diff := newLevel - p.level;
      if diff > 0 then
        var stats :=
          if p.stats.None? then None
          else Some(RestoreFullMana(RestoreFullHealth(AddAttributePoints(p.stats.value, p.pointsPerLevel * diff))));
        (p.(level := newLevel, currentExp := 0, stats := stats), true)
      else if diff < 0 then
        (p.(level := newLevel, currentExp := 0), true)
      else (p, false)
  }

  /** Raising the level directly grants the same points, and leaves the same
      vitals, as gaining those levels one by one. */
  lemma SetLevelGrantsLikeLevelUps(p: LevelSystem, newLevel: int)
    requires 0 < newLevel && p.level < newLevel
    ensures SetLevel(p, newLevel).0.stats == Rewards(p.stats, p.pointsPerLevel, newLevel - p.level)
  {
    var n := newLevel - p.level;
    RewardsEffect(p.stats, p.pointsPerLevel, n);
    if p.stats.Some? && p.pointsPerLevel > 0 {
      MulPositive(p.pointsPerLevel, n);
      assert p.pointsPerLevel * n == n * Max0(p.pointsPerLevel);
    }
    if p.stats.Some? && p.pointsPerLevel <= 0 {
      assert p.pointsPerLevel * n <= 0 by { MulMonotone(p.pointsPerLevel, 0, n); }
    }
  }

  /** Start-up clean-up: a level below 1 becomes 1, negative experience
      becomes 0, and a multiplier not above 1.0 (1000 thousandths) becomes
      1.1. */
  function ValidateInitialValues(p: LevelSystem): (q: LevelSystem)
    ensures q.level >= MinLevel && q.currentExp >= MinExp && q.multiplierMilli > 1000
    ensures p.level >= MinLevel ==> q.level == p.level
    ensures p.currentExp >= MinExp ==> q.currentExp == p.currentExp
    ensures p.multiplierMilli > 1000 ==> q.multiplierMilli == p.multiplierMilli
    ensures q.pointsPerLevel == p.pointsPerLevel && q.stats == p.stats
  {
    p.(level := if p.level < MinLevel then MinLevel else p.level,
       currentExp := if p.currentExp < MinExp then MinExp else p.currentExp,
       multiplierMilli := if p.multiplierMilli <= 1000 then FallbackMultiplierMilli else p.multiplierMilli)
  }

  /** Validating twice is the same as validating once. */
  lemma ValidateIdempotent(p: LevelSystem)
    ensures ValidateInitialValues(ValidateInitialValues(p)) == ValidateInitialValues(p)
  {
  }
}

=== FILE: quest.dfy ===
/** Quest templates: identity, requirements, type, time limit, rewards and
    the references of their objectives; completion and reset over the
    shared objective heap. */
module Quests {
  import opened Objectives

  datatype QuestType = Main | Side | Daily | Repeatable | Event

  /** A template. `prerequisites` holds the IDs of the quests that must be
      completed first; `timeLimit` is in the timer's unit, and 0 or less
      means no limit. */
  datatype Quest = Quest(
    questId: int,
    requiredLevel: int,
    prerequisites: seq<int>,
    questType: QuestType,
    timeLimit: int,
    objectives: seq<ObjRef>,
    experienceReward: int,
    goldReward: int)

  /** Whether the type allows accepting again after completion. */
  predicate IsRepeatableType(t: QuestType) {
    t == Repeatable || t == Daily
  }

  /** Whether the timer watches the quest. */
  predicate HasTimeLimit(q: Quest) {
    q.timeLimit > 0
  }

  /** Every reference in `refs` denotes an objective of the heap. */
  predicate Closed(heap: Heap, refs: seq<ObjRef>) {
    forall i :: 0 <= i < |refs| ==> refs[i] in heap
  }

  /** Whether every referenced objective is complete, checked in order and
      stopping at the first incomplete one. Vacuously true without
      objectives. */
  function AllObjectivesComplete(heap: Heap, refs: seq<ObjRef>): (b: bool)
    requires Closed(heap, refs)
    ensures b <==> forall i :: 0 <= i < |refs| ==> IsCompleted(heap[refs[i]])
    ensures |refs| == 0 ==> b
    decreases |refs|
  {
    if |refs| == 0 then true
    else if !IsCompleted(heap[refs[0]]) then false
    else
      assert Closed(heap, refs[1..]);
      var rest := AllObjectivesComplete(heap, refs[1..]);
      assert forall i :: 1 <= i < |refs| ==> refs[i] == refs[1..][i - 1];
      rest
  }

  /** The template is complete when all its objectives are. */
  function IsQuestCompleted(heap: Heap, q: Quest): (b: bool)
    requires Closed(heap, q.objectives)
    ensures b <==> forall i :: 0 <= i < |q.objectives| ==> IsCompleted(heap[q.objectives[i]])
  {
    AllObjectivesComplete(heap, q.objectives)
  }

  /** Resets every referenced objective; the others are untouched. */
  function ResetAll(heap: Heap, refs: seq<ObjRef>): (r: Heap)
    requires Closed(heap, refs)
    ensures r.Keys == heap.Keys
    ensures forall x :: x in heap && x in refs ==> r[x] == ResetProgress(heap[x])
    ensures forall x :: x in heap && x !in refs ==> r[x] == heap[x]
    decreases |refs|
  {
    if |refs| == 0 then heap
    else
      var h1 := heap[refs[0] := ResetProgress(heap[refs[0]])];
      assert Closed(h1, refs[1..]);
      var r := ResetAll(h1, refs[1..]);
      assert forall x :: x in refs <==> x == refs[0] || x in refs[1..];
      r
  }

  /** Resetting the objectives of a template. */
  function ResetQuestProgress(heap: Heap, q: Quest): (r: Heap)
    requires Closed(heap, q.objectives)
    ensures r.Keys == heap.Keys && Closed(r, q.objectives)
    ensures forall i :: 0 <= i < |q.objectives| ==>
              r[q.objectives[i]].currentAmount == 0 && !r[q.objectives[i]].completed
  {
    ResetAll(heap, q.objectives)
  }

  /** After a reset, a template whose objectives all need something is not
      complete, unless it has no objectives. */
  lemma ResetUncompletes(heap: Heap, q: Quest)
    requires Closed(heap, q.objectives) && |q.objectives| > 0
    requires forall i :: 0 <= i < |q.objectives| ==> heap[q.objectives[i]].requiredAmount > 0
    ensures !IsQuestCompleted(ResetQuestProgress(heap, q), q)
  {
    var r := ResetQuestProgress(heap, q);
    var x := q.objectives[0];
    assert r[x] == ResetProgress(heap[x]);
  }
}

=== FILE: quest_manager.dfy ===
/** The quest ledger: the active and completed quest records, accepting
    with its ordered rejection rules, completing, abandoning and failing,
    and the fan-out of game events to the objectives of every active quest.
    A record shares its objectives with its template. */
module QuestLedger {
  import opened Util
  import opened Objectives
  import opened Quests

  /** An accepted quest: its template, the template's objective references
      (shared, not copied) and the acceptance time. */
  datatype QuestData = QuestData(quest: Quest, objectives: seq<ObjRef>, acceptedTime: int)

  /** `playerLevel` is the player's level when a level component exists. */
  datatype Ledger = Ledger(
    maxActiveQuests: int,
    active: seq<QuestData>,
    completed: seq<QuestData>,
    heap: Heap,
    playerLevel: Option<int>)

  const DefaultMaxActiveQuests := 10

  /** The identifiers the event handlers use for every enemy and every
      item: fixed placeholders. */
  const StubEnemyId := 1000
  const StubItemId := 10000

  /** A record made on acceptance refers to the template's own objectives. */
  function NewQuestData(q: Quest, now: int): (d: QuestData)
    ensures d.quest == q && d.objectives == q.objectives && d.acceptedTime == now
  {
    QuestData(q, q.objectives, now)
  }

  function IdOf(d: QuestData): int { d.quest.questId }

  /** The first record with the given quest ID. */
  function Find(records: seq<QuestData>, id: int): (r: Option<nat>)
    ensures r.Some? ==> r.value < |records| && IdOf(records[r.value]) == id
                        && forall j :: 0 <= j < r.value ==> IdOf(records[j]) != id
    ensures r.None? <==> forall j :: 0 <= j < |records| ==> IdOf(records[j]) != id
    decreases |records|
  {
    if |records| == 0 then None
    else if IdOf(records[0]) == id then Some(0)
    else
      var r := Find(records[1..], id);
      assert forall j :: 1 <= j < |records| ==> records[j] == records[1..][j - 1];
      if r.Some? then Some(r.value + 1) else None
  }

  predicate IsQuestActive(l: Ledger, id: int)
    ensures IsQuestActive(l, id) <==> exists i :: 0 <= i < |l.active| && IdOf(l.active[i]) == id
  {
    Find(l.active, id).Some?
  }

  predicate IsQuestCompleted(l: Ledger, id: int) { Find(l.completed, id).Some? }

  /** The first prerequisite not in the completed list. */
  function FirstMissing(l: Ledger, prerequisites: seq<int>): (r: Option<int>)
    ensures r.Some? <==> exists i :: 0 <= i < |prerequisites| && !IsQuestCompleted(l, prerequisites[i])
    ensures r.Some? ==> r.value in prerequisites && !IsQuestCompleted(l, r.value)
    decreases |prerequisites|
  {
    if |prerequisites| == 0 then None
    else if !IsQuestCompleted(l, prerequisites[0]) then Some(prerequisites[0])
    else
      var r := FirstMissing(l, prerequisites[1..]);
      assert forall i :: 1 <= i < |prerequisites| ==> prerequisites[i] == prerequisites[1..][i - 1];
      r
  }

  /** Why an acceptance was refused, or that it succeeded. */
  datatype AcceptOutcome =
    | Accepted
    | LimitReached
    | AlreadyActive
    | AlreadyCompleted
    | PrerequisiteMissing(missing: int)
    | LevelTooLow

  /** Accepting a quest, refused for the first applicable reason in this
      order: too many active quests, the quest already active, the quest
      completed and not repeatable, a prerequisite not completed, the
      player's level below the requirement (only when there is a level).
      On success the new record is appended to the active list. */
  function AcceptQuest(l: Ledger, q: Quest, now: int): (r: (Ledger, AcceptOutcome))
    ensures r.1 != Accepted ==> r.0 == l
    ensures r.1 == Accepted ==> r.0 == l.(active := l.active + [NewQuestData(q, now)])
    ensures r.1 == LimitReached <==> |l.active| >= l.maxActiveQuests
    ensures r.1 == AlreadyActive <==> |l.active| < l.maxActiveQuests && IsQuestActive(l, q.questId)
    ensures r.1 == AlreadyCompleted <==>
              |l.active| < l.maxActiveQuests && !IsQuestActive(l, q.questId)
              && IsQuestCompleted(l, q.questId) && !IsRepeatableType(q.questType)
    ensures r.1.PrerequisiteMissing? <==>
              |l.active| < l.maxActiveQuests && !IsQuestActive(l, q.questId)
              && !(IsQuestCompleted(l, q.questId) && !IsRepeatableType(q.questType))
              && FirstMissing(l, q.prerequisites).Some?
    ensures r.1.PrerequisiteMissing? ==> r.1.missing in q.prerequisites && !IsQuestCompleted(l, r.1.missing)
    ensures r.1 == LevelTooLow <==>
              |l.active| < l.maxActiveQuests && !IsQuestActive(l, q.questId)
              && !(IsQuestCompleted(l, q.questId) && !IsRepeatableType(q.questType))
              && FirstMissing(l, q.prerequisites).None?
              && l.playerLevel.Some? && l.playerLevel.value < q.requiredLevel
    ensures r.1 == Accepted <==> CanAccept(l, q)
  {
    if |l.active| >= l.maxActiveQuests then (l, LimitReached)
    else if IsQuestActive(l, q.questId) then (l, AlreadyActive)
    else if IsQuestCompleted(l, q.questId) && !IsRepeatableType(q.questType) then (l, AlreadyCompleted)
    else
      var missing := FirstMissing(l, q.prerequisites);
      if missing.Some? then (l, PrerequisiteMissing(missing.value))
      else if l.playerLevel.Some? && l.playerLevel.value < q.requiredLevel then (l, LevelTooLow)
      else (l.(active := l.active + [NewQuestData(q, now)]), Accepted)
  }

  /** When a quest can be accepted, stated over the lists directly: room
      left, no active record with its ID, not completed unless repeatable,
      every prerequisite completed, and a level high enough if known. */
  predicate CanAccept(l: Ledger, q: Quest) {
    && |l.active| < l.maxActiveQuests
    && (forall i :: 0 <= i < |l.active| ==> IdOf(l.active[i]) != q.questId)
    && (IsRepeatableType(q.questType) || forall i :: 0 <= i < |l.completed| ==> IdOf(l.completed[i]) != q.questId)
    && (forall p :: p in q.prerequisites ==> exists i :: 0 <= i < |l.completed| && IdOf(l.completed[i]) == p)
    && (l.playerLevel.Some? ==> l.playerLevel.value >= q.requiredLevel)
  }

  /** The sequence without its element at `i`. */
  function RemoveAt<T>(s: seq<T>, i: nat): (r: seq<T>)
    requires i < |s|
    ensures |r| == |s| - 1
    ensures forall j :: 0 <= j < i ==> r[j] == s[j]
    ensures forall j :: i <= j < |r| ==> r[j] == s[j + 1]
  {
    s[..i] + s[i + 1..]
  }

  /** Every referenced objective of every active record is in the heap. */
  predicate ActiveClosed(l: Ledger) {
    forall i :: 0 <= i < |l.active| ==> Closed(l.heap, l.active[i].objectives)
  }

  /** Hands in an active quest whose objectives are all complete: its
      record moves from the active list to the end of the completed list.
      Refused with no change otherwise. Rewards are only announced. */
  function CompleteQuest(l: Ledger, id: int): (r: (Ledger, bool))
    requires ActiveClosed(l)
    ensures r.1 <==> Find(l.active, id).Some? && AllObjectivesComplete(l.heap, l.active[Find(l.active, id).value].objectives)
    ensures !r.1 ==> r.0 == l
    ensures r.1 ==> var i := Find(l.active, id).value;
                    r.0 == l.(active := RemoveAt(l.active, i), completed := l.completed + [l.active[i]])
  {
    var found := Find(l.active, id);
    if found.None? then (l, false)
    else
      var d := l.active[found.value];
      if !AllObjectivesComplete(l.heap, d.objectives) then (l, false)
      else (l.(active := RemoveAt(l.active, found.value), completed := l.completed + [d]), true)
  }

  /** Removes the first active record with the ID; refused when there is
      none. The completed list and the objectives are untouched. */
  function DropActive(l: Ledger, id: int): (r: (Ledger, bool))
    ensures r.1 <==> IsQuestActive(l, id)
    ensures !r.1 ==> r.0 == l
    ensures r.1 ==> r.0 == l.(active := RemoveAt(l.active, Find(l.active, id).value))
  {
    var found := Find(l.active, id);
    if found.None? then (l, false) else (l.(active := RemoveAt(l.active, found.value)), true)
  }

  /** Gives up an active quest. It differs from `FailQuest` only in the
      event it raises, so both are `DropActive`. */
  function AbandonQuest(l: Ledger, id: int): (Ledger, bool) {
    DropActive(l, id)
  }

  /** Fails an active quest: removed from the active list, no rewards. */
  function FailQuest(l: Ledger, id: int): (Ledger, bool) {
    DropActive(l, id)
  }

  // --------------------------------------------------------- ledger invariant

  /** No two active records share a quest ID. */
  predicate ActiveUnique(active: seq<QuestData>) {
    forall i, j :: 0 <= i < j < |active| ==> IdOf(active[i]) != IdOf(active[j])
  }

  /** The ledger's invariant: unique active IDs and the active count within
      the limit (an empty list is always allowed). */
  predicate Valid(l: Ledger) {
    ActiveUnique(l.active) && (|l.active| <= l.maxActiveQuests || |l.active| == 0)
  }

  /** A fresh ledger. */
  function NewLedger(maxActiveQuests: int, heap: Heap, playerLevel: Option<int>): (l: Ledger)
    ensures Valid(l) && l.active == [] && l.completed == []
  {
    Ledger(maxActiveQuests, [], [], heap, playerLevel)
  }

  lemma RemoveAtKeepsUnique(active: seq<QuestData>, i: nat)
    requires i < |active| && ActiveUnique(active)
    ensures ActiveUnique(RemoveAt(active, i))
  {
    var r := RemoveAt(active, i);
    forall a, b | 0 <= a < b < |r| ensures IdOf(r[a]) != IdOf(r[b]) {
      var a' := if a < i then a else a + 1;
      var b' := if b < i then b else b + 1;
      assert r[a] == active[a'] && r[b] == active[b'];
    }
  }

  /** Accepting keeps the active IDs unique and the count within the limit. */
  lemma AcceptKeepsValid(l: Ledger, q: Quest, now: int)
    requires Valid(l)
    ensures Valid(AcceptQuest(l, q, now).0)
  {
    var r := AcceptQuest(l, q, now);
    if r.1 == Accepted {
      var a := r.0.active;
      forall i, j | 0 <= i < j < |a| ensures IdOf(a[i]) != IdOf(a[j]) {
        if j == |a| - 1 {
          assert a[i] == l.active[i];
        } else {
          assert a[i] == l.active[i] && a[j] == l.active[j];
        }
      }
    }
  }

  /** Completing, abandoning and failing keep the invariant. */
  lemma RemovalsKeepValid(l: Ledger, id: int)
    requires Valid(l) && ActiveClosed(l)
    ensures Valid(CompleteQuest(l, id).0)
    ensures Valid(AbandonQuest(l, id).0)
    ensures Valid(FailQuest(l, id).0)
  {
    var found := Find(l.active, id);
    if found.Some? {
      RemoveAtKeepsUnique(l.active, found.value);
    }
  }

  /** With unique IDs the record removed is the only one with that ID, so
      afterwards the quest is no longer active. */
  lemma DropRemovesQuest(l: Ledger, id: int)
    requires ActiveUnique(l.active)
    ensures !IsQuestActive(DropActive(l, id).0, id)
  {
    var found := Find(l.active, id);
    if found.Some? {
      var i := found.value;
      var r := RemoveAt(l.active, i);
      forall j | 0 <= j < |r| ensures IdOf(r[j]) != id {
        if j >= i { assert r[j] == l.active[j + 1]; }
      }
    }
  }

  /** A completed quest moves to the completed list, so a non-repeatable
      one can never be accepted again. */
  lemma CompletedNotReaccepted(l: Ledger, id: int, q: Quest, now: int)
    requires ActiveClosed(l) && CompleteQuest(l, id).1
    requires q.questId == id && !IsRepeatableType(q.questType)
    ensures AcceptQuest(CompleteQuest(l, id).0, q, now).1 != Accepted
  {
    var l2 := CompleteQuest(l, id).0;
    assert IdOf(l2.completed[|l2.completed| - 1]) == id;
  }

  // ------------------------------------------------------------- events

  /** A game event an objective may count. */
  datatype Signal =
    | EnemyKilled(enemyId: int)
    | ItemCollected(itemId: int)
    | TalkedTo(npcId: int)
    | AreaExplored(areaName: string)

  /** An objective counts an event of its own kind with its own identifier. */
  predicate Matches(k: ObjectiveKind, s: Signal) {
    match s
    case EnemyKilled(e) => k.Kill? && k.enemyId == e
    case ItemCollected(i) => k.Collect? && k.itemId == i
    case TalkedTo(n) => k.Talk? && k.npcId == n
    case AreaExplored(a) => k.Explore? && k.areaName == a
  }

  /** Advances the referenced objective; nothing else about the ledger
      changes, and the quest is never completed by it. */
  function UpdateObjective(l: Ledger, x: ObjRef, amount: int): (r: Ledger)
    requires x in l.heap
    ensures r.active == l.active && r.completed == l.completed && r.heap.Keys == l.heap.Keys
    ensures r.heap[x].currentAmount == l.heap[x].currentAmount + amount
    ensures forall y :: y in l.heap && y != x ==> r.heap[y] == l.heap[y]
  {
    l.(heap := l.heap[x := UpdateProgress(l.heap[x], amount)])
  }

  /** The inner loop: every matching objective among `refs`, in order. */
  function UpdateRefs(heap: Heap, refs: seq<ObjRef>, s: Signal, amount: int): (r: Heap)
    requires Closed(heap, refs)
    ensures r.Keys == heap.Keys
    decreases |refs|
  {
    if |refs| == 0 then heap
    else
      var x := refs[0];
      var h1 := if Matches(heap[x].kind, s) then heap[x := UpdateProgress(heap[x], amount)] else heap;
      assert Closed(h1, refs[1..]);
      UpdateRefs(h1, refs[1..], s, amount)
  }

  predicate AllClosed(heap: Heap, active: seq<QuestData>) {
    forall i :: 0 <= i < |active| ==> Closed(heap, active[i].objectives)
  }

  /** The outer loop: every active record, in order. */
  function UpdateQuests(heap: Heap, active: seq<QuestData>, s: Signal, amount: int): (r: Heap)
    requires AllClosed(heap, active)
    ensures r.Keys == heap.Keys
    decreases |active|
  {
    if |active| == 0 then heap
    else
      var h1 := UpdateRefs(heap, active[0].objectives, s, amount);
      assert AllClosed(h1, active[1..]) by {
        forall i | 0 <= i < |active[1..]| ensures Closed(h1, active[1..][i].objectives) {
          assert active[1..][i] == active[i + 1];
        }
      }
      UpdateQuests(h1, active[1..], s, amount)
  }

  /** Delivers an event to every objective of every active quest. */
  function Dispatch(l: Ledger, s: Signal, amount: int): (r: Ledger)
    requires ActiveClosed(l)
    ensures r.active == l.active && r.completed == l.completed && r.heap.Keys == l.heap.Keys
  {
    l.(heap := UpdateQuests(l.heap, l.active, s, amount))
  }

  /** An enemy died: kill objectives for the placeholder enemy ID advance
      by one. */
  function OnEnemyKilled(l: Ledger): (r: Ledger)
    requires ActiveClosed(l)
    ensures r.active == l.active && r.completed == l.completed
  {
    Dispatch(l, EnemyKilled(StubEnemyId), 1)
  }

  /** Items were picked up: collect objectives for the placeholder item ID
      advance by the quantity. */
  function OnItemCollected(l: Ledger, quantity: int): (r: Ledger)
    requires ActiveClosed(l)
    ensures r.active == l.active && r.completed == l.completed
  {
    Dispatch(l, ItemCollected(StubItemId), quantity)
  }

  function OnTalkToNpc(l: Ledger, npcId: int): (r: Ledger)
    requires ActiveClosed(l)
    ensures r.active == l.active && r.completed == l.completed
  {
    Dispatch(l, TalkedTo(npcId), 1)
  }

  function OnAreaExplored(l: Ledger, areaName: string): (r: Ledger)
    requires ActiveClosed(l)
    ensures r.active == l.active && r.completed == l.completed
  {
    Dispatch(l, AreaExplored(areaName), 1)
  }

  // ------------------------------------------------- effect of a dispatch

  /** Occurrences of `x` in `refs`. */
  function Count(refs: seq<ObjRef>, x: ObjRef): nat
    decreases |refs|
  {
    if |refs| == 0 then 0 else (if refs[0] == x then 1 else 0) + Count(refs[1..], x)
  }

  /** Occurrences of `x` across the objectives of all records. */
  function CountAll(active: seq<QuestData>, x: ObjRef): nat
    decreases |active|
  {
    if |active| == 0 then 0 else Count(active[0].objectives, x) + CountAll(active[1..], x)
  }

  /** How objective `x` changed from `h0` to `h1` when it received the
      event `n` times: same kind and requirement, the amount added `n`
      times if it matches (and nothing changed if not), the flag never
      cleared, and for non-negative amounts the flag set exactly when the
      new count reaches the requirement or it was set before. */
  predicate Advanced(h0: Heap, h1: Heap, x: ObjRef, s: Signal, amount: int, n: nat)
    requires x in h0 && x in h1
  {
    var a := h0[x]; var b := h1[x];
    && b.kind == a.kind && b.requiredAmount == a.requiredAmount
    && (a.completed ==> b.completed)
    && (!Matches(a.kind, s) || n == 0 ==> b == a)
    && (Matches(a.kind, s) ==> b.currentAmount == a.currentAmount + amount * n)
    && (Matches(a.kind, s) && n > 0 && amount >= 0 ==>
          (b.completed <==> a.completed || b.currentAmount >= b.requiredAmount))
  }

  lemma AdvancedCompose(h0: Heap, h1: Heap, h2: Heap, x: ObjRef, s: Signal, amount: int, n1: nat, n2: nat)
    requires x in h0 && x in h1 && x in h2
    requires Advanced(h0, h1, x, s, amount, n1) && Advanced(h1, h2, x, s, amount, n2)
    ensures Advanced(h0, h2, x, s, amount, n1 + n2)
  {
    assert amount * (n1 + n2) == amount * n1 + amount * n2;
    if Matches(h0[x].kind, s) && n1 > 0 && n2 > 0 && amount >= 0 {
      assert amount * n2 >= 0;
    }
  }

  /** The inner loop advances each objective once per occurrence in `refs`. */
  lemma {:induction false} UpdateRefsEffect(heap: Heap, refs: seq<ObjRef>, s: Signal, amount: int, x: ObjRef)
    requires Closed(heap, refs) && x in heap
    ensures Advanced(heap, UpdateRefs(heap, refs, s, amount), x, s, amount, Count(refs, x))
    decreases |refs|
  {
    if |refs| > 0 {
      var y := refs[0];
      var h1 := if Matches(heap[y].kind, s) then heap[y := UpdateProgress(heap[y], amount)] else heap;
      assert Closed(h1, refs[1..]);
      var n1 := if y == x then 1 else 0;
      assert Advanced(heap, h1, x, s, amount, n1);
      UpdateRefsEffect(h1, refs[1..], s, amount, x);
      AdvancedCompose(heap, h1, UpdateRefs(h1, refs[1..], s, amount), x, s, amount, n1, Count(refs[1..], x));
    }
  }

  /** The outer loop advances each objective once per occurrence across all
      active records. */
  lemma {:induction false} UpdateQuestsEffect(heap: Heap, active: seq<QuestData>, s: Signal, amount: int, x: ObjRef)
    requires AllClosed(heap, active) && x in heap
    ensures Advanced(heap, UpdateQuests(heap, active, s, amount), x, s, amount, CountAll(active, x))
    decreases |active|
  {
    if |active| > 0 {
      var h1 := UpdateRefs(heap, active[0].objectives, s, amount);
      UpdateRefsEffect(heap, active[0].objectives, s, amount, x);
      assert AllClosed(h1, active[1..]) by {
        forall i | 0 <= i < |active[1..]| ensures Closed(h1, active[1..][i].objectives) {
          assert active[1..][i] == active[i + 1];
        }
      }
      UpdateQuestsEffect(h1, active[1..], s, amount, x);
      AdvancedCompose(heap, h1, UpdateQuests(h1, active[1..], s, amount), x, s, amount,
                      Count(active[0].objectives, x), CountAll(active[1..], x));
    }
  }

  /** A dispatch advances every matching objective by the amount times the
      number of active references to it, leaves the others alone, never
      clears a completion flag and never moves a quest between lists. */
  lemma DispatchEffect(l: Ledger, s: Signal, amount: int, x: ObjRef)
    requires ActiveClosed(l) && x in l.heap
    ensures Advanced(l.heap, Dispatch(l, s, amount).heap, x, s, amount, CountAll(l.active, x))
  {
    UpdateQuestsEffect(l.heap, l.active, s, amount, x);
  }

  /** Because a record shares its template's objectives, a quest handed
      in and then accepted again (as a repeatable one may be) starts out
      already complete. */
  lemma ReacceptedQuestStartsComplete(l: Ledger, id: int, q: Quest, now: int)
    requires ActiveClosed(l) && CompleteQuest(l, id).1
    requires q.objectives == l.active[Find(l.active, id).value].objectives
    requires AcceptQuest(CompleteQuest(l, id).0, q, now).1 == Accepted
    ensures var l3 := AcceptQuest(CompleteQuest(l, id).0, q, now).0;
            |l3.active| > 0 && Closed(l3.heap, l3.active[|l3.active| - 1].objectives)
            && AllObjectivesComplete(l3.heap, l3.active[|l3.active| - 1].objectives)
  {
  }
}

=== FILE: quest_objective.dfy ===
/** Quest objectives: a counter towards a required amount with a one-shot
    completion flag. Objectives are shared objects (a quest template and
    every record accepted from it refer to the same ones), so they live in
    a heap indexed by reference. */
module Objectives {

  /** What an objective counts. */
  datatype ObjectiveKind =
    | Kill(enemyId: int)
    | Collect(itemId: int)
    | Talk(npcId: int)
    | Explore(areaName: string)

  /** `completionNotices` counts the completion notifications raised. */
  datatype Objective = Objective(
    kind: ObjectiveKind,
    currentAmount: int,
    requiredAmount: int,
    completed: bool,
    completionNotices: nat)

  type ObjRef = nat
  type Heap = map<ObjRef, Objective>

  /** The required amount of a new objective of any kind. */
  const DefaultRequired := 1

  /** A freshly made objective: no progress, one unit required. */
  function NewObjective(kind: ObjectiveKind): (o: Objective)
    ensures o.kind == kind && o.requiredAmount == DefaultRequired
    ensures !IsCompleted(o) && o.completionNotices == 0
  {
    Objective(kind, 0, DefaultRequired, false, 0)
  }

  /** Done when flagged, or when the count has reached the requirement. */
  predicate IsCompleted(o: Objective)
    ensures Coherent(o) ==> (IsCompleted(o) <==> o.completed)
  {
    o.completed || o.currentAmount >= o.requiredAmount
  }

  /** The flag agrees with the count: reaching the requirement has set it. */
  predicate Coherent(o: Objective) {
    o.currentAmount >= o.requiredAmount ==> o.completed
  }

  /** Adds `amount` (which may be negative; nothing is clamped). The first
      time the count reaches the requirement the flag is set and the
      completion notified; the flag is never cleared here. */
  function UpdateProgress(o: Objective, amount: int): (r: Objective)
    ensures r.currentAmount == o.currentAmount + amount
    ensures r.kind == o.kind && r.requiredAmount == o.requiredAmount
    ensures r.completed <==> o.completed || r.currentAmount >= r.requiredAmount
    ensures r.completionNotices == o.completionNotices + (if r.completed && !o.completed then 1 else 0)
  {
    var o1 := o.(currentAmount := o.currentAmount + amount);
    if o1.currentAmount >= o1.requiredAmount && !o1.completed then
      o1.(completed := true, completionNotices := o1.completionNotices + 1)
    else o1
  }

  /** Back to no progress and not completed. */
  function ResetProgress(o: Objective): (r: Objective)
    ensures r.currentAmount == 0 && !r.completed
    ensures r.kind == o.kind && r.requiredAmount == o.requiredAmount && r.completionNotices == o.completionNotices
    ensures r.requiredAmount > 0 ==> !IsCompleted(r)
  {
    o.(currentAmount := 0, completed := false)
  }

  /** Progress never un-completes a coherent objective: the flag is kept,
      so completion is monotone whatever the sign of the amount. */
  lemma UpdateKeepsCompletion(o: Objective, amount: int)
    requires Coherent(o)
    ensures Coherent(UpdateProgress(o, amount))
    ensures IsCompleted(o) ==> IsCompleted(UpdateProgress(o, amount))
  {
  }

  /** Without coherence, completion is not monotone: a reset objective that
      needs nothing counts as complete, and a negative amount un-completes
      it. */
  lemma CompletionNotMonotoneWhenIncoherent()
    ensures var o := ResetProgress(Objective(Talk(7), 3, 0, true, 1));
            IsCompleted(o) && !IsCompleted(UpdateProgress(o, -1))
  {
  }

  /** Non-negative progress never un-completes any objective. */
  lemma NonNegativeProgressMonotone(o: Objective, amount: int)
    requires amount >= 0
    ensures IsCompleted(o) ==> IsCompleted(UpdateProgress(o, amount))
  {
  }

  /** Applies a sequence of progress amounts in order. */
  function UpdateAll(o: Objective, amounts: seq<int>): Objective
    decreases |amounts|
  {
    if |amounts| == 0 then o else UpdateAll(UpdateProgress(o, amounts[0]), amounts[1..])
  }

  /** Over any sequence of updates the completion notice fires at most once
      after the last reset, and the flag, once set, stays set. */
  lemma {:induction false} CompletionNoticedOnce(o: Objective, amounts: seq<int>)
    ensures var r := UpdateAll(o, amounts);
            && (o.completed ==> r.completed && r.completionNotices == o.completionNotices)
            && r.completionNotices <= o.completionNotices + 1
            && (r.completionNotices == o.completionNotices + 1 <==> r.completed && !o.completed)
    decreases |amounts|
  {
    if |amounts| > 0 {
      CompletionNoticedOnce(UpdateProgress(o, amounts[0]), amounts[1..]);
    }
  }
}

=== FILE: quest_timer.dfy ===
/** The quest timer: on each periodic check, the active quests whose time
    limit has run out are collected from a snapshot of the active list and
    then failed one by one. The current time is a parameter, in the unit
    of the time limits. */
module QuestTimer {
  import opened Util
  import opened Objectives
  import opened Quests
  import opened QuestLedger

  /** A record has expired when its quest has a limit and at least that much
      time has passed since acceptance. */
  predicate Expired(d: QuestData, now: int) {
    HasTimeLimit(d.quest) && now - d.acceptedTime >= d.quest.timeLimit
  }

  /** Once a record has expired it stays expired as time goes on. */
  lemma ExpiryPersists(d: QuestData, t1: int, t2: int)
    requires t1 <= t2
    ensures Expired(d, t1) ==> Expired(d, t2)
  {
  }

  /** The IDs of the expired records, in list order. */
  function ExpiredIds(active: seq<QuestData>, now: int): (ids: seq<int>)
    ensures forall id :: id in ids <==> exists i :: 0 <= i < |active| && IdOf(active[i]) == id && Expired(active[i], now)
    decreases |active|
  {
    if |active| == 0 then []
    else
      var rest := ExpiredIds(active[1..], now);
      assert forall i :: 1 <= i < |active| ==> active[i] == active[1..][i - 1];
      if Expired(active[0], now) then [IdOf(active[0])] + rest else rest
  }

  /** Fails the quests with the given IDs, in order. */
  function FailAll(l: Ledger, ids: seq<int>): (r: Ledger)
    ensures r.completed == l.completed && r.heap == l.heap
    ensures r.maxActiveQuests == l.maxActiveQuests && r.playerLevel == l.playerLevel
    decreases |ids|
  {
    if |ids| == 0 then l else FailAll(FailQuest(l, ids[0]).0, ids[1..])
  }

  /** One check of the timer. Expired quests are failed, never completed. */
  function CheckExpiredQuests(l: Ledger, now: int): (r: Ledger)
    ensures r.completed == l.completed && r.heap == l.heap
    ensures |r.active| <= |l.active|
  {
    FailAllShrinks(l, ExpiredIds(l.active, now));
    FailAll(l, ExpiredIds(l.active, now))
  }

  lemma {:induction false} FailAllShrinks(l: Ledger, ids: seq<int>)
    ensures |FailAll(l, ids).active| <= |l.active|
    decreases |ids|
  {
    if |ids| > 0 {
      FailAllShrinks(FailQuest(l, ids[0]).0, ids[1..]);
    }
  }

  // ------------------------------------------------- what a check removes

  /** The records whose ID is not in `ids`, in order. */
  function KeepNotIn(active: seq<QuestData>, ids: set<int>): seq<QuestData>
    decreases |active|
  {
    if |active| == 0 then []
    else if IdOf(active[0]) in ids then KeepNotIn(active[1..], ids)
    else [active[0]] + KeepNotIn(active[1..], ids)
  }

  /** The records that have not expired, in order. */
  function KeepUnexpired(active: seq<QuestData>, now: int): seq<QuestData>
    decreases |active|
  {
    if |active| == 0 then []
    else if Expired(active[0], now) then KeepUnexpired(active[1..], now)
    else [active[0]] + KeepUnexpired(active[1..], now)
  }

  lemma {:induction false} KeepNotInMembers(active: seq<QuestData>, ids: set<int>)
    ensures forall d :: d in KeepNotIn(active, ids) <==> d in active && IdOf(d) !in ids
    decreases |active|
  {
    if |active| > 0 {
      KeepNotInMembers(active[1..], ids);
      assert forall d :: d in active <==> d == active[0] || d in active[1..];
    }
  }

  /** The tail of a list with unique IDs has unique IDs, none of them the
      head's. */
  lemma TailUnique(active: seq<QuestData>)
    requires |active| > 0 && ActiveUnique(active)
    ensures ActiveUnique(active[1..])
    ensures forall j :: 0 <= j < |active[1..]| ==> IdOf(active[1..][j]) != IdOf(active[0])
  {
    forall i, j | 0 <= i < j < |active[1..]| ensures IdOf(active[1..][i]) != IdOf(active[1..][j]) {
      assert active[1..][i] == active[i + 1] && active[1..][j] == active[j + 1];
    }
    forall j | 0 <= j < |active[1..]| ensures IdOf(active[1..][j]) != IdOf(active[0]) {
      assert active[1..][j] == active[j + 1];
    }
  }

  /** Removing the first record with an ID from a list with unique IDs
      removes every record with that ID. */
  lemma {:induction false} RemoveFirstIsFilter(active: seq<QuestData>, id: int)
    requires ActiveUnique(active)
    ensures Find(active, id).Some? ==> RemoveAt(active, Find(active, id).value) == KeepNotIn(active, {id})
    ensures Find(active, id).None? ==> active == KeepNotIn(active, {id})
    decreases |active|
  {
    if |active| > 0 {
      TailUnique(active);
      RemoveFirstIsFilter(active[1..], id);
      if IdOf(active[0]) == id {
        RemoveHead(active, id);
      } else {
        RemoveLater(active, id);
      }
    }
  }

  /** The step of `RemoveFirstIsFilter` when the head carries the ID. */
  lemma RemoveHead(active: seq<QuestData>, id: int)
    requires |active| > 0 && IdOf(active[0]) == id
    requires Find(active[1..], id).None? && active[1..] == KeepNotIn(active[1..], {id})
    ensures Find(active, id) == Some(0) && RemoveAt(active, 0) == KeepNotIn(active, {id})
  {
    assert RemoveAt(active, 0) == active[1..];
  }

  /** Removing past the head keeps the head. */
  lemma RemoveAtCons<T>(s: seq<T>, i: nat)
    requires i + 1 < |s|
    ensures RemoveAt(s, i + 1) == [s[0]] + RemoveAt(s[1..], i)
  {
    assert s[..i + 1] == [s[0]] + s[1..][..i];
    assert s[i + 2..] == s[1..][i + 1..];
  }

  /** The step of `RemoveFirstIsFilter` when the head carries another ID. */
  lemma RemoveLater(active: seq<QuestData>, id: int)
    requires |active| > 0 && IdOf(active[0]) != id
    requires var f1 := Find(active[1..], id);
             && (f1.Some? ==> RemoveAt(active[1..], f1.value) == KeepNotIn(active[1..], {id}))
             && (f1.None? ==> active[1..] == KeepNotIn(active[1..], {id}))
    ensures Find(active, id).Some? ==> RemoveAt(active, Find(active, id).value) == KeepNotIn(active, {id})
    ensures Find(active, id).None? ==> active == KeepNotIn(active, {id})
  {
    if Find(active[1..], id).Some? {
      RemoveLaterFound(active, id, Find(active[1..], id).value);
    } else {
      assert Find(active, id).None?;
      assert active == [active[0]] + active[1..];
    }
  }

  lemma RemoveLaterFound(active: seq<QuestData>, id: int, i: nat)
    requires |active| > 0 && IdOf(active[0]) != id
    requires Find(active[1..], id) == Some(i)
    requires RemoveAt(active[1..], i) == KeepNotIn(active[1..], {id})
    ensures Find(active, id) == Some(i + 1)
    ensures RemoveAt(active, i + 1) == KeepNotIn(active, {id})
  {
    RemoveAtCons(active, i);
  }

  lemma {:induction false} KeepNotInTwice(active: seq<QuestData>, a: set<int>, b: set<int>)
    ensures KeepNotIn(KeepNotIn(active, a), b) == KeepNotIn(active, a + b)
    decreases |active|
  {
    if |active| > 0 {
      KeepNotInTwice(active[1..], a, b);
      if IdOf(active[0]) !in a {
        var k := KeepNotIn(active, a);
        assert k[0] == active[0] && k[1..] == KeepNotIn(active[1..], a);
      }
    }
  }

  lemma {:induction false} KeepNotInUnique(active: seq<QuestData>, ids: set<int>)
    requires ActiveUnique(active)
    ensures ActiveUnique(KeepNotIn(active, ids))
    decreases |active|
  {
    if |active| > 0 {
      TailUnique(active);
      KeepNotInUnique(active[1..], ids);
      KeepNotInMembers(active[1..], ids);
      var k := KeepNotIn(active, ids);
      if IdOf(active[0]) !in ids {
        forall i, j | 0 <= i < j < |k| ensures IdOf(k[i]) != IdOf(k[j]) {
          if i == 0 {
            assert k[j] in KeepNotIn(active[1..], ids) by { assert k[j] == KeepNotIn(active[1..], ids)[j - 1]; }
            assert k[j] in active[1..];
            var m :| 0 <= m < |active[1..]| && active[1..][m] == k[j];
            assert active[m + 1] == k[j];
          } else {
            assert k[i] == KeepNotIn(active[1..], ids)[i - 1] && k[j] == KeepNotIn(active[1..], ids)[j - 1];
          }
        }
      }
    }
  }

  /** With unique active IDs, failing a list of IDs removes exactly the
      records with those IDs. */
  lemma {:induction false} FailAllIsFilter(l: Ledger, ids: seq<int>)
    requires ActiveUnique(l.active)
    ensures FailAll(l, ids).active == KeepNotIn(l.active, set id | id in ids)
    decreases |ids|
  {
    if |ids| == 0 {
      assert (set id | id in ids) == {};
      KeepNotInNone(l.active);
    } else {
      var l1 := FailQuest(l, ids[0]).0;
      RemoveFirstIsFilter(l.active, ids[0]);
      assert l1.active == KeepNotIn(l.active, {ids[0]});
      KeepNotInUnique(l.active, {ids[0]});
      FailAllIsFilter(l1, ids[1..]);
      KeepNotInTwice(l.active, {ids[0]}, set id | id in ids[1..]);
      assert {ids[0]} + (set id | id in ids[1..]) == set id | id in ids;
    }
  }

  lemma {:induction false} KeepNotInNone(active: seq<QuestData>)
    ensures KeepNotIn(active, {}) == active
    decreases |active|
  {
    if |active| > 0 {
      KeepNotInNone(active[1..]);
      assert active == [active[0]] + active[1..];
    }
  }

  /** Two filters agree when their conditions agree on every record. */
  lemma {:induction false} FiltersAgree(active: seq<QuestData>, ids: set<int>, now: int)
    requires forall i :: 0 <= i < |active| ==> (IdOf(active[i]) in ids <==> Expired(active[i], now))
    ensures KeepNotIn(active, ids) == KeepUnexpired(active, now)
    decreases |active|
  {
    if |active| > 0 {
      assert forall i :: 1 <= i < |active| ==> active[i] == active[1..][i - 1];
      FiltersAgree(active[1..], ids, now);
    }
  }

  /** With unique active IDs (the ledger's invariant) a check leaves exactly
      the unexpired quests active, in their order, and adds nothing to the
      completed list. Quests without a limit are never failed. */
  lemma CheckFailsExactlyExpired(l: Ledger, now: int)
    requires ActiveUnique(l.active)
    ensures CheckExpiredQuests(l, now).active == KeepUnexpired(l.active, now)
    ensures CheckExpiredQuests(l, now).completed == l.completed
  {
    var ids := ExpiredIds(l.active, now);
    FailAllIsFilter(l, ids);
    var s := set id | id in ids;
    forall i | 0 <= i < |l.active| ensures IdOf(l.active[i]) in s <==> Expired(l.active[i], now) {
      if IdOf(l.active[i]) in s {
        var j :| 0 <= j < |l.active| && IdOf(l.active[j]) == IdOf(l.active[i]) && Expired(l.active[j], now);
        assert i == j;
      }
    }
    FiltersAgree(l.active, s, now);
  }

  /** A quest without a time limit survives every check. */
  lemma UnlimitedNeverExpires(d: QuestData, now: int)
    requires d.quest.timeLimit <= 0
    ensures !Expired(d, now)
  {
  }

  /** The unexpired records are exactly the active ones that have not
      expired. */
  lemma {:induction false} KeepUnexpiredMembers(active: seq<QuestData>, now: int)
    ensures forall d :: d in KeepUnexpired(active, now) <==> d in active && !Expired(d, now)
    decreases |active|
  {
    if |active| > 0 {
      KeepUnexpiredMembers(active[1..], now);
      assert forall d :: d in active <==> d == active[0] || d in active[1..];
    }
  }
}

=== FILE: util.dfy ===
/** Small shared vocabulary: an optional value standing in for a possibly-null
    reference, and the integer arithmetic of the engine and of C#. */
module Util {

  /** A reference that may be null. */
  datatype Option<+T> = None | Some(value: T)

  /** The engine's integer clamp: a value below `lo` becomes `lo`, otherwise a
      value above `hi` becomes `hi`. The test for `lo` comes first, so when
      `hi < lo` a large value ends up at `hi`, below `lo`. */
  function Clamp(v: int, lo: int, hi: int): (r: int)
    ensures lo <= hi ==> lo <= r <= hi
    ensures lo <= v <= hi ==> r == v
    ensures v < lo ==> r == lo
    ensures lo <= v && hi < v ==> r == hi
  {
    if v < lo then lo else if v > hi then hi else v
  }

  /** C# integer division: the quotient is truncated toward zero. */
  function TruncDiv(a: int, b: int): (q: int)
    requires b > 0
    ensures a >= 0 ==> 0 <= q && q * b <= a < q * b + b
    ensures a < 0 ==> q <= 0 && q * b - b < a <= q * b
  {
    if a >= 0 then
      DivBounds(a, b);
      a / b
    else
      DivBounds(-a, b);
      -((-a) / b)
  }

  /** The least integer not below the rational a / b. */
  function CeilDiv(a: int, b: int): (q: int)
    requires b > 0
    ensures a <= q * b < a + b
  {
    DivBounds(-a, b);
    -((-a) / b)
  }

  lemma DivBounds(n: int, b: int)
    requires b > 0
    ensures n >= 0 ==> n / b >= 0
    ensures (n / b) * b <= n < (n / b) * b + b
  {
  }

  /** Multiplying by a positive factor preserves order, in both directions. */
  lemma MulMonotone(a: int, b: int, c: int)
    requires c > 0
    ensures a <= b <==> a * c <= b * c
    ensures a < b <==> a * c < b * c
  {
    assert b * c - a * c == (b - a) * c;
    if a < b { MulPositive(b - a, c); }
    if b < a { MulPositive(a - b, c); assert a * c - b * c == (a - b) * c; }
  }

  lemma MulPositive(x: int, c: int)
    requires x > 0 && c > 0
    ensures x * c > 0
  {
  }
}
